=== FILE: README.md ===
# Mahabhunakasha plot scraper — a Dafny model

This project models the logic of a small Python tool that reads land-parcel
(plot) data from the Mahabhunakasha map service of Maharashtra. The service
is reached through a cookie-holding HTTP session. The model covers:

- **Transport**: `_post`. It sends one POST without following redirects. On
  a 302 cookie challenge it replays the same POST once with redirects
  followed. Then the status check runs.
- **Scraper**: the dropdown lookups (`_fetch_level`, `fetch_districts`,
  `fetch_talukas`, `fetch_villages`) and `get_plot_coordinates` with its
  post-processing. Also `fetch_plot_list`, and `fetch_village_boundaries`
  with its truncation and its filtering loop.
- **InfoParser**: the tolerant parser of a plot's free-text `info` field. It
  cuts at a 33-dash separator line, then at line breaks, then at the first
  colon of each line, and strips key and value.
- **ReportLinks**: the rewriting of `infoLinks` to the local `/api/report`
  proxy.
- **LocationCodes**: building a GIS code (`RVM`/`UVM` + district + taluka +
  village), its 3/2/2/rest decomposition, and the comma-terminated `codes`
  strings of the level lookups.
- **Wkt**: `parse_wkt_rings`. The regular expression `\(([\d\.\s,]+)\)` is
  modelled as a left-to-right scan. The comma split, the whitespace split
  and `float` are modelled too.
- **DxfExport**: the per-plot decisions of the DXF export. These are which
  plots are drawn, with which label, and the clamped label height.
- **PlotSort**: the plot-number sort of the plot-list route. It uses a
  numeric key and falls back to a string sort when Python cannot compare
  the keys.
- **Routes**: the checks and GIS code of `/api/plot`, the hop-by-hop header
  filter of the two proxies, and the query defaults of the map-tile proxy.

Some modules model Python itself:

- **Text**: `str.split`, `split()`, `strip`, `find`, `replace` and `in`.
- **Dict**: an insertion-ordered `dict`.
- **Json**: decoded JSON values, with `in`, `[]`, `len` and item
  assignment on every shape and the exceptions Python raises.
- **Numbers**: digit strings.

Python exceptions are `Err`/`None` values. A caught exception is modelled
where it is caught.

The network is an oracle, `Net = (history, request) -> outcome`. The
session's cookies make an answer depend on everything sent before, so
every operation takes the request history and returns it extended by the
requests it sent.

The scraper keeps no cache, makes no retries and runs no worker pool. The
plot-list request carries the session's fixed `Referer` header, not one
built from the GIS code.

## Model

| member | source | states |
|---|---|---|
| Transport.RaiseForStatus | mahabhumi_scraper.py:32 | only a 4xx or 5xx status raises (an HTTPError with that status); every other response, 3xx included, passes through unchanged |
| Transport.Post | mahabhumi_scraper.py:19-36 | the first POST goes without redirects; the same form is replayed with redirects followed exactly when the first answer is a 302, so at most two requests are sent; the result is the status check of the last answer |
| Transport.OtherRedirectPassesThrough | mahabhumi_scraper.py:25-33 | a 3xx other than 302 is returned to the caller without error after a single request |
| Transport.ChallengeReplayedOnce | mahabhumi_scraper.py:28-32 | after a 302 exactly one replay is sent, and its answer decides the result even when it is another 302 |
| Json.In | mahabhumi_scraper.py:118 | `key in v` is key membership for a dict and substring search for a string; it raises exactly for None, booleans and numbers |
| Json.GetItem | mahabhumi_scraper.py:221 | `v[key]` succeeds exactly on a dict holding the key and gives that key's value; a dict without it raises KeyError |
| Json.Len | mahabhumi_scraper.py:71 | `len` is defined exactly on strings, lists and dicts, and is zero exactly for the falsy ones |
| Json.First | mahabhumi_scraper.py:72 | `v[0]` succeeds exactly on a non-empty list or string and gives its first item or character |
| Json.SetItem | mahabhumi_scraper.py:144 | item assignment succeeds exactly on a dict; the key then holds the new value and no other key's value changes |
| Scraper.FetchLevel | mahabhumi_scraper.py:38-58 | posts the level form through `_post`; when nothing raised, the answer is exactly the decoded body, and it is `[]` when anything did |
| Scraper.FirstOrEmpty | mahabhumi_scraper.py:71-73 | a falsy answer gives `[]`, a non-empty list its first element; it raises exactly for a truthy answer that is neither list nor string |
| Scraper.FetchFirst | mahabhumi_scraper.py:68-73 | a failed request or an empty list answer gives `[]`; a list answer gives its first element; it can raise only on a decoded answer |
| Scraper.FetchDistricts | mahabhumi_scraper.py:60-73 | level 1 is asked with the codes `C,`; a list answer gives its first element, an empty list or a failed exchange gives `[]`, and an error escapes only from a decoded answer |
| Scraper.FetchTalukas | mahabhumi_scraper.py:75-86 | level 2 is asked with the codes `C,D,`; a list answer gives its first element, an empty list or a failed exchange gives `[]`, and an error escapes only from a decoded answer |
| Scraper.FetchVillages | mahabhumi_scraper.py:88-99 | level 3 is asked with the codes `C,D,T,`; a list answer gives its first element, an empty list or a failed exchange gives `[]`, and an error escapes only from a decoded answer |
| Scraper.RecordsJson | mahabhumi_scraper.py:125-144 | one JSON object per parsed record, in record order, with the record's keys in order and each value as a string |
| Scraper.WithRecords | mahabhumi_scraper.py:123-144 | a non-empty `info` string adds its parsed records under `parsed_records`; a missing or falsy `info` leaves the data unchanged; a truthy non-string `info` raises; no other field changes |
| Scraper.WithProxyLinks | mahabhumi_scraper.py:147-151 | a non-empty `infoLinks` string is replaced by its rewrite; a missing or falsy one leaves the data unchanged; a truthy non-string raises; no report page name is left in the links, and no other field changes |
| Scraper.PostProcess | mahabhumi_scraper.py:117-158 | an answer without `the_geom` is returned as decoded; for one with it, `parsed_records` holds the records of a non-empty `info` and is untouched otherwise, and `infoLinks` holds the rewrite of a non-empty link text and is untouched otherwise; a dict answer with `the_geom` fails exactly when `info` or `infoLinks` is truthy but not text; a list or string answer with `the_geom` fails exactly when it also holds `info` or `infoLinks`, as an element or a substring; any answer on which `in` raises fails |
| Scraper.GetPlotCoordinates | mahabhumi_scraper.py:101-158 | posts giscode, plot number and state through `_post`; a failed exchange gives `None`, a decoded answer its post-processed form |
| Scraper.FetchPlotList | mahabhumi_scraper.py:160-186 | a single POST with redirects followed, for the GIS code built from the parts; a decoded answer with a length is returned as it is, one without a length gives `[]`, and so does a failed exchange |
| Scraper.Take | mahabhumi_scraper.py:211 | Python's `xs[:n]`: a prefix of length `min(n, len)`; a negative `n` drops that many items from the end |
| Scraper.PlotsToFetch | mahabhumi_scraper.py:211 | slicing succeeds exactly on a list or string, and a non-negative bound caps the count |
| Scraper.Keep | mahabhumi_scraper.py:216-225 | a plot is kept exactly when its data is a dict holding `the_geom`, as `{plot_no, geometry}` with that geometry |
| Scraper.Collect | mahabhumi_scraper.py:214-225 | plot by plot, in order, the output is exactly the entries `Keep` accepts from that plot's answer, each plot queried after the requests of the plots before it; the kept plot numbers are an ordered subsequence of the plots; each plot costs one or two requests |
| Scraper.Histories | mahabhumi_scraper.py:215-217 | each turn of the loop starts from the history the previous turn left and sends exactly that plot's `getPlotInfo` form |
| Scraper.CollectComplete | mahabhumi_scraper.py:214-225 | when every plot answers with a plain geometry, every plot is kept, in order |
| Scraper.CollectKeepsAll | mahabhumi_scraper.py:214-225 | when every plot's data holds `the_geom` whatever was sent before, the output plot numbers are exactly the input list |
| Scraper.FetchVillageBoundaries | mahabhumi_scraper.py:188-228 | an empty plot list gives `[]` after one request; otherwise the result is the loop run over the first `max_plots` plots, an ordered subsequence of them never longer than `max_plots`; a plot list that cannot be sliced raises |
| InfoParser.SplitAtColon | mahabhumi_scraper.py:138 | the cut is at the first colon: key, colon and value give the line back, and the key holds no colon |
| InfoParser.SplitAtColonAt | mahabhumi_scraper.py:138 | for a colon-free key, `key:value` splits back into that key and that value, even when the value holds colons |
| InfoParser.ParseLineOf | mahabhumi_scraper.py:137-139 | a line `key:value` contributes the stripped key and the stripped value |
| InfoParser.SpacedLine | mahabhumi_scraper.py:137-139 | a line `k : v` with unpadded `k` and `v` contributes exactly `(k, v)` |
| InfoParser.ParseLinesLastWins | mahabhumi_scraper.py:136-139 | in a chunk's record, a key maps to the value of the last line carrying it, and a key no line carries is absent |
| InfoParser.AssignLastWins | mahabhumi_scraper.py:136-139 | the same, for any line parser: the fold of dict assignments keeps each key's last value |
| InfoParser.ParseLinesUnique | mahabhumi_scraper.py:134-139 | no key occurs twice in a record |
| InfoParser.ParseLinesEmpty | mahabhumi_scraper.py:136-141 | a record is empty exactly when none of its lines holds a colon |
| InfoParser.ChunkOfLines | mahabhumi_scraper.py:131-135 | whitespace around a chunk's lines does not change its record |
| InfoParser.ParseChunks | mahabhumi_scraper.py:130-142 | at most one record per chunk, and no record is empty |
| InfoParser.Gather | mahabhumi_scraper.py:130-142 | keeping only non-empty results gives at most one per item and none empty |
| InfoParser.ParseInfo | mahabhumi_scraper.py:128-142 | at most as many records as separator-delimited chunks, and every record non-empty |
| InfoParser.ParseChunksAppend | mahabhumi_scraper.py:130-142 | records follow chunk order: parsing two chunk lists in a row gives the records of each, concatenated |
| InfoParser.ParseInfoJoin | mahabhumi_scraper.py:128-142 | text joined with the separator from chunks that hold no separator, and of which none but the last ends with a dash, parses chunk by chunk |
| InfoParser.DashRunSplit | mahabhumi_scraper.py:128 | a run of 34 dashes is cut at its start, leaving the extra dash to the following chunk |
| InfoParser.TwoFieldChunk | mahabhumi_scraper.py:134-142 | a chunk of two `key : value` lines with distinct keys gives one record with both fields in line order |
| InfoParser.TwoChunks | mahabhumi_scraper.py:128-142 | two chunks around the separator give two records, in chunk order |
| InfoParser.InfoExample | mahabhumi_scraper.py:121-142 | `Survey No. : 1`, `Area : 2.5`, separator, `Owner : X` gives `[{Survey No.: 1, Area: 2.5}, {Owner: X}]` |
| ReportLinks.RewriteInfoLinks | mahabhumi_scraper.py:149-151 | afterwards neither `signplotreport.jsp` nor `signplotreportpublic.jsp` occurs, and text holding neither is unchanged |
| ReportLinks.RewriteSplitJoin | mahabhumi_scraper.py:149-151 | for every input, the rewritten text is the three page names split out in source order, with the pieces joined by `/api/report` each time |
| ReportLinks.RelativeLinkExample | mahabhumi_scraper.py:149 | `../signplotreport.jsp` followed by any query that names neither page becomes `/api/report` with the same query, not `../api/report` |
| ReportLinks.PublicLinkExample | mahabhumi_scraper.py:150-151 | `signplotreportpublic.jsp` followed by any query that names neither page becomes `/api/report` with the same query; the plain page's replacement does not touch it |
| ReportLinks.PublicHasNoReport | mahabhumi_scraper.py:150 | the plain page name occurs after the public one only inside the query: no suffix of the public name starts it |
| LocationCodes.Prefix | mahabhumi_scraper.py:168 | three characters; `RVM` exactly for category `R`, `UVM` for every other category |
| LocationCodes.GisCode | mahabhumi_scraper.py:168-169 | the prefix of the category followed by district, taluka and village |
| LocationCodes.Slice | mahabhumi_scraper.py:198-199 | Python slicing with clamped ends: an in-range slice is the substring, one past the end is empty |
| LocationCodes.Decompose | mahabhumi_scraper.py:197-200 | the four parts concatenate to the code; a code of at least seven characters gives parts of widths 3, 2 and 2 |
| LocationCodes.CategoryOf | mahabhumi_scraper.py:201 | the category is `R` exactly for the prefix `RVM` |
| LocationCodes.Rebuild | mahabhumi_scraper.py:197-204 | the code the boundary fetch queries keeps everything after the prefix, and starts with `RVM` exactly when the code did |
| LocationCodes.RebuildExact | mahabhumi_scraper.py:197-201 | decomposing, mapping to a category and rebuilding gives the code back exactly when it starts with `RVM` or `UVM` |
| LocationCodes.PrefixFixed | mahabhumi_scraper.py:201 | only `RVM` and `UVM` survive the trip through a category letter |
| LocationCodes.DecomposeGisCode | mahabhumi_scraper.py:168-169 | for two-character district and taluka, decomposing a built code gives its parts back, and the rebuild is the identity |
| LocationCodes.LevelCodes | mahabhumi_scraper.py:67 | splitting the codes string at commas gives the comma-free parent codes and an empty tail |
| LocationCodes.DistrictCodes | mahabhumi_scraper.py:67 | splits into the category and an empty tail |
| LocationCodes.TalukaCodes | mahabhumi_scraper.py:81 | splits into category, district and an empty tail |
| LocationCodes.VillageCodes | mahabhumi_scraper.py:94 | splits into category, district, taluka and an empty tail |
| LocationCodes.LevelCodesShape | mahabhumi_scraper.py:67-94 | the three level strings are `C,`, `C,D,` and `C,D,T,` |
| Wkt.Run | generate_sample_dxf.py:14 | the greedy run: a prefix of class characters `[\d\.\s,]` followed by a non-class character or the end |
| Wkt.FindGroups | generate_sample_dxf.py:14 | every group found is non-empty and made of class characters only |
| Wkt.GroupsCons | generate_sample_dxf.py:14 | a parenthesised run of class characters is found as a group, and the scan resumes after it |
| Wkt.GroupsBroken | generate_sample_dxf.py:14 | a `(` whose run stops at a minus sign, a letter or a nested parenthesis gives no group there |
| Wkt.GroupsSkip | generate_sample_dxf.py:14 | text without `(` contributes no group |
| Wkt.ParseFloat | generate_sample_dxf.py:24-25 | a token of digits and dots parses exactly when it has at least one digit and at most one dot |
| Wkt.ParseFloatDigits | generate_sample_dxf.py:24-25 | a printed whole number parses back to its value |
| Wkt.ParseFloatDecimal | generate_sample_dxf.py:24-25 | a token `w.f` of digits, with at least one of `w` and `f` non-empty, reads as `w` plus `f` over the matching power of ten |
| Wkt.DecimalTokens | generate_sample_dxf.py:24-25 | `2.5`, `.5` and `1.` read as 2.5, 0.5 and 1.0 |
| Wkt.ParseDecimalText | generate_sample_dxf.py:24-25 | a coordinate printed with a fixed number of decimal places reads back as its exact value |
| Wkt.TwoDotsRejected | generate_sample_dxf.py:23-28 | `1.2.3` is rejected |
| Wkt.LoneDotRejected | generate_sample_dxf.py:23-28 | `.` is rejected |
| Wkt.ParseCoords | generate_sample_dxf.py:21-26 | fewer than two tokens give no point; otherwise a point exactly when both first tokens parse |
| Wkt.ParsePairIgnoresExtra | generate_sample_dxf.py:21-26 | tokens after the second (a Z value) do not change the point |
| Wkt.ParsePairs | generate_sample_dxf.py:19-28 | at most one point per item |
| Wkt.NonEmpty | generate_sample_dxf.py:29-30 | empty rings are dropped, every non-empty one is kept, and none comes out empty |
| Wkt.ParseWktRings | generate_sample_dxf.py:16-31 | at most one ring per group, and no ring empty |
| Wkt.RingsCons | generate_sample_dxf.py:16-31 | rings come out in group order; a group with no valid pair adds nothing |
| Wkt.RingsSkip | generate_sample_dxf.py:14 | text without `(`, such as the `POLYGON` keyword, adds no ring |
| Wkt.WktRoundTrip | generate_sample_dxf.py:9-31 | a polygon written from points with decimal coordinates parses back to exactly the values of its one ring |
| Wkt.SquareExample | generate_sample_dxf.py:9-31 | `POLYGON((0 0,1 0,1 1,0 1,0 0))` gives one ring of the five points |
| DxfExport.TextHeight | generate_sample_dxf.py:148-153 | the height lies in [0.5, 5.0]; a degenerate box gives 0.5; between the clamps it is a fifth of the smaller side |
| DxfExport.TextHeightClamps | generate_sample_dxf.py:148-153 | the height is 0.5 exactly for a degenerate box or a smaller side of at most 2.5, and 5.0 exactly for a smaller side of at least 25 |
| DxfExport.TextHeightMonotone | generate_sample_dxf.py:148-153 | a larger box never gets a smaller label |
| DxfExport.DrawPlot | generate_sample_dxf.py:110-119 | nothing is drawn for non-dict data, a missing, empty or non-string `the_geom`, or no rings; otherwise the rings are drawn under `plotno`, or `Unknown` without one |
| DxfExport.DrawAll | generate_sample_dxf.py:108-166 | at most one drawing per plot, each with a ring |
| DxfExport.DrawAllAppend | generate_sample_dxf.py:108-166 | plots are drawn independently: a failing plot does not affect the others |
| DxfExport.DrawAllCount | generate_sample_dxf.py:108-119 | all drawable plots are all drawn; if none is drawable, nothing is |
| PlotSort.PlotKey | app.py:58 | an all-digit plot number keys as its integer; the key is the string itself exactly when neither the digit test nor the one-dot test passes |
| PlotSort.PlotKeyDecimal | app.py:58 | a plot number `w.f` of digits with one dot, not both sides empty, keys as the number `w` plus `f` over the matching power of ten |
| PlotSort.OneDotAt | app.py:58 | the one-dot test removes the first dot, and passes exactly when digits remain |
| PlotSort.LexTotal | app.py:60 | Python's string order is total |
| PlotSort.LexAntisymmetric | app.py:60 | Python's string order is antisymmetric |
| PlotSort.LexTransitive | app.py:60 | Python's string order is transitive |
| PlotSort.KeyTotal | app.py:58 | the key order is total |
| PlotSort.KeyTransitive | app.py:58 | the key order is transitive |
| PlotSort.SortBy | app.py:58-60 | the result is a permutation of the input, in key order |
| PlotSort.SortStable | app.py:58-60 | elements sharing a key keep their input order |
| PlotSort.SortPlots | app.py:56-61 | a permutation; ascending by numeric value when every plot number reads as a number, otherwise ascending as strings |
| PlotSort.DigitStringsAscending | app.py:56-58 | all-digit plot numbers come out in ascending integer order, every pair |
| PlotSort.SortPlotsStable | app.py:58 | equal numbers such as `01` and `1` keep their input order |
| PlotSort.WordKeysAgree | app.py:57-60 | when no plot number reads as a number, the key sort gives the plain string sort |
| Routes.GetPlot | app.py:223-242 | 400 exactly when a parameter is missing or empty, with no request sent; otherwise the plot is fetched, a truthy answer (even one without `the_geom`) is returned with 200, anything else gives 404 |
| Routes.PlotGisCodeDecomposes | app.py:232-235 | the route's GIS code decomposes into the route's own parameters and survives the boundary fetch's rebuild |
| Routes.AsciiLower | app.py:89 | same length, each character lowered |
| Routes.AsciiLowerIdempotent | app.py:89 | lowering twice is lowering once |
| Routes.FilterHeaders | app.py:87-89 | a header is kept exactly when its name, in any case, is not one of the four hop-by-hop names |
| Routes.FilterHeadersAppend | app.py:87-89 | filtering is header by header, so the kept headers stay in upstream order |
| Routes.FilterHeadersIdempotent | app.py:116-118 | filtering again removes nothing more |
| Routes.HopByHopIgnoresCase | app.py:87-89 | the exclusion does not depend on the case of the name |
| Routes.WmsParams | app.py:77-82 | `FORMAT` becomes `image/png` only when that exact key is absent; `TRANSPARENT=TRUE` and `transparent=true` are always set; no other key changes and the existing keys keep their order |
| Routes.WmsParamsIdempotent | app.py:77-82 | applying the defaults twice is applying them once |
| Text.Find | app.py:58 | the leftmost occurrence, or none exactly when the pattern does not occur |
| Text.Split | mahabhumi_scraper.py:128 | at least one part; joining the parts with the separator gives the text back, no part holds the separator, and the first cut is at the leftmost occurrence |
| Text.SplitCuts | mahabhumi_scraper.py:128 | every cut is at the leftmost occurrence: a part followed by the separator holds it only at the end |
| Text.SplitJoin | mahabhumi_scraper.py:135 | splitting undoes joining exactly under the cut condition: every part but the last is cut leftmost and the last holds no separator |
| Text.Strip | mahabhumi_scraper.py:131 | the result has no whitespace at either end, and is empty exactly when the text is all whitespace |
| Text.StripPadded | mahabhumi_scraper.py:139 | stripping removes exactly the surrounding whitespace |
| Text.Words | generate_sample_dxf.py:21 | `split()` gives non-empty words without whitespace |
| Text.WordsJoin | generate_sample_dxf.py:21 | splitting on whitespace undoes joining words with single spaces |
| Text.ReplaceAll | mahabhumi_scraper.py:149-151 | text without the pattern is unchanged; a shielded string absent before is absent after, the replaced pattern included; its exact text for every input is `Text.ReplaceIsJoinSplit` |
| Text.ReplaceIsJoinSplit | mahabhumi_scraper.py:149-151 | `s.replace(src, dst)` is `dst.join(s.split(src))`: every leftmost, non-overlapping occurrence becomes `dst` and the text between occurrences is kept |
| Text.ReplaceLeadingOccurrence | mahabhumi_scraper.py:149 | a leading occurrence is replaced and a pattern-free rest is kept |
| Dict.Get | mahabhumi_scraper.py:124 | a value is found exactly for a present key, and it is that key's entry |
| Dict.KeysAt | mahabhumi_scraper.py:118 | `list(d)`: the i-th key is the key of the i-th entry, one key per entry in insertion order |
| Dict.GetOr | generate_sample_dxf.py:110 | the key's value when present, the default otherwise |
| Dict.Put | mahabhumi_scraper.py:139 | the key then holds the value; an existing key keeps its position, and a new one is appended |
| Dict.PutOther | mahabhumi_scraper.py:139 | assigning one key leaves every other key's value alone |
| Dict.PutUnique | mahabhumi_scraper.py:139 | assignment keeps keys unique |
| Numbers.NatToDigits | mahabhumi_scraper.py:45 | `str(n)`: a digit string whose value is `n`, with no superfluous leading zero |
| Numbers.DigitsRoundTrip | app.py:58 | reading a digit string without superfluous leading zeros and printing it back gives the string |

## Left out

- HTTP and Flask plumbing is not modelled: sessions, headers sent, timeouts, routing, `jsonify`, and the streaming of proxy bodies. Responses reach the model only through the network oracle.
- The routes that only forward to the scraper (districts, talukas, villages, plot list, village boundaries) are not modelled beyond the plot-list sort.
- batch_fetch.py is not part of this model. It calls a constructor argument, a worker count and a cache that the scraper does not have.
- Floating-point geometry is not modelled: the map-tile bounding box and padding, and the centroid and bounding box of `calculate_polygon_properties`.
- The DXF file, its layers, points and coordinate labels are not modelled; ezdxf is not available to read.
- Logging (`print`), `save_metadata` and JSON encoding and decoding are not modelled. Bodies arrive already decoded, or as a decoding error.
- `get_coords.py`, `test_plot_list.py` and the tests are live-network scripts or assert properties of ezdxf. They are not modelled.
- The second `raise_for_status` in `get_plot_coordinates` is not modelled separately, because it repeats a check that `_post` has already passed.
- Scraper.PlotsToFetch: the model does not name the exception type for slicing a dict. It only records that slicing raises, and the boundary fetch lets that escape.
- Wkt.ParseFloat: it is exact only on tokens of digits and dots. These are the only tokens the regular expression lets through once whitespace and commas are split off. IEEE rounding is not modelled; values are exact reals.
- Wkt.GroupChar: `\d` is taken as the ASCII digits. Python's `re` and `float` also accept other Unicode decimal digits, which are left out.
- PlotSort.PlotKey: a `float` key is an exact real. IEEE rounding could make Python treat two nearly equal plot numbers as equal, and so order them differently.
- Numbers.DigitsRoundTrip: digits are ASCII `0`-`9`. Python's `isdigit` and `int` also accept other Unicode digits, which are left out.
- Routes.AsciiLower: only ASCII letters are lowered. Against the four lower-case ASCII header names this decides membership as Python's full `lower` does.
- DxfExport.TextHeight: takes the bounding box's width and height as parameters, because their floating-point computation is left out.
- DxfExport.DrawPlot: the label is the `plotno` value itself, not its `f"{plot_no}"` rendering.
- PlotSort.SortPlots: the plot list is taken to be a list of strings. Other entry types, and a dict or string answer, are left out.

=== FILE: dict.dfy ===
/** Python's `dict` with string keys, as an insertion-ordered association list.

    Assigning to a key that is already present overwrites its value in place;
    assigning to a new key appends it at the end. Lookups find the first entry
    with the key, which is the only one whenever the keys are unique. */
module Dict {
  import opened Wrappers

  type Dict<V> = seq<(string, V)>

  /** `list(d)`: the keys in insertion order. */
  function Keys<V>(d: Dict<V>): (ks: seq<string>)
    ensures |ks| == |d|
  {
    if d == [] then [] else [d[0].0] + Keys(d[1..])
  }

  /** The `i`-th key is the key of the `i`-th entry. */
  lemma {:induction false} KeysAt<V>(d: Dict<V>)
    ensures forall i :: 0 <= i < |d| ==> Keys(d)[i] == d[i].0
  {
    if d != [] {
      KeysAt(d[1..]);
    }
  }

  /** No key occurs twice: what every Python dict satisfies. */
  ghost predicate UniqueKeys<V>(d: Dict<V>)
  {
    var ks := Keys(d);
    forall i, j :: 0 <= i < j < |ks| ==> ks[i] != ks[j]
  }

  /** `k in d`. */
  predicate Has<V>(d: Dict<V>, k: string)
  {
    k in Keys(d)
  }

  /** `d.get(k)`: the value of the first entry with key `k`. */
  function Get<V>(d: Dict<V>, k: string): (r: Option<V>)
    ensures r.Some? <==> Has(d, k)
    ensures r.Some? ==> (k, r.value) in d
  {
    if d == [] then None
    else if d[0].0 == k then Some(d[0].1)
    else Get(d[1..], k)
  }

  /** `d.get(k, default)`. */
  function GetOr<V>(d: Dict<V>, k: string, default: V): (r: V)
    ensures Has(d, k) ==> Some(r) == Get(d, k)
    ensures !Has(d, k) ==> r == default
  {
    match Get(d, k)
    case Some(v) => v
    case None => default
  }

  /** `d[k] = v`. */
  function Put<V>(d: Dict<V>, k: string, v: V): (r: Dict<V>)
    ensures Get(r, k) == Some(v)
    ensures Has(d, k) ==> Keys(r) == Keys(d)
    ensures !Has(d, k) ==> Keys(r) == Keys(d) + [k]
  {
    if d == [] then [(k, v)]
    else if d[0].0 == k then
      KeysCons((k, v), d[1..]);
      [(k, v)] + d[1..]
    else
      var rest := Put(d[1..], k, v);
      ConsOther(d[0], rest, k);
      ConsOther(d[0], d[1..], k);
      assert [d[0]] + d[1..] == d;
      [d[0]] + rest
  }

  /** An entry with another key in front changes neither the lookup nor the
      membership of `k`. */
  lemma ConsOther<V>(e: (string, V), rest: Dict<V>, k: string)
    requires e.0 != k
    ensures Keys([e] + rest) == [e.0] + Keys(rest)
    ensures Get([e] + rest, k) == Get(rest, k)
    ensures Has([e] + rest, k) <==> Has(rest, k)
  {
    KeysCons(e, rest);
    assert ([e] + rest)[1..] == rest;
  }

  lemma KeysCons<V>(e: (string, V), rest: Dict<V>)
    ensures Keys([e] + rest) == [e.0] + Keys(rest)
  {
    assert ([e] + rest)[1..] == rest;
  }

  /** Assignment keeps the keys in place and adds at most one at the end. */
  lemma PutKeys<V>(d: Dict<V>, k: string, v: V)
    ensures |Keys(d)| <= |Keys(Put(d, k, v))| <= |Keys(d)| + 1
    ensures Keys(Put(d, k, v))[..|Keys(d)|] == Keys(d)
  {
    var ks, ks' := Keys(d), Keys(Put(d, k, v));
    if Has(d, k) {
      assert ks' == ks;
    } else {
      assert ks' == ks + [k];
    }
  }

  /** Assigning one key leaves every other key's value alone. */
  lemma {:induction false} PutOther<V>(d: Dict<V>, k: string, v: V, k': string)
    requires k' != k
    ensures Get(Put(d, k, v), k') == Get(d, k')
  {
    if d != [] && d[0].0 != k {
      var rest := Put(d[1..], k, v);
      assert Put(d, k, v)[1..] == rest;
      PutOther(d[1..], k, v, k');
    } else if d != [] {
      assert Put(d, k, v)[1..] == d[1..];
    }
  }

  /** Assignment keeps the keys of a dict unique. */
  lemma PutUnique<V>(d: Dict<V>, k: string, v: V)
    requires UniqueKeys(d)
    ensures UniqueKeys(Put(d, k, v))
  {
    var ks, ks' := Keys(d), Keys(Put(d, k, v));
    if !Has(d, k) {
      forall i, j | 0 <= i < j < |ks'|
        ensures ks'[i] != ks'[j]
      {
        if j == |ks| {
          assert ks'[i] == ks[i] && ks'[j] == k;
        }
      }
    }
  }

  /** Assigning a key the value it already has changes nothing. */
  lemma {:induction false} PutExisting<V>(d: Dict<V>, k: string)
    requires Has(d, k)
    ensures Put(d, k, Get(d, k).value) == d
  {
    if d[0].0 != k {
      PutExisting(d[1..], k);
      assert d == [d[0]] + d[1..];
    } else {
      assert d == [d[0]] + d[1..];
    }
  }
}

=== FILE: dxf_export.dfy ===
/** The per-plot decisions of the DXF export: which cached plots produce
    drawing entities, with which label, and how tall the label is.

    The drawing itself (polylines, points, coordinate labels, the file) is
    not modelled: a plot that is drawn is represented by its label and its
    rings. */
module DxfExport {
  import opened Wrappers
  import opened Dict
  import opened Json
  import Wkt

  const MinTextHeight: real := 0.5
  const MaxTextHeight: real := 5.0

  function Min(a: real, b: real): real
  {
    if a <= b then a else b
  }

  /** The label height: a fifth of the smaller side of the ring's bounding
      box (of 1.0 when either side is zero), clamped to [0.5, 5.0]. */
  function TextHeight(width: real, height: real): (h: real)
    ensures MinTextHeight <= h <= MaxTextHeight
    ensures !(width > 0.0 && height > 0.0) ==> h == MinTextHeight
    ensures width > 0.0 && height > 0.0 && 2.5 <= Min(width, height) <= 25.0
            ==> h * 5.0 == Min(width, height)
  {
    var minDim := if width > 0.0 && height > 0.0 then Min(width, height) else 1.0;
    var h := minDim * 0.2;
    var h := if h < 0.5 then 0.5 else h;
    if h > 5.0 then 5.0 else h
  }

  /** The clamps are hit exactly when the box is degenerate or its smaller
      side is at most 2.5, and when the smaller side is at least 25. */
  lemma TextHeightClamps(width: real, height: real)
    ensures TextHeight(width, height) == MinTextHeight
        <==> !(width > 0.0 && height > 0.0) || Min(width, height) <= 2.5
    ensures TextHeight(width, height) == MaxTextHeight
        <==> width > 0.0 && height > 0.0 && Min(width, height) >= 25.0
  {
  }

  /** A bigger plot never gets a smaller label. */
  lemma TextHeightMonotone(w1: real, h1: real, w2: real, h2: real)
    requires 0.0 < w1 <= w2 && 0.0 < h1 <= h2
    ensures TextHeight(w1, h1) <= TextHeight(w2, h2)
  {
  }

  /** What the export draws for one plot. */
  datatype Drawing = Drawing(title: Value, rings: seq<seq<Wkt.Point>>)

  /** One plot of the cache: nothing when it is not a dict (`data.get`
      raises and the loop moves on), when `the_geom` is missing or empty,
      when it is not a string (the regular expression raises), or when it
      gives no ring; otherwise its rings under the label `plotno`, or
      `Unknown` without one. */
  function DrawPlot(data: Value): (r: Option<Drawing>)
    ensures !data.JObj? ==> r.None?
    ensures Field(data, "the_geom").None? ==> r.None?
    ensures Field(data, "the_geom") == Some(JStr("")) ==> r.None?
    ensures var g := Field(data, "the_geom");
            g.Some? && !g.value.JStr? ==> r.None?
    ensures var g := Field(data, "the_geom");
            g.Some? && g.value.JStr? ==>
              (r.Some? <==> Wkt.ParseWktRings(g.value.s) != [])
              && (r.Some? ==> r.value.rings == Wkt.ParseWktRings(g.value.s))
    ensures r.Some? && Field(data, "plotno").None? ==> r.value.title == JStr("Unknown")
    ensures r.Some? && Field(data, "plotno").Some? ==> r.value.title == Field(data, "plotno").value
    ensures r.Some? ==> forall i :: 0 <= i < |r.value.rings| ==> r.value.rings[i] != []
  {
    match data
    case JObj(fs) =>
      var title := GetOr(fs, "plotno", JStr("Unknown"));
      var wkt := GetOr(fs, "the_geom", JStr(""));
      if !Truthy(wkt) then None
      else if !wkt.JStr? then None
      else
        var rings := Wkt.ParseWktRings(wkt.s);
        if rings == [] then None else Some(Drawing(title, rings))
    case _ => None
  }

  /** The export loop: every plot is tried, and one that fails or is skipped
      does not stop the others. */
  function DrawAll(plots: seq<Value>): (ds: seq<Drawing>)
    ensures |ds| <= |plots|
    ensures forall i :: 0 <= i < |ds| ==> ds[i].rings != []
  {
    if plots == [] then []
    else
      var rest := DrawAll(plots[1..]);
      match DrawPlot(plots[0])
      case Some(d) => [d] + rest
      case None => rest
  }

  /** Plots are drawn independently: exporting two lists one after the
      other gives the same drawings as exporting them together. */
  lemma {:induction false} DrawAllAppend(a: seq<Value>, b: seq<Value>)
    ensures DrawAll(a + b) == DrawAll(a) + DrawAll(b)
  {
    if a == [] {
      assert a + b == b;
    } else {
      assert (a + b)[0] == a[0];
      assert (a + b)[1..] == a[1..] + b;
      DrawAllAppend(a[1..], b);
    }
  }

  /** When every plot is drawable every plot is drawn; when none is,
      nothing is. */
  lemma {:induction false} DrawAllCount(plots: seq<Value>)
    ensures (forall i :: 0 <= i < |plots| ==> DrawPlot(plots[i]).Some?)
            ==> |DrawAll(plots)| == |plots|
    ensures (forall i :: 0 <= i < |plots| ==> DrawPlot(plots[i]).None?)
            ==> DrawAll(plots) == []
  {
    DrawAllFilters(plots);
    FilterMapCount(DrawPlot, plots);
  }

  /** The export loop keeps exactly the plots that draw, in order. */
  lemma {:induction false} DrawAllFilters(plots: seq<Value>)
    ensures DrawAll(plots) == Wkt.FilterMap(DrawPlot, plots)
  {
    if plots != [] {
      DrawAllFilters(plots[1..]);
    }
  }

  /** Keeping the present results of `f`: all when `f` always answers,
      none when it never does. */
  lemma {:induction false} FilterMapCount<A, B>(f: A -> Option<B>, xs: seq<A>)
    ensures (forall i :: 0 <= i < |xs| ==> f(xs[i]).Some?)
            ==> |Wkt.FilterMap(f, xs)| == |xs|
    ensures (forall i :: 0 <= i < |xs| ==> f(xs[i]).None?)
            ==> Wkt.FilterMap(f, xs) == []
  {
    if xs != [] {
      FilterMapCount(f, xs[1..]);
      assert forall i :: 1 <= i < |xs| ==> xs[i] == xs[1..][i - 1];
    }
  }
}

=== FILE: info_parser.dfy ===
/** The tolerant parser for the free-text `info` field of a plot
    (mahabhumi_scraper.py, `get_plot_coordinates`).

    The text is cut at a fixed dashed separator line into chunks; each chunk
    is stripped and cut into lines; every line holding a colon contributes one
    key/value pair, cut at its first colon and stripped. A chunk that yields
    no pair yields no record. */
module InfoParser {
  import opened Wrappers
  import opened Text
  import opened Dict

  /** The separator line: 33 dashes. */
  const Separator: string := "---------------------------------"

  /** One owner/area record: field name to field value, in first-seen order. */
  type Record = Dict<string>

  /** `line.split(':', 1)` on a line that holds a colon. */
  function SplitAtColon(line: string): (kv: (string, string))
    requires ':' in line
    ensures kv.0 + ":" + kv.1 == line
    ensures ':' !in kv.0
  {
    FindChar(line, ':');
    assert [':'] == ":";
    var j := Find(line, ":").value;
    assert forall p :: 0 <= p < j ==> line[..j][p] == line[p];
    assert line[..j] + ":" + line[j + 1..] == line;
    (line[..j], line[j + 1..])
  }

  /** The stripped key and value a line contributes, if it holds a colon. */
  function ParseLine(line: string): Option<(string, string)>
  {
    if ':' in line then
      var kv := SplitAtColon(line);
      Some((Strip(kv.0), Strip(kv.1)))
    else None
  }

  /** The record built from `lines`, assigning each pair in turn. */
  function ParseLines(lines: seq<string>): Record
  {
    Assign(ParseLine, lines)
  }

  /** Reference definition: the value of the last line whose key is `k`. */
  function LastValue(lines: seq<string>, k: string): Option<string>
  {
    LastBy(ParseLine, lines, k)
  }

  /** The assignments `record[key] = value` that `parse` reads from the
      lines, applied in line order (a left fold, written on the prefix so
      it runs front to back). */
  function Assign(parse: string -> Option<(string, string)>, lines: seq<string>): Record
    decreases |lines|
  {
    if lines == [] then []
    else
      var r := Assign(parse, lines[..|lines| - 1]);
      match parse(lines[|lines| - 1])
      case Some(kv) => Put(r, kv.0, kv.1)
      case None => r
  }

  /** The value the last line with key `k` carries, searching from the back. */
  function LastBy(parse: string -> Option<(string, string)>, lines: seq<string>, k: string): Option<string>
    decreases |lines|
  {
    if lines == [] then None
    else
      match parse(lines[|lines| - 1])
      case Some(kv) =>
        if kv.0 == k then Some(kv.1) else LastBy(parse, lines[..|lines| - 1], k)
      case None => LastBy(parse, lines[..|lines| - 1], k)
  }

  /** A repeated key keeps the value of its last line; a key no line
      carries is absent. */
  lemma ParseLinesLastWins(lines: seq<string>, k: string)
    ensures Get(ParseLines(lines), k) == LastValue(lines, k)
  {
    AssignLastWins(ParseLine, lines, k);
  }

  lemma {:induction false} AssignLastWins(parse: string -> Option<(string, string)>, lines: seq<string>, k: string)
    ensures Get(Assign(parse, lines), k) == LastBy(parse, lines, k)
    decreases |lines|
  {
    if lines != [] {
      var init := lines[..|lines| - 1];
      AssignLastWins(parse, init, k);
      match parse(lines[|lines| - 1])
      case Some(kv) =>
        if kv.0 != k {
          PutOther(Assign(parse, init), kv.0, kv.1, k);
        }
      case None =>
    }
  }

  /** Keys are never repeated in a record. */
  lemma ParseLinesUnique(lines: seq<string>)
    ensures UniqueKeys(ParseLines(lines))
  {
    AssignUnique(ParseLine, lines);
  }

  lemma {:induction false} AssignUnique(parse: string -> Option<(string, string)>, lines: seq<string>)
    ensures UniqueKeys(Assign(parse, lines))
    decreases |lines|
  {
    if lines != [] {
      var init := lines[..|lines| - 1];
      AssignUnique(parse, init);
      match parse(lines[|lines| - 1])
      case Some(kv) => PutUnique(Assign(parse, init), kv.0, kv.1);
      case None =>
    }
  }

  /** A record is empty exactly when none of its lines holds a colon. */
  lemma ParseLinesEmpty(lines: seq<string>)
    ensures ParseLines(lines) == [] <==> forall i :: 0 <= i < |lines| ==> ':' !in lines[i]
  {
    AssignEmpty(ParseLine, lines);
    assert forall i :: 0 <= i < |lines| ==> (ParseLine(lines[i]).None? <==> ':' !in lines[i]);
  }

  lemma {:induction false} AssignEmpty(parse: string -> Option<(string, string)>, lines: seq<string>)
    ensures Assign(parse, lines) == [] <==> forall i :: 0 <= i < |lines| ==> parse(lines[i]).None?
    decreases |lines|
  {
    if lines != [] {
      var init := lines[..|lines| - 1];
      AssignEmpty(parse, init);
      assert forall i :: 0 <= i < |init| ==> init[i] == lines[i];
    }
  }

  /** The record of one chunk; an all-whitespace chunk is skipped. */
  function ParseChunk(chunk: string): Record
  {
    var body := Strip(chunk);
    if body == [] then [] else ParseLines(Split(body, "\n"))
  }

  /** The records of the chunks, in chunk order, dropping empty ones. */
  function ParseChunks(chunks: seq<string>): (records: seq<Record>)
    ensures |records| <= |chunks|
    ensures forall i :: 0 <= i < |records| ==> records[i] != []
  {
    Gather(ParseChunk, chunks)
  }

  /** The record of one chunk when it is non-empty (`if record: append`). */
  function Kept(chunk: string): seq<Record>
  {
    Keep(ParseChunk(chunk))
  }

  function Keep<B>(r: seq<B>): seq<seq<B>>
  {
    if r == [] then [] else [r]
  }

  /** The non-empty results of `f` on the items, in item order. */
  function Gather<A, B>(f: A -> seq<B>, xs: seq<A>): (ys: seq<seq<B>>)
    ensures |ys| <= |xs|
    ensures forall i :: 0 <= i < |ys| ==> ys[i] != []
    decreases |xs|
  {
    if xs == [] then [] else Keep(f(xs[0])) + Gather(f, xs[1..])
  }

  lemma GatherCons<A, B>(f: A -> seq<B>, x: A, rest: seq<A>)
    ensures Gather(f, [x] + rest) == Keep(f(x)) + Gather(f, rest)
  {
    assert ([x] + rest)[0] == x && ([x] + rest)[1..] == rest;
  }

  /** The `parsed_records` list built from the `info` text. */
  function ParseInfo(text: string): (records: seq<Record>)
    ensures |records| <= |Split(text, Separator)|
    ensures forall i :: 0 <= i < |records| ==> records[i] != []
  {
    ParseChunks(Split(text, Separator))
  }

  /** Records follow chunk order: parsing distributes over chunk concatenation. */
  lemma ParseChunksAppend(a: seq<string>, b: seq<string>)
    ensures ParseChunks(a + b) == ParseChunks(a) + ParseChunks(b)
  {
    GatherAppend(ParseChunk, a, b);
  }

  lemma {:induction false} GatherAppend<A, B>(f: A -> seq<B>, a: seq<A>, b: seq<A>)
    ensures Gather(f, a + b) == Gather(f, a) + Gather(f, b)
    decreases |a|
  {
    if a != [] {
      assert a + b == [a[0]] + (a[1..] + b);
      GatherCons(f, a[0], a[1..] + b);
      GatherAppend(f, a[1..], b);
      GatherCons(f, a[0], a[1..]);
      assert [a[0]] + a[1..] == a;
    } else {
      assert a + b == b;
    }
  }

  /** Text built by joining chunks with the separator parses chunk by chunk,
      as long as no chunk holds the separator and none but the last ends
      with a dash (which would make the dash run start inside the chunk). */
  lemma ParseInfoJoin(chunks: seq<string>)
    requires |chunks| >= 1
    requires forall i :: 0 <= i < |chunks| ==> !Contains(chunks[i], Separator)
    requires forall i :: 0 <= i < |chunks| - 1 ==> chunks[i] == [] || chunks[i][|chunks[i]| - 1] != '-'
    ensures ParseInfo(Join(chunks, Separator)) == ParseChunks(chunks)
  {
    forall i | 0 <= i < |chunks| - 1
      ensures LeftmostCut(chunks[i], Separator)
    {
      DashCut(chunks[i]);
    }
    SplitJoin(chunks, Separator);
  }

  /** A run of 34 dashes is cut at its start, as `str.split` does: the
      leftover dash goes to the second part. */
  lemma DashRunSplit()
    ensures Split(Separator + "-", Separator) == ["", "-"]
  {
    var s := Separator + "-";
    assert s[0..|Separator|] == Separator;
    FindAt(s, Separator, 0);
    assert s[|Separator|..] == "-";
    assert Find("-", Separator).None?;
  }

  /** A chunk that holds no separator and does not end with a dash is cut
      exactly where the separator after it starts. */
  lemma DashCut(p: string)
    requires !Contains(p, Separator)
    requires p == [] || p[|p| - 1] != '-'
    ensures LeftmostCut(p, Separator)
  {
    var t := p + Separator;
    forall j: nat | j < |p|
      ensures !OccursAt(t, Separator, j)
    {
      if j + |Separator| <= |p| {
        assert t[j..j + |Separator|] == p[j..j + |Separator|];
        assert !OccursAt(p, Separator, j);
      } else if j + |Separator| <= |t| {
        assert t[j..j + |Separator|][|p| - 1 - j] == p[|p| - 1] != '-';
        assert Separator[|p| - 1 - j] == '-';
      }
    }
  }

  /** The first colon is where the line is cut: the value keeps any later colons. */
  lemma SplitAtColonAt(line: string, key: string, val: string)
    requires ':' !in key && line == key + ":" + val
    ensures ':' in line && SplitAtColon(line) == (key, val)
  {
    assert line[|key|] == ':';
    var kv := SplitAtColon(line);
    assert line[|kv.0|] == ':';
    assert forall p :: 0 <= p < |key| ==> line[p] == key[p];
    assert forall p :: 0 <= p < |kv.0| ==> line[p] == kv.0[p];
    assert |kv.0| == |key|;
    assert kv.0 == line[..|key|] == key;
    assert kv.1 == line[|key| + 1..] == val;
  }

  /** A line `key : value` contributes the stripped key and value. */
  lemma ParseLineOf(key: string, val: string, k: string, v: string)
    requires ':' !in key
    requires Strip(key) == k && Strip(val) == v
    ensures ParseLine(key + ":" + val) == Some((k, v))
  {
    SplitAtColonAt(key + ":" + val, key, val);
  }

  /** A line `key : value` with unpadded key and value gives exactly them. */
  lemma SpacedLine(k: string, v: string)
    requires ':' !in k
    requires k != [] && !IsSpace(k[0]) && !IsSpace(k[|k| - 1])
    requires v != [] && !IsSpace(v[0]) && !IsSpace(v[|v| - 1])
    ensures ParseLine(k + " : " + v) == Some((k, v))
  {
    assert k + " : " + v == (k + " ") + ":" + (" " + v);
    assert ':' !in k + " ";
    StripPadded("", k, " ");
    assert "" + k + " " == k + " ";
    StripPadded(" ", v, "");
    assert " " + v + "" == " " + v;
    ParseLineOf(k + " ", " " + v, k, v);
  }

  /** A chunk is its lines once the whitespace around it is gone. */
  lemma ChunkOfLines(pre: string, lines: seq<string>, post: string)
    requires AllSpace(pre) && AllSpace(post)
    requires |lines| >= 1 && forall i :: 0 <= i < |lines| ==> '\n' !in lines[i]
    requires var body := Join(lines, "\n");
      body != [] && !IsSpace(body[0]) && !IsSpace(body[|body| - 1])
    ensures ParseChunk(pre + Join(lines, "\n") + post) == ParseLines(lines)
  {
    StripPadded(pre, Join(lines, "\n"), post);
    SplitJoinByHead(lines, "\n");
  }

  /** An unpadded field name or value on a single line. */
  predicate Unpadded(s: string)
  {
    s != [] && !IsSpace(s[0]) && !IsSpace(s[|s| - 1]) && '\n' !in s
  }

  /** A chunk of two `key : value` lines ending in a line break: one
      record with both fields, in line order. */
  lemma TwoFieldChunk(k1: string, v1: string, k2: string, v2: string)
    requires Unpadded(k1) && Unpadded(v1) && Unpadded(k2) && Unpadded(v2)
    requires ':' !in k1 && ':' !in k2 && k1 != k2
    ensures ParseChunk(k1 + " : " + v1 + "\n" + k2 + " : " + v2 + "\n") == [(k1, v1), (k2, v2)]
  {
    var l1, l2 := k1 + " : " + v1, k2 + " : " + v2;
    RegroupLines(k1, v1, k2, v2);
    LineChars(k1, v1);
    LineChars(k2, v2);
    ChunkOfTwoLines(l1, l2);
    SpacedLine(k1, v1);
    SpacedLine(k2, v2);
    LinesTwo(l1, l2, (k1, v1), (k2, v2));
  }

  /** A chunk of one `key : value` line after a line break. */
  lemma OneFieldChunk(k: string, v: string)
    requires Unpadded(k) && Unpadded(v) && ':' !in k
    ensures ParseChunk("\n" + k + " : " + v) == [(k, v)]
  {
    var l := k + " : " + v;
    Regroup("\n", k, " : ", v);
    LineChars(k, v);
    ChunkOfOneLine(l);
    SpacedLine(k, v);
    LinesOne(l, (k, v));
  }

  lemma ChunkOfOneLine(l: string)
    requires '\n' !in l && l != [] && !IsSpace(l[0]) && !IsSpace(l[|l| - 1])
    ensures ParseChunk("\n" + l) == ParseLines([l])
  {
    assert Join([l], "\n") == l;
    assert "\n" + l == "\n" + Join([l], "\n") + "";
    ChunkOfLines("\n", [l], "");
  }

  lemma ChunkOfTwoLines(l1: string, l2: string)
    requires '\n' !in l1 && l1 != [] && !IsSpace(l1[0])
    requires '\n' !in l2 && l2 != [] && !IsSpace(l2[|l2| - 1])
    ensures ParseChunk("" + (l1 + "\n" + l2) + "\n") == ParseLines([l1, l2])
  {
    assert Join([l1, l2], "\n") == l1 + "\n" + l2 by {
      JoinCons([l1, l2], "\n");
      assert [l1, l2][1..] == [l2];
    }
    ChunkOfLines("", [l1, l2], "\n");
  }

  lemma LinesOne(l: string, kv: (string, string))
    requires ParseLine(l) == Some(kv)
    ensures ParseLines([l]) == [kv]
  {
    AssignOne(ParseLine, l, kv);
  }

  lemma LinesTwo(l1: string, l2: string, kv1: (string, string), kv2: (string, string))
    requires ParseLine(l1) == Some(kv1) && ParseLine(l2) == Some(kv2) && kv1.0 != kv2.0
    ensures ParseLines([l1, l2]) == [kv1, kv2]
  {
    AssignOne(ParseLine, l1, kv1);
    AssignStep(ParseLine, l1, l2, kv2);
    PutAfter(kv1, kv2);
  }

  lemma AssignOne(parse: string -> Option<(string, string)>, l: string, kv: (string, string))
    requires parse(l) == Some(kv)
    ensures Assign(parse, [l]) == [kv]
  {
    assert [l] == [] + [l];
    AssignSnoc(parse, [], l, kv);
  }

  lemma AssignStep(parse: string -> Option<(string, string)>, l1: string, l2: string, kv2: (string, string))
    requires parse(l2) == Some(kv2)
    ensures Assign(parse, [l1, l2]) == Put(Assign(parse, [l1]), kv2.0, kv2.1)
  {
    assert [l1, l2] == [l1] + [l2];
    AssignSnoc(parse, [l1], l2, kv2);
  }

  /** One more line with a pair assigns it. */
  lemma AssignSnoc(parse: string -> Option<(string, string)>, init: seq<string>, l: string, kv: (string, string))
    requires parse(l) == Some(kv)
    ensures Assign(parse, init + [l]) == Put(Assign(parse, init), kv.0, kv.1)
  {
    var lines := init + [l];
    assert lines[..|lines| - 1] == init && lines[|lines| - 1] == l;
  }

  lemma PutAfter(kv1: (string, string), kv2: (string, string))
    requires kv1.0 != kv2.0
    ensures Put([kv1], kv2.0, kv2.1) == [kv1, kv2]
  {
    assert [kv1][1..] == [];
  }

  lemma Regroup(a: string, b: string, c: string, d: string)
    ensures a + b + c + d == a + (b + c + d)
  {
  }

  lemma RegroupLines(k1: string, v1: string, k2: string, v2: string)
    ensures k1 + " : " + v1 + "\n" + k2 + " : " + v2 + "\n"
         == "" + ((k1 + " : " + v1) + "\n" + (k2 + " : " + v2)) + "\n"
  {
  }

  lemma RegroupText(k1: string, v1: string, k2: string, v2: string, k3: string, v3: string)
    ensures k1 + " : " + v1 + "\n" + k2 + " : " + v2 + "\n" + Separator + "\n" + k3 + " : " + v3
         == (k1 + " : " + v1 + "\n" + k2 + " : " + v2 + "\n") + Separator + ("\n" + k3 + " : " + v3)
  {
  }

  lemma LineChars(k: string, v: string)
    requires Unpadded(k) && Unpadded(v)
    ensures var l := k + " : " + v;
      '\n' !in l && !IsSpace(l[0]) && !IsSpace(l[|l| - 1])
  {
    var l := k + " : " + v;
    assert l[0] == k[0] && l[|l| - 1] == v[|v| - 1];
    assert '\n' !in " : ";
  }

  /** Two chunks around the separator, the first with two `key : value`
      lines and the second with one, give two records in chunk order. */
  lemma TwoChunks(k1: string, v1: string, k2: string, v2: string, k3: string, v3: string)
    requires Unpadded(k1) && Unpadded(v1) && Unpadded(k2) && Unpadded(v2)
    requires Unpadded(k3) && Unpadded(v3)
    requires ':' !in k1 && ':' !in k2 && ':' !in k3 && k1 != k2
    requires '-' !in k1 + v1 + k2 + v2 + k3 + v3
    ensures ParseInfo(k1 + " : " + v1 + "\n" + k2 + " : " + v2 + "\n" + Separator + "\n" + k3 + " : " + v3)
         == [[(k1, v1), (k2, v2)], [(k3, v3)]]
  {
    var c1 := k1 + " : " + v1 + "\n" + k2 + " : " + v2 + "\n";
    var c2 := "\n" + k3 + " : " + v3;
    RegroupText(k1, v1, k2, v2, k3, v3);
    NoDash(k1, v1, k2, v2, k3, v3);
    TwoFieldChunk(k1, v1, k2, v2);
    OneFieldChunk(k3, v3);
    RecordsOfTwo(c1, c2, [(k1, v1), (k2, v2)], [(k3, v3)]);
  }

  /** Two dash-free chunks that each give a record. */
  lemma RecordsOfTwo(c1: string, c2: string, r1: Record, r2: Record)
    requires '-' !in c1 && '-' !in c2
    requires ParseChunk(c1) == r1 && r1 != [] && ParseChunk(c2) == r2 && r2 != []
    ensures ParseInfo(c1 + Separator + c2) == [r1, r2]
  {
    assert c1 + Separator + c2 == Join([c1, c2], Separator) by {
      JoinTwo(c1, c2);
    }
    JoinedRecords(c1, c2, r1, r2);
  }

  lemma JoinedRecords(c1: string, c2: string, r1: Record, r2: Record)
    requires '-' !in c1 && '-' !in c2
    requires ParseChunk(c1) == r1 && r1 != [] && ParseChunk(c2) == r2 && r2 != []
    ensures ParseInfo(Join([c1, c2], Separator)) == [r1, r2]
  {
    InfoOfTwo(c1, c2);
    KeptOf(c1, r1);
    KeptOf(c2, r2);
  }

  lemma InfoOfTwo(c1: string, c2: string)
    requires '-' !in c1 && '-' !in c2
    ensures ParseInfo(Join([c1, c2], Separator)) == Kept(c1) + Kept(c2)
  {
    NotContainsByHead(c1, Separator);
    NotContainsByHead(c2, Separator);
    assert c1 == [] || c1[|c1| - 1] != '-';
    assert forall i :: 0 <= i < 2 ==> !Contains([c1, c2][i], Separator);
    ParseInfoJoin([c1, c2]);
    ChunksTwo(c1, c2);
  }

  lemma KeptOf(c: string, r: Record)
    requires ParseChunk(c) == r && r != []
    ensures Kept(c) == [r]
  {
  }

  lemma JoinTwo(c1: string, c2: string)
    ensures Join([c1, c2], Separator) == c1 + Separator + c2
  {
    JoinCons([c1, c2], Separator);
    assert [c1, c2][1..] == [c2];
  }

  lemma NoDash(k1: string, v1: string, k2: string, v2: string, k3: string, v3: string)
    requires '-' !in k1 + v1 + k2 + v2 + k3 + v3
    ensures '-' !in k1 + " : " + v1 + "\n" + k2 + " : " + v2 + "\n"
    ensures '-' !in "\n" + k3 + " : " + v3
  {
    assert '-' !in " : " && '-' !in "\n";
  }

  lemma ChunksTwo(c1: string, c2: string)
    ensures ParseChunks([c1, c2]) == Kept(c1) + Kept(c2)
  {
    GatherTwo(ParseChunk, c1, c2);
  }

  lemma GatherTwo<A, B>(f: A -> seq<B>, x1: A, x2: A)
    ensures Gather(f, [x1, x2]) == Keep(f(x1)) + Keep(f(x2))
  {
    GatherCons(f, x1, [x2]);
    assert [x2] == [x2] + [];
    GatherCons(f, x2, []);
  }

  /** The record list of a two-chunk `info` text. */
  lemma InfoExample(text: string, k1: string, v1: string, k2: string, v2: string,
                    k3: string, v3: string)
    requires k1 == "Survey No." && v1 == "1" && k2 == "Area" && v2 == "2.5"
    requires k3 == "Owner" && v3 == "X"
    requires text == k1 + " : " + v1 + "\n" + k2 + " : " + v2 + "\n" + Separator + "\n" + k3 + " : " + v3
    ensures ParseInfo(text) == [[(k1, v1), (k2, v2)], [(k3, v3)]]
  {
    TwoChunks(k1, v1, k2, v2, k3, v3);
  }
}

=== FILE: json.dfy ===
/** Decoded JSON values and the Python operations the scraper applies to them.

    A response body is whatever `response.json()` decoded: the scraper never
    checks its shape, so each Python operation is modelled on every shape,
    raising where Python raises. */
module Json {
  import opened Wrappers
  import opened Dict
  import Text

  datatype Value =
    | JNull
    | JBool(b: bool)
    | JNum(n: real)
    | JStr(s: string)
    | JArr(items: seq<Value>)
    | JObj(fields: Dict<Value>)

  /** Python truthiness: `None`, `False`, zero and empty containers are false. */
  predicate Truthy(v: Value)
  {
    match v
    case JNull => false
    case JBool(b) => b
    case JNum(n) => n != 0.0
    case JStr(s) => s != ""
    case JArr(xs) => xs != []
    case JObj(fs) => fs != []
  }

  /** Python `key in v` for a string `key`: key membership for a dict,
      element membership for a list, substring test for a string, and a
      TypeError for numbers, booleans and `None`. */
  function In(key: string, v: Value): (r: Result<bool>)
    ensures v.JObj? ==> r == Ok(Has(v.fields, key))
    ensures v.JStr? ==> r == Ok(Text.Contains(v.s, key))
    ensures (v.JNull? || v.JBool? || v.JNum?) <==> r.Err?
  {
    match v
    case JObj(fs) => Ok(Has(fs, key))
    case JArr(xs) => Ok(JStr(key) in xs)
    case JStr(s) => Ok(Text.Find(s, key).Some?)
    case _ => Err(TypeError)
  }

  /** Python `v[key]` for a string `key`: only a dict holding the key answers;
      a dict without it raises KeyError, every other shape TypeError. */
  function GetItem(v: Value, key: string): (r: Result<Value>)
    ensures r.Ok? <==> v.JObj? && Has(v.fields, key)
    ensures r.Ok? ==> Some(r.value) == Get(v.fields, key)
    ensures v.JObj? && !Has(v.fields, key) ==> r == Err(KeyError)
  {
    match v
    case JObj(fs) =>
      (match Get(fs, key)
       case Some(x) => Ok(x)
       case None => Err(KeyError))
    case _ => Err(TypeError)
  }

  /** `dict.get(key)` on a value known to be a dict, `None` otherwise. */
  function Field(v: Value, key: string): Option<Value>
  {
    if v.JObj? then Get(v.fields, key) else None
  }

  /** Python `len(v)` is defined exactly for strings, lists and dicts. */
  predicate HasLen(v: Value)
  {
    v.JStr? || v.JArr? || v.JObj?
  }

  /** Python `len(v)`: the number of characters, items or keys; a TypeError
      for the other shapes. */
  function Len(v: Value): (r: Result<nat>)
    ensures r.Ok? <==> HasLen(v)
    ensures r.Ok? ==> (r.value == 0 <==> !Truthy(v))
  {
    match v
    case JStr(s) => Ok(|s|)
    case JArr(xs) => Ok(|xs|)
    case JObj(fs) => Ok(|fs|)
    case _ => Err(TypeError)
  }

  /** Python `v[0]`: the first item of a list, the first character of a
      string; a dict is looked up under the integer 0, which no JSON key is. */
  function First(v: Value): (r: Result<Value>)
    ensures r.Ok? <==> (v.JArr? || v.JStr?) && Truthy(v)
    ensures v.JArr? && v.items != [] ==> r == Ok(v.items[0])
    ensures v.JStr? && v.s != "" ==> r == Ok(JStr(v.s[..1]))
  {
    match v
    case JArr(xs) => if xs == [] then Err(IndexError) else Ok(xs[0])
    case JStr(s) => if s == "" then Err(IndexError) else Ok(JStr(s[..1]))
    case JObj(_) => Err(KeyError)
    case _ => Err(TypeError)
  }

  /** Python `v[key] = x`: only a dict accepts a string key; the key keeps its
      position if present and is appended otherwise, and no other key moves
      or changes. */
  function SetItem(v: Value, key: string, x: Value): (r: Result<Value>)
    ensures r.Ok? <==> v.JObj?
    ensures r.Ok? ==> r.value.JObj? && Get(r.value.fields, key) == Some(x)
    ensures r.Ok? ==> forall k :: k != key ==> Get(r.value.fields, k) == Get(v.fields, k)
  {
    match v
    case JObj(fs) =>
      var fs' := Put(fs, key, x);
      assert forall k :: k != key ==> Get(fs', k) == Get(fs, k) by {
        forall k | k != key
          ensures Get(fs', k) == Get(fs, k)
        {
          PutOther(fs, key, x, k);
        }
      }
      Ok(JObj(fs'))
    case _ => Err(TypeError)
  }
}

=== FILE: location_codes.dfy ===
/** Location codes of the Mahabhunakasha service.

    A village is addressed by a GIS code: a three-letter prefix (`RVM` for a
    rural village map, `UVM` for an urban one) followed by the district code,
    the taluka code and the village code. The dropdown levels are addressed
    by a `codes` string that lists the category and the parent codes, each
    followed by a comma. */
module LocationCodes {
  import Text

  const Rural := "RVM"
  const Urban := "UVM"

  /** `"RVM"` for category `R`, `"UVM"` for every other category. */
  function Prefix(category: string): (p: string)
    ensures |p| == 3
    ensures p == Rural <==> category == "R"
    ensures p == Urban <==> category != "R"
  {
    if category == "R" then Rural else Urban
  }

  /** The GIS code of a village, as `fetch_plot_list` and `/api/plot` build it. */
  function GisCode(category: string, district: string, taluka: string, village: string): (g: string)
    ensures |g| == 3 + |district| + |taluka| + |village|
    ensures g[..3] == Prefix(category)
    ensures g[3..] == district + taluka + village
  {
    Prefix(category) + district + taluka + village
  }

  /** Python `s[lo:hi]` for non-negative bounds: both ends are clamped to the
      string, and a reversed range is empty. */
  function Slice(s: string, lo: nat, hi: nat): (r: string)
    ensures |r| <= |s|
    ensures lo <= hi <= |s| ==> r == s[lo..hi]
    ensures |s| <= lo ==> r == ""
  {
    var a := if lo < |s| then lo else |s|;
    var b := if hi < |s| then hi else |s|;
    if a <= b then s[a..b] else ""
  }

  /** Python `s[lo:]`. */
  function From(s: string, lo: nat): (r: string)
    ensures lo <= |s| ==> r == s[lo..]
    ensures |s| <= lo ==> r == ""
  {
    if lo < |s| then s[lo..] else ""
  }

  datatype Parts = Parts(prefix: string, district: string, taluka: string, village: string)

  /** The 3/2/2/rest split of `fetch_village_boundaries`. Python slicing never
      fails, so a short code gives short (possibly empty) parts. */
  function Decompose(g: string): (p: Parts)
    ensures p.prefix + p.district + p.taluka + p.village == g
    ensures |g| >= 7 ==> |p.prefix| == 3 && |p.district| == 2 && |p.taluka| == 2
  {
    var p := Parts(Slice(g, 0, 3), Slice(g, 3, 5), Slice(g, 5, 7), From(g, 7));
    assert p.prefix + p.district + p.taluka + p.village == g by {
      if |g| < 3 {
      } else if |g| < 5 {
        assert g == g[..3] + g[3..];
      } else if |g| < 7 {
        assert g == g[..3] + g[3..5] + g[5..];
      } else {
        assert g == g[..3] + g[3..5] + g[5..7] + g[7..];
      }
    }
    p
  }

  /** The category letter recovered from a prefix: `R` for `RVM`, and `V`
      (not `U`) for anything else. */
  function CategoryOf(prefix: string): (c: string)
    ensures c == "R" <==> prefix == Rural
  {
    if prefix == Rural then "R" else "V"
  }

  /** The GIS code `fetch_village_boundaries` ends up querying for `g`:
      decomposed, mapped to a category, and rebuilt by `fetch_plot_list`. */
  function Rebuild(g: string): (r: string)
    ensures |r| == 3 + |g| - |Decompose(g).prefix|
    ensures r[..3] == Rural <==> Decompose(g).prefix == Rural
  {
    var p := Decompose(g);
    GisCode(CategoryOf(p.prefix), p.district, p.taluka, p.village)
  }

  /** The round trip is exact precisely for codes carrying one of the two
      known prefixes: `V` still maps back to `UVM`, and any other prefix is
      replaced by `UVM`. */
  lemma RebuildExact(g: string)
    ensures Rebuild(g) == g <==> |g| >= 3 && (g[..3] == Rural || g[..3] == Urban)
  {
    if |g| >= 3 {
      var x := g[..3];
      RebuildLong(g);
      ConcatCancel(Prefix(CategoryOf(x)), x, g[3..]);
      assert g == x + g[3..];
      PrefixFixed(x);
    } else {
      assert |Rebuild(g)| != |g|;
    }
  }

  /** A code of at least three characters keeps everything after its
      prefix, and its prefix becomes the one its category maps back to. */
  lemma RebuildLong(g: string)
    requires |g| >= 3
    ensures Rebuild(g) == Prefix(CategoryOf(g[..3])) + g[3..]
  {
    var p := Decompose(g);
    assert p.prefix == g[..3];
    assert p.district + p.taluka + p.village == g[3..] by {
      assert g == p.prefix + (p.district + p.taluka + p.village);
    }
  }

  lemma ConcatCancel(a: string, b: string, c: string)
    requires |a| == |b|
    ensures a + c == b + c <==> a == b
  {
    if a + c == b + c {
      assert a == (a + c)[..|a|] && b == (b + c)[..|b|];
    }
  }

  /** Only the two known prefixes survive the trip through a category. */
  lemma PrefixFixed(x: string)
    ensures Prefix(CategoryOf(x)) == x <==> x == Rural || x == Urban
  {
  }

  /** Building and then decomposing gives the parts back, when district and
      taluka have their two-character width. */
  lemma DecomposeGisCode(category: string, district: string, taluka: string, village: string)
    requires |district| == 2 && |taluka| == 2
    ensures Decompose(GisCode(category, district, taluka, village))
         == Parts(Prefix(category), district, taluka, village)
    ensures Rebuild(GisCode(category, district, taluka, village))
         == GisCode(category, district, taluka, village)
  {
    var g := GisCode(category, district, taluka, village);
    assert g == Prefix(category) + district + taluka + village;
    assert g[..3] == Prefix(category);
    assert g[3..5] == district;
    assert g[5..7] == taluka;
    assert g[7..] == village;
    RebuildExact(g);
  }

  /* ----------------------------------------------------------- level codes */

  /** The `codes` field of a level lookup: each code followed by a comma. */
  function LevelCodes(parents: seq<string>): (codes: string)
    ensures (forall i :: 0 <= i < |parents| ==> ',' !in parents[i])
            ==> Text.Split(codes, ",") == parents + [""]
  {
    SplitCommaTerminated(parents);
    Text.Join(parents + [""], ",")
  }

  lemma SplitCommaTerminated(parents: seq<string>)
    ensures (forall i :: 0 <= i < |parents| ==> ',' !in parents[i])
            ==> Text.Split(Text.Join(parents + [""], ","), ",") == parents + [""]
  {
    var parts := parents + [""];
    if forall i :: 0 <= i < |parents| ==> ',' !in parents[i] {
      assert forall i :: 0 <= i < |parts| ==> ","[0] !in parts[i];
      Text.SplitJoinByHead(parts, ",");
    }
  }

  /** Level 1: `"C,"`. */
  function DistrictCodes(category: string): (codes: string)
    ensures ',' !in category ==> Text.Split(codes, ",") == [category, ""]
  {
    LevelCodes([category])
  }

  /** Level 2: `"C,D,"`. */
  function TalukaCodes(category: string, district: string): (codes: string)
    ensures ',' !in category && ',' !in district
            ==> Text.Split(codes, ",") == [category, district, ""]
  {
    LevelCodes([category, district])
  }

  /** Level 3: `"C,D,T,"`. */
  function VillageCodes(category: string, district: string, taluka: string): (codes: string)
    ensures ',' !in category && ',' !in district && ',' !in taluka
            ==> Text.Split(codes, ",") == [category, district, taluka, ""]
  {
    LevelCodes([category, district, taluka])
  }

  /** The level strings are the comma-terminated concatenations. */
  lemma LevelCodesShape(c: string, d: string, t: string)
    ensures DistrictCodes(c) == c + ","
    ensures TalukaCodes(c, d) == c + "," + d + ","
    ensures VillageCodes(c, d, t) == c + "," + d + "," + t + ","
  {
    assert LevelCodes([]) == "" by {
      assert [] + [""] == [""];
    }
    LevelCodesCons(t, []);
    assert [t] + [] == [t];
    LevelCodesCons(d, [t]);
    assert [d] + [t] == [d, t];
    LevelCodesCons(c, [d, t]);
    assert [c] + [d, t] == [c, d, t];
    LevelCodesCons(d, []);
    assert [d] + [] == [d];
    LevelCodesCons(c, [d]);
    assert [c] + [d] == [c, d];
    LevelCodesCons(c, []);
    assert [c] + [] == [c];
  }

  /** Each code contributes itself and a comma, in order. */
  lemma LevelCodesCons(p: string, ps: seq<string>)
    ensures LevelCodes([p] + ps) == p + "," + LevelCodes(ps)
  {
    var parts := [p] + ps + [""];
    assert parts[0] == p && parts[1..] == ps + [""];
    Text.JoinCons(parts, ",");
  }
}

=== FILE: numbers.dfy ===
/** Decimal digit strings and their values.

    Python's `str.isdigit`, `int(...)` and `float(...)` are modelled on
    ASCII digits only: the strings the scraper handles are survey numbers,
    location codes and coordinates written with `0`..`9`. */
module Numbers {

  predicate IsDigit(c: char)
  {
    '0' <= c <= '9'
  }

  /** Every character is a digit (true of the empty string). */
  predicate AllDigits(s: string)
  {
    forall i :: 0 <= i < |s| ==> IsDigit(s[i])
  }

  function Pow10(k: nat): (p: nat)
    ensures p >= 1
  {
    if k == 0 then 1 else 10 * Pow10(k - 1)
  }

  function DigitValue(c: char): (d: nat)
    requires IsDigit(c)
    ensures d < 10
  {
    (c as int - '0' as int) as nat
  }

  function DigitChar(d: nat): (c: char)
    requires d < 10
    ensures IsDigit(c) && DigitValue(c) == d
  {
    ('0' as int + d) as char
  }

  /** The value of a digit string read in base ten; `""` reads as 0. */
  function DigitsValue(s: string): (n: nat)
    requires AllDigits(s)
    ensures n < Pow10(|s|)
    decreases |s|
  {
    if s == [] then 0
    else DigitsValue(s[..|s| - 1]) * 10 + DigitValue(s[|s| - 1])
  }

  /** The value of `whole.frac` (either part may be empty). */
  function DecimalValue(whole: string, frac: string): real
    requires AllDigits(whole) && AllDigits(frac)
  {
    DigitsValue(whole) as real + DigitsValue(frac) as real / Pow10(|frac|) as real
  }

  /** The last `k` decimal digits of `n`, zero-padded to exactly `k`: what
      follows the point when `n` is printed with `k` decimal places. */
  function FracDigits(n: nat, k: nat): (s: string)
    ensures |s| == k && AllDigits(s)
    ensures DigitsValue(s) == n % Pow10(k)
  {
    if k == 0 then ""
    else
      var s := FracDigits(n / 10, k - 1) + [DigitChar(n % 10)];
      assert s[..|s| - 1] == FracDigits(n / 10, k - 1);
      ModStep(n, Pow10(k - 1));
      s
  }

  /** The last `k + 1` digits are the last `k` digits of `n / 10` followed by
      the last digit of `n`. */
  lemma ModStep(n: nat, p: nat)
    requires p >= 1
    ensures (n / 10) % p * 10 + n % 10 == n % (10 * p)
  {
    var q, r := n / 10, n % 10;
    var a, b := q / p, q % p;
    assert n == 10 * q + r;
    assert q == p * a + b;
    assert n == (10 * p) * a + (10 * b + r);
    ModUnique(n, 10 * p, a, 10 * b + r);
  }

  lemma ModUnique(n: int, d: int, q: int, r: int)
    requires d > 0 && n == d * q + r && 0 <= r < d
    ensures n % d == r
  {
    var q', r' := n / d, n % d;
    assert d * (q' - q) == r - r';
    MulBound(d, q' - q);
  }

  /** A multiple of `d` strictly between `-d` and `d` is zero. */
  lemma MulBound(d: int, k: int)
    requires d > 0 && -d < d * k < d
    ensures k == 0
  {
    assert k >= 1 ==> d * k == d * (k - 1) + d;
    assert k >= 1 ==> d * (k - 1) >= 0;
    assert k <= -1 ==> d * k == d * (k + 1) - d;
    assert k <= -1 ==> d * (k + 1) <= 0;
  }

  /** The digits before the point when `u` is printed with `k` decimal places. */
  function WholeDigits(u: nat, k: nat): (s: string)
    ensures |s| >= 1 && AllDigits(s)
    ensures DigitsValue(s) == WholePart(u, k)
  {
    var n := WholePart(u, k);
    NatToDigits(n)
  }

  /** `u // 10**k`. */
  function WholePart(u: nat, k: nat): nat
  {
    if k == 0 then u else WholePart(u / 10, k - 1)
  }

  /** The whole digits and the `k` fraction digits of `u` read back as
      `u / 10^k`. */
  lemma PlacesValue(u: nat, k: nat)
    ensures DecimalValue(WholeDigits(u, k), FracDigits(u, k)) == u as real / Pow10(k) as real
  {
    var p := Pow10(k);
    var w, f := WholePart(u, k), u % p;
    DivMod(u, k);
    RealSplit(u, w, f, p);
    assert DecimalValue(WholeDigits(u, k), FracDigits(u, k)) == w as real + f as real / p as real;
  }

  lemma {:induction false} DivMod(u: nat, k: nat)
    ensures u == WholePart(u, k) * Pow10(k) + u % Pow10(k)
  {
    if k > 0 {
      var q, p := u / 10, Pow10(k - 1);
      var w, b := WholePart(q, k - 1), q % p;
      DivMod(q, k - 1);
      assert Pow10(k) == 10 * p;
      ModStep(u, p);
      assert u % Pow10(k) == b * 10 + u % 10;
      var m := w * p;
      assert q == m + b;
      Scale(w, p);
      assert WholePart(u, k) * Pow10(k) == 10 * m;
    }
  }

  lemma Scale(w: nat, p: nat)
    ensures w * (10 * p) == 10 * (w * p)
  {
  }

  /** Dividing `w * p + f` by `p` gives `w` plus `f`'s share. */
  lemma RealSplit(u: nat, w: nat, f: nat, p: nat)
    requires p >= 1 && u == w * p + f
    ensures w as real + f as real / p as real == u as real / p as real
  {
    var P := p as real;
    assert u as real == w as real * P + f as real;
    DivAdd(w as real * P, f as real, P);
    MulDiv(w as real, P);
  }

  lemma DivAdd(a: real, b: real, d: real)
    requires d > 0.0
    ensures (a + b) / d == a / d + b / d
  {
  }

  lemma MulDiv(a: real, d: real)
    requires d > 0.0
    ensures a * d / d == a
  {
  }

  /** Python `str(n)` for a non-negative integer: the shortest digit string
      whose value is `n`. */
  function NatToDigits(n: nat): (s: string)
    ensures |s| >= 1 && AllDigits(s)
    ensures DigitsValue(s) == n
    ensures s[0] == '0' ==> s == "0"
  {
    if n < 10 then [DigitChar(n)]
    else
      var s := NatToDigits(n / 10) + [DigitChar(n % 10)];
      assert s[..|s| - 1] == NatToDigits(n / 10);
      s
  }

  lemma {:induction false} DigitsValueLeadingZero(s: string)
    requires |s| >= 1 && AllDigits(s) && s[0] == '0'
    ensures DigitsValue(s) == DigitsValue(s[1..])
    decreases |s|
  {
    if |s| > 1 {
      var init := s[..|s| - 1];
      DigitsValueLeadingZero(init);
      assert init[1..] == s[1..][..|s[1..]| - 1];
    }
  }

  /** The digit strings without superfluous leading zeros are exactly the
      ones `str` produces: reading and re-printing gives the string back. */
  lemma {:induction false} DigitsRoundTrip(s: string)
    requires |s| >= 1 && AllDigits(s)
    requires s[0] == '0' ==> |s| == 1
    ensures NatToDigits(DigitsValue(s)) == s
    decreases |s|
  {
    if |s| > 1 {
      var init := s[..|s| - 1];
      var n := DigitsValue(s);
      assert n / 10 == DigitsValue(init) && n % 10 == DigitValue(s[|s| - 1]);
      DigitsRoundTrip(init);
      assert DigitsValue(init) > 0 by {
        DigitsPositive(init);
      }
      assert s == init + [s[|s| - 1]];
    }
  }

  lemma {:induction false} DigitsPositive(s: string)
    requires |s| >= 1 && AllDigits(s) && s[0] != '0'
    ensures DigitsValue(s) > 0
    decreases |s|
  {
    if |s| > 1 {
      DigitsPositive(s[..|s| - 1]);
    }
  }
}

=== FILE: plot_sort.dfy ===
/** The ordering of a village's plot numbers in the plot-list route.

    The route first sorts by a key that reads a number where it can: an
    all-digit plot number as an integer, one with a single dot as a float,
    anything else as the string itself. Python refuses to compare a number
    with a string, so when both kinds occur the sort raises and the route
    sorts the plain strings instead. A comparison sort that finishes has
    compared every pair of neighbours in its result, and these neighbours
    chain every element to every other, so a list holding both kinds always
    raises: the key sort succeeds exactly when all keys are numbers or all
    are strings. In the second case the key of a string is the string, and
    the key sort and the plain sort agree. */
module PlotSort {
  import opened Wrappers
  import opened Text
  import opened Numbers

  /** A sort key: a number (Python compares `int` and `float` by value) or
      a string. */
  datatype Key = Number(v: real) | Word(s: string)

  /** `x.isdigit()`. */
  predicate IsDigitString(x: string)
  {
    x != "" && AllDigits(x)
  }

  /** The key: `int(x)` if `x.isdigit()`, else `float(x)` if
      `x.replace('.', '', 1).isdigit()`, else `x`. */
  function PlotKey(x: string): (k: Key)
    ensures IsDigitString(x) ==> k == Number(DigitsValue(x) as real)
    ensures k.Word? ==> k.s == x
    ensures k.Word? <==> !IsDigitString(x) && !OneDotNumber(x)
  {
    FirstDot(x);
    if IsDigitString(x) then Number(DigitsValue(x) as real)
    else
      match Find(x, ".")
      case Some(i) =>
        OneDotAt(x, i);
        if IsDigitString(x[..i] + x[i + 1..]) then
          DigitsOfParts(x[..i], x[i + 1..]);
          Number(DecimalValue(x[..i], x[i + 1..]))
        else Word(x)
      case None => Word(x)
  }

  /** `x.replace('.', '', 1)` is a non-empty digit string: `x` has a first
      dot, and without it only digits remain. */
  ghost predicate OneDotNumber(x: string)
  {
    exists i :: 0 <= i < |x| && x[i] == '.' && (forall j :: 0 <= j < i ==> x[j] != '.')
      && IsDigitString(x[..i] + x[i + 1..])
  }

  /** `find` of a single character is its first index. */
  lemma FirstDot(x: string)
    ensures Find(x, ".").None? ==> forall j :: 0 <= j < |x| ==> x[j] != '.'
    ensures Find(x, ".").Some? ==> var i := Find(x, ".").value;
      i < |x| && x[i] == '.' && forall j :: 0 <= j < i ==> x[j] != '.'
  {
    assert "." == ['.'];
    FindChar(x, '.');
  }

  /** The first dot is the only one the definition can pick. */
  lemma OneDotAt(x: string, i: nat)
    requires i < |x| && x[i] == '.' && forall j :: 0 <= j < i ==> x[j] != '.'
    ensures OneDotNumber(x) <==> IsDigitString(x[..i] + x[i + 1..])
  {
    if OneDotNumber(x) {
      var i' :| 0 <= i' < |x| && x[i'] == '.' && (forall j :: 0 <= j < i' ==> x[j] != '.')
        && IsDigitString(x[..i'] + x[i' + 1..]);
      assert !(i' < i) && !(i < i');
    }
  }

  /** A plot number `w.f` of digits with one dot keys as `w` plus `f`
      tenths, hundredths, ...; either side may be empty, not both. */
  lemma PlotKeyDecimal(w: string, f: string)
    requires AllDigits(w) && AllDigits(f) && w + f != ""
    ensures PlotKey(w + "." + f) == Number(DecimalValue(w, f))
  {
    var x := w + "." + f;
    assert x[|w|] == '.' && !IsDigit(x[|w|]);
    assert x[|w|..|w| + 1] == ".";
    forall j: nat | j < |w|
      ensures !OccursAt(x, ".", j)
    {
      assert x[j..j + 1][0] == x[j] == w[j];
    }
    FindAt(x, ".", |w|);
    assert x[..|w|] == w && x[|w| + 1..] == f;
    assert AllDigits(w + f) by {
      assert forall j :: 0 <= j < |w + f| ==> (w + f)[j] == if j < |w| then w[j] else f[j - |w|];
    }
  }

  lemma DigitsOfParts(a: string, b: string)
    requires AllDigits(a + b)
    ensures AllDigits(a) && AllDigits(b)
  {
    assert forall j :: 0 <= j < |a| ==> a[j] == (a + b)[j];
    assert forall j :: 0 <= j < |b| ==> b[j] == (a + b)[|a| + j];
  }

  /* ------------------------------------------------------------- ordering */

  /** Python's `<=` on strings: code point by code point, a proper prefix
      first. */
  predicate LexLe(a: string, b: string)
  {
    if a == [] then true
    else if b == [] then false
    else if a[0] != b[0] then a[0] < b[0]
    else LexLe(a[1..], b[1..])
  }

  lemma {:induction false} LexTotal(a: string, b: string)
    ensures LexLe(a, b) || LexLe(b, a)
  {
    if a != [] && b != [] && a[0] == b[0] {
      LexTotal(a[1..], b[1..]);
    }
  }

  lemma {:induction false} LexAntisymmetric(a: string, b: string)
    requires LexLe(a, b) && LexLe(b, a)
    ensures a == b
  {
    if a != [] && b != [] {
      LexAntisymmetric(a[1..], b[1..]);
      assert a == [a[0]] + a[1..] && b == [b[0]] + b[1..];
    }
  }

  lemma {:induction false} LexTransitive(a: string, b: string, c: string)
    requires LexLe(a, b) && LexLe(b, c)
    ensures LexLe(a, c)
  {
    if a != [] && b != [] && c != [] && a[0] == b[0] && b[0] == c[0] {
      LexTransitive(a[1..], b[1..], c[1..]);
    }
  }

  /** The order of keys. Numbers never meet words in a sort that finishes;
      putting numbers first only makes the order total. */
  predicate KeyLe(a: Key, b: Key)
  {
    match (a, b)
    case (Number(x), Number(y)) => x <= y
    case (Word(s), Word(t)) => LexLe(s, t)
    case (Number(_), Word(_)) => true
    case (Word(_), Number(_)) => false
  }

  lemma KeyTotal(a: Key, b: Key)
    ensures KeyLe(a, b) || KeyLe(b, a)
  {
    if a.Word? && b.Word? {
      LexTotal(a.s, b.s);
    }
  }

  lemma KeyAntisymmetric(a: Key, b: Key)
    requires KeyLe(a, b) && KeyLe(b, a)
    ensures a == b
  {
    if a.Word? && b.Word? {
      LexAntisymmetric(a.s, b.s);
    }
  }

  lemma KeyTransitive(a: Key, b: Key, c: Key)
    requires KeyLe(a, b) && KeyLe(b, c)
    ensures KeyLe(a, c)
  {
    if a.Word? && b.Word? && c.Word? {
      LexTransitive(a.s, b.s, c.s);
    }
  }

  lemma KeyReflexive(a: Key)
    ensures KeyLe(a, a)
  {
    if a.Word? {
      LexTotal(a.s, a.s);
    }
  }

  /* ----------------------------------------------------------------- sort */

  /** The key of the plain sort: the string itself. */
  function Plain(x: string): Key
  {
    Word(x)
  }

  /** Neighbours are in key order. */
  predicate Sorted(s: seq<string>, key: string -> Key)
  {
    forall i :: 0 < i < |s| ==> KeyLe(key(s[i - 1]), key(s[i]))
  }

  /** `x` goes before the first element whose key is not below its own, so
      it stays in front of the elements with an equal key. */
  function Insert(x: string, s: seq<string>, key: string -> Key): (r: seq<string>)
    ensures multiset(r) == multiset(s) + multiset{x}
    ensures |r| == |s| + 1
  {
    if s == [] then [x]
    else if KeyLe(key(x), key(s[0])) then [x] + s
    else
      assert s == [s[0]] + s[1..];
      [s[0]] + Insert(x, s[1..], key)
  }

  /** A stable sort: `list.sort` keeps elements with equal keys in their
      original order. */
  function SortBy(xs: seq<string>, key: string -> Key): (r: seq<string>)
    ensures multiset(r) == multiset(xs)
    ensures Sorted(r, key)
  {
    if xs == [] then []
    else
      var rest := SortBy(xs[1..], key);
      InsertSorted(xs[0], rest, key);
      assert xs == [xs[0]] + xs[1..];
      Insert(xs[0], rest, key)
  }

  lemma {:induction false} InsertSorted(x: string, s: seq<string>, key: string -> Key)
    requires Sorted(s, key)
    ensures Sorted(Insert(x, s, key), key)
    ensures s != [] ==> var r := Insert(x, s, key);
      r[0] == x || r[0] == s[0]
  {
    if s != [] && !KeyLe(key(x), key(s[0])) {
      KeyTotal(key(x), key(s[0]));
      InsertSorted(x, s[1..], key);
      var t := Insert(x, s[1..], key);
      var r := [s[0]] + t;
      forall i | 0 < i < |r|
        ensures KeyLe(key(r[i - 1]), key(r[i]))
      {
        if i == 1 {
          if s[1..] != [] {
            assert t[0] == x || t[0] == s[1];
          }
        } else {
          assert r[i - 1] == t[i - 2] && r[i] == t[i - 1];
        }
      }
    }
  }

  /** The elements whose key is `k`, in order. */
  function WithKey(xs: seq<string>, k: Key, key: string -> Key): (r: seq<string>)
    ensures |r| <= |xs|
  {
    if xs == [] then []
    else
      var rest := WithKey(xs[1..], k, key);
      if key(xs[0]) == k then [xs[0]] + rest else rest
  }

  lemma {:induction false} InsertWithKey(x: string, s: seq<string>, k: Key, key: string -> Key)
    ensures WithKey(Insert(x, s, key), k, key)
         == if key(x) == k then [x] + WithKey(s, k, key) else WithKey(s, k, key)
  {
    if s == [] {
    } else if KeyLe(key(x), key(s[0])) {
      assert ([x] + s)[1..] == s;
    } else {
      var t := Insert(x, s[1..], key);
      assert ([s[0]] + t)[1..] == t;
      InsertWithKey(x, s[1..], k, key);
      if key(x) == k {
        KeyReflexive(key(x));
      }
    }
  }

  /** Stability: the elements sharing any one key come out in the order
      they went in. */
  lemma {:induction false} SortStable(xs: seq<string>, k: Key, key: string -> Key)
    ensures WithKey(SortBy(xs, key), k, key) == WithKey(xs, k, key)
  {
    if xs != [] {
      SortStable(xs[1..], k, key);
      InsertWithKey(xs[0], SortBy(xs[1..], key), k, key);
    }
  }

  /** Neighbours in order put every pair in order. */
  lemma {:induction false} SortedPairs(s: seq<string>, key: string -> Key, i: nat, j: nat)
    requires Sorted(s, key) && i <= j < |s|
    ensures KeyLe(key(s[i]), key(s[j]))
    decreases j - i
  {
    if i == j {
      KeyReflexive(key(s[i]));
    } else {
      SortedPairs(s, key, i + 1, j);
      KeyTransitive(key(s[i]), key(s[i + 1]), key(s[j]));
    }
  }

  /* ---------------------------------------------------------------- route */

  /** The number a plot number reads as, when it reads as one. */
  function Numeric(x: string): real
  {
    match PlotKey(x)
    case Number(v) => v
    case Word(_) => 0.0
  }

  predicate AllNumeric(xs: seq<string>)
  {
    forall i :: 0 <= i < |xs| ==> PlotKey(xs[i]).Number?
  }

  /** The route's ordering: the key sort when every key is a number,
      otherwise the plain string sort (which the key sort equals when every
      key is a string). */
  function SortPlots(xs: seq<string>): (r: seq<string>)
    ensures multiset(r) == multiset(xs)
    ensures AllNumeric(xs) ==> forall i :: 0 < i < |r| ==> Numeric(r[i - 1]) <= Numeric(r[i])
    ensures !AllNumeric(xs) ==> forall i :: 0 < i < |r| ==> LexLe(r[i - 1], r[i])
  {
    var r := SortBy(xs, if AllNumeric(xs) then PlotKey else Plain);
    NumericAscending(xs, r);
    r
  }

  lemma NumericAscending(xs: seq<string>, r: seq<string>)
    requires multiset(r) == multiset(xs)
    requires AllNumeric(xs) ==> Sorted(r, PlotKey)
    ensures AllNumeric(xs) ==> forall i :: 0 < i < |r| ==> Numeric(r[i - 1]) <= Numeric(r[i])
  {
    if AllNumeric(xs) {
      forall i | 0 < i < |r|
        ensures Numeric(r[i - 1]) <= Numeric(r[i])
      {
        assert r[i - 1] in multiset(xs) && r[i] in multiset(xs);
      }
    }
  }

  /** Plot numbers that are all digit strings come out in ascending numeric
      order, every pair of them. */
  lemma DigitStringsAscending(xs: seq<string>, i: nat, j: nat)
    requires forall k :: 0 <= k < |xs| ==> IsDigitString(xs[k])
    requires i <= j < |SortPlots(xs)|
    ensures IsDigitString(SortPlots(xs)[i]) && IsDigitString(SortPlots(xs)[j])
    ensures DigitsValue(SortPlots(xs)[i]) <= DigitsValue(SortPlots(xs)[j])
  {
    var r := SortPlots(xs);
    assert AllNumeric(xs);
    assert r[i] in multiset(xs) && r[j] in multiset(xs);
    SortedPairs(r, PlotKey, i, j);
  }

  /** Equal numbers such as `01` and `1` keep their input order. */
  lemma SortPlotsStable(xs: seq<string>, k: Key)
    requires AllNumeric(xs)
    ensures WithKey(SortPlots(xs), k, PlotKey) == WithKey(xs, k, PlotKey)
  {
    SortStable(xs, k, PlotKey);
  }

  /** When no plot number reads as a number, the key sort that the route
      tries first gives the plain sort's result. */
  lemma {:induction false} WordKeysAgree(xs: seq<string>)
    requires forall i :: 0 <= i < |xs| ==> PlotKey(xs[i]).Word?
    ensures SortBy(xs, PlotKey) == SortBy(xs, Plain)
  {
    if xs != [] {
      WordKeysAgree(xs[1..]);
      var s := SortBy(xs[1..], Plain);
      forall i | 0 <= i < |s|
        ensures PlotKey(s[i]).Word?
      {
        assert s[i] in multiset(xs[1..]);
        var j :| 0 <= j < |xs[1..]| && xs[1..][j] == s[i];
        assert xs[1..][j] == xs[j + 1];
      }
      InsertAgrees(xs[0], s);
    }
  }

  lemma {:induction false} InsertAgrees(x: string, s: seq<string>)
    requires PlotKey(x).Word?
    requires forall i :: 0 <= i < |s| ==> PlotKey(s[i]).Word?
    ensures Insert(x, s, PlotKey) == Insert(x, s, Plain)
  {
    if s != [] {
      assert PlotKey(x) == Plain(x) && PlotKey(s[0]) == Plain(s[0]);
      assert forall i :: 0 <= i < |s[1..]| ==> s[1..][i] == s[i + 1];
      InsertAgrees(x, s[1..]);
    }
  }
}

=== FILE: report_links.dfy ===
/** Rewriting the plot's `infoLinks` so that report links point at the local
    report proxy `/api/report` instead of the service's JSP pages. */
module ReportLinks {
  import opened Wrappers
  import opened Text

  const RelativeReport := "../signplotreport.jsp"
  const Report := "signplotreport.jsp"
  const PublicReport := "signplotreportpublic.jsp"
  const Proxy := "/api/report"

  /** The three replacements in source order: the relative form first, so it
      becomes `/api/report` rather than `../api/report`; then the plain page;
      then the public page. */
  function RewriteInfoLinks(links: string): (r: string)
    ensures !Contains(r, Report) && !Contains(r, PublicReport)
    ensures !Contains(links, Report) && !Contains(links, PublicReport) ==> r == links
  {
    var s1 := ReplaceAll(links, RelativeReport, Proxy);
    var s2 := ReplaceAll(s1, Report, Proxy);
    var s3 := ReplaceAll(s2, PublicReport, Proxy);
    ProxyShields();
    assert !Contains(s2, Report);
    assert !Contains(s3, Report);
    assert !Contains(links, Report) ==> !Contains(links, RelativeReport) by {
      assert RelativeReport == "../" + Report;
      ContainsSuffix(links, "../", Report);
    }
    s3
  }

  /** The rewritten text for every input: each page name, the relative one
      first, is split out and the pieces are joined with `/api/report`. */
  lemma RewriteSplitJoin(links: string)
    ensures RewriteInfoLinks(links)
         == Join(Split(Join(Split(Join(Split(links, RelativeReport), Proxy), Report), Proxy),
                       PublicReport), Proxy)
  {
    var s1 := ReplaceAll(links, RelativeReport, Proxy);
    var s2 := ReplaceAll(s1, Report, Proxy);
    ReplaceIsJoinSplit(links, RelativeReport, Proxy);
    ReplaceIsJoinSplit(s1, Report, Proxy);
    ReplaceIsJoinSplit(s2, PublicReport, Proxy);
  }

  /** `/api/report` can neither hide nor start an occurrence of either page name. */
  lemma ProxyShields()
    ensures Shielded(Proxy, Report) && Shielded(Proxy, PublicReport)
  {
    assert Proxy[0] == '/';
    assert Report[0] == 's' && PublicReport[0] == 's';
    assert '/' !in Report && '/' !in PublicReport;
    assert 's' !in Proxy;
  }

  /** An occurrence of `a + b` is an occurrence of `b`. */
  lemma ContainsSuffix(s: string, a: string, b: string)
    ensures Contains(s, a + b) ==> Contains(s, b)
  {
    if Contains(s, a + b) {
      var i: nat :| OccursAt(s, a + b, i);
      assert s[i + |a|..i + |a| + |b|] == (a + b)[|a|..];
      assert OccursAt(s, b, i + |a|);
    }
  }

  /** The relative link gives the absolute proxy path, not `../api/report`. */
  lemma RelativeLinkExample(query: string)
    requires !Contains(query, Report) && !Contains(query, PublicReport)
    ensures RewriteInfoLinks(RelativeReport + query) == Proxy + query
  {
    var s1 := ReplaceAll(RelativeReport + query, RelativeReport, Proxy);
    ReplaceLeading(query);
    assert s1 == Proxy + query;
    NoOccurrenceIn(query, Report);
    NoOccurrenceIn(query, PublicReport);
  }

  lemma ReplaceLeading(query: string)
    requires !Contains(query, Report)
    ensures ReplaceAll(RelativeReport + query, RelativeReport, Proxy) == Proxy + query
  {
    assert RelativeReport == "../" + Report;
    ContainsSuffix(query, "../", Report);
    ReplaceLeadingOccurrence(RelativeReport, Proxy, query);
  }

  /** The public page is not mangled by the plain page's replacement,
      whose name it does not contain, and is replaced by the third one. */
  lemma PublicLinkExample(query: string)
    requires !Contains(query, Report) && !Contains(query, PublicReport)
    ensures RewriteInfoLinks(PublicReport + query) == Proxy + query
  {
    var s := PublicReport + query;
    PublicHasNoReport(query);
    assert RelativeReport == "../" + Report;
    ContainsSuffix(s, "../", Report);
    assert ReplaceAll(s, RelativeReport, Proxy) == s;
    assert ReplaceAll(s, Report, Proxy) == s;
    ReplaceLeadingOccurrence(PublicReport, Proxy, query);
  }

  /** No suffix of the public page name starts the plain one, so the plain
      name occurs after the public one only inside what follows. */
  lemma PublicHasNoReport(query: string)
    requires !Contains(query, Report)
    ensures !Contains(PublicReport + query, Report)
  {
    var s := PublicReport + query;
    forall i: nat | i + |Report| <= |s|
      ensures !OccursAt(s, Report, i)
    {
      var w := s[i..i + |Report|];
      PageLetters();
      if i == 0 {
        assert w[14] == s[14] == PublicReport[14] == 'p';
      } else if i == 22 {
        assert w[1] == s[23] == PublicReport[23] == 'p';
      } else if i < |PublicReport| {
        assert w[0] == s[i] == PublicReport[i];
      } else {
        TailOccurrence(PublicReport, query, Report, i);
      }
    }
  }

  /** The letters of the two page names that rule out overlaps: the plain
      name starts `si` and has `.` at 14; the public name has `s` only at 0
      and 22, and `p` at 14 and 23. */
  lemma PageLetters()
    ensures |Report| == 18 && |PublicReport| == 24
    ensures Report[0] == 's' && Report[1] == 'i' && Report[14] == '.'
    ensures PublicReport[14] == 'p' && PublicReport[23] == 'p'
    ensures forall i :: 0 < i < |PublicReport| && i != 22 ==> PublicReport[i] != 's'
  {
  }

  /** An occurrence that starts after `pre` is an occurrence in what follows it. */
  lemma TailOccurrence(pre: string, rest: string, page: string, i: nat)
    requires |pre| <= i
    ensures OccursAt(pre + rest, page, i) ==> OccursAt(rest, page, i - |pre|)
  {
    if OccursAt(pre + rest, page, i) {
      assert (pre + rest)[i..i + |page|] == rest[i - |pre|..i - |pre| + |page|];
    }
  }

  /** `Proxy + query` holds a page name only where `query` does: the proxy
      path has no `s`, the first letter of both names. */
  lemma NoOccurrenceIn(query: string, page: string)
    requires |page| > 0 && page[0] == 's' && !Contains(query, page)
    ensures !Contains(Proxy + query, page)
  {
    var s := Proxy + query;
    ProxyHasNoS();
    forall i: nat | i + |page| <= |s|
      ensures !OccursAt(s, page, i)
    {
      if i < |Proxy| {
        assert s[i..i + |page|][0] == s[i] == Proxy[i] != 's';
      } else {
        TailOccurrence(Proxy, query, page, i);
      }
    }
  }

  lemma ProxyHasNoS()
    ensures forall i :: 0 <= i < |Proxy| ==> Proxy[i] != 's'
  {
    assert 's' !in Proxy;
  }
}

=== FILE: routes.dfy ===
/** The pure parts of the web routes: the checks and GIS code of
    `/api/plot`, the response headers the proxies pass on, and the query
    parameters of the map-tile proxy. */
module Routes {
  import opened Wrappers
  import opened Dict
  import opened Json
  import opened Transport
  import LocationCodes
  import Scraper

  /** A route's answer: a status code and a JSON body. */
  datatype Reply = Reply(status: int, body: Value)

  const MissingParameters := JObj([("error", JStr("Missing parameters"))])
  const NotFound := JObj([("error", JStr("Plot not found or API error"))])

  /** `request.args.get(name)` is truthy: present and not empty. */
  predicate Given(args: Dict<string>, name: string)
  {
    Has(args, name) && Get(args, name).value != ""
  }

  predicate AllGiven(args: Dict<string>)
  {
    Given(args, "district") && Given(args, "taluka") && Given(args, "village_code")
    && Given(args, "plot_no")
  }

  /** The GIS code `/api/plot` asks for; the category defaults to `R`. */
  function PlotGisCode(args: Dict<string>): string
    requires AllGiven(args)
  {
    LocationCodes.GisCode(GetOr(args, "category", "R"), Get(args, "district").value,
                          Get(args, "taluka").value, Get(args, "village_code").value)
  }

  /** `/api/plot`: 400 without touching the service when a parameter is
      missing or empty; otherwise the plot is looked up, and any truthy
      answer (even one without `the_geom`) is a success, anything else 404. */
  function GetPlot(net: Net, log: seq<Request>, args: Dict<string>): (out: (Reply, seq<Request>))
    ensures out.0.status == 400 <==> !AllGiven(args)
    ensures out.0.status == 400 ==> out.1 == log && out.0.body == MissingParameters
    ensures AllGiven(args) ==>
      Scraper.PostedTo(log, out.1, Scraper.PlotInfoUrl,
                       Scraper.PlotForm(PlotGisCode(args), JStr(Get(args, "plot_no").value)))
    ensures AllGiven(args) ==>
      var data := Scraper.GetPlotCoordinates(net, log, PlotGisCode(args),
                                             JStr(Get(args, "plot_no").value)).0;
      (out.0.status == 200 <==> data.Some? && Truthy(data.value))
      && (out.0.status == 200 ==> out.0.body == data.value)
      && (out.0.status != 200 ==> out.0 == Reply(404, NotFound))
  {
    if !AllGiven(args) then (Reply(400, MissingParameters), log)
    else
      var (data, log') := Scraper.GetPlotCoordinates(net, log, PlotGisCode(args),
                                                     JStr(Get(args, "plot_no").value));
      if data.Some? && Truthy(data.value) then (Reply(200, data.value), log')
      else (Reply(404, NotFound), log')
  }

  /** The code `/api/plot` builds is the one `fetch_plot_list` builds, and for
      two-character district and taluka codes the boundary fetch splits it
      back into the route's own parameters. */
  lemma PlotGisCodeDecomposes(args: Dict<string>)
    requires AllGiven(args)
    requires |Get(args, "district").value| == 2 && |Get(args, "taluka").value| == 2
    ensures var cat := GetOr(args, "category", "R");
      LocationCodes.Decompose(PlotGisCode(args))
        == LocationCodes.Parts(LocationCodes.Prefix(cat), Get(args, "district").value,
                               Get(args, "taluka").value, Get(args, "village_code").value)
    ensures LocationCodes.Rebuild(PlotGisCode(args)) == PlotGisCode(args)
  {
    LocationCodes.DecomposeGisCode(GetOr(args, "category", "R"), Get(args, "district").value,
                                   Get(args, "taluka").value, Get(args, "village_code").value);
  }

  /* -------------------------------------------------------------- headers */

  /** `str.lower` on ASCII letters; every other character is kept. Matching
      against the lower-case ASCII names below, this agrees with Python's
      full Unicode lowering. */
  function LowerChar(c: char): char
  {
    if 'A' <= c <= 'Z' then (c as int + 32) as char else c
  }

  function AsciiLower(s: string): (r: string)
    ensures |r| == |s|
    ensures forall i :: 0 <= i < |s| ==> r[i] == LowerChar(s[i])
  {
    seq(|s|, i requires 0 <= i < |s| => LowerChar(s[i]))
  }

  /** Lowering twice is lowering once. */
  lemma AsciiLowerIdempotent(s: string)
    ensures AsciiLower(AsciiLower(s)) == AsciiLower(s)
  {
    var l := AsciiLower(s);
    assert forall i :: 0 <= i < |s| ==> LowerChar(l[i]) == l[i];
  }

  const Excluded := ["content-encoding", "content-length", "transfer-encoding", "connection"]

  /** The hop-by-hop headers the proxies do not pass on, in any case. */
  predicate HopByHop(name: string)
  {
    AsciiLower(name) in Excluded
  }

  type Header = (string, string)

  /** The upstream headers minus the hop-by-hop ones, in upstream order. */
  function FilterHeaders(hs: seq<Header>): (r: seq<Header>)
    ensures |r| <= |hs|
    ensures forall h :: h in r <==> h in hs && !HopByHop(h.0)
  {
    if hs == [] then []
    else
      var rest := FilterHeaders(hs[1..]);
      assert forall h :: h in hs <==> h == hs[0] || h in hs[1..] by {
        assert hs == [hs[0]] + hs[1..];
      }
      if HopByHop(hs[0].0) then rest else [hs[0]] + rest
  }

  /** Filtering works header by header: the headers kept from two lists in
      a row are those kept from each, in the same order. */
  lemma {:induction false} FilterHeadersAppend(a: seq<Header>, b: seq<Header>)
    ensures FilterHeaders(a + b) == FilterHeaders(a) + FilterHeaders(b)
  {
    if a == [] {
      assert a + b == b;
    } else {
      assert (a + b)[0] == a[0];
      assert (a + b)[1..] == a[1..] + b;
      FilterHeadersAppend(a[1..], b);
    }
  }

  /** Filtering again removes nothing more. */
  lemma {:induction false} FilterHeadersIdempotent(hs: seq<Header>)
    ensures FilterHeaders(FilterHeaders(hs)) == FilterHeaders(hs)
  {
    if hs != [] {
      FilterHeadersIdempotent(hs[1..]);
      var rest := FilterHeaders(hs[1..]);
      if !HopByHop(hs[0].0) {
        assert ([hs[0]] + rest)[0] == hs[0];
        assert ([hs[0]] + rest)[1..] == rest;
      }
    }
  }

  /** The names are matched whatever their case. */
  lemma HopByHopIgnoresCase(name: string)
    ensures HopByHop(name) <==> HopByHop(AsciiLower(name))
  {
    AsciiLowerIdempotent(name);
  }

  /* ------------------------------------------------------------ WMS query */

  /** The query of the map-tile proxy: PNG unless the caller named the exact
      key `FORMAT`, and transparency asked for under both spellings. */
  function WmsParams(params: Dict<string>): (r: Dict<string>)
    ensures Get(r, "FORMAT") == if Has(params, "FORMAT") then Get(params, "FORMAT") else Some("image/png")
    ensures Get(r, "TRANSPARENT") == Some("TRUE")
    ensures Get(r, "transparent") == Some("true")
    ensures forall k :: k != "FORMAT" && k != "TRANSPARENT" && k != "transparent"
                        ==> Get(r, k) == Get(params, k)
    ensures |Keys(params)| <= |Keys(r)| <= |Keys(params)| + 3
    ensures Keys(r)[..|Keys(params)|] == Keys(params)
    ensures UniqueKeys(params) ==> UniqueKeys(r)
  {
    var p1 := if Has(params, "FORMAT") then params else Put(params, "FORMAT", "image/png");
    var p2 := Put(p1, "TRANSPARENT", "TRUE");
    var p3 := Put(p2, "transparent", "true");
    WmsParamsFacts(params, p1, p2, p3);
    p3
  }

  lemma WmsParamsFacts(params: Dict<string>, p1: Dict<string>, p2: Dict<string>, p3: Dict<string>)
    requires p1 == if Has(params, "FORMAT") then params else Put(params, "FORMAT", "image/png")
    requires p2 == Put(p1, "TRANSPARENT", "TRUE")
    requires p3 == Put(p2, "transparent", "true")
    ensures Get(p3, "FORMAT") == if Has(params, "FORMAT") then Get(params, "FORMAT") else Some("image/png")
    ensures Get(p3, "TRANSPARENT") == Some("TRUE")
    ensures forall k :: k != "FORMAT" && k != "TRANSPARENT" && k != "transparent"
                        ==> Get(p3, k) == Get(params, k)
    ensures |Keys(params)| <= |Keys(p3)| <= |Keys(params)| + 3
    ensures Keys(p3)[..|Keys(params)|] == Keys(params)
    ensures UniqueKeys(params) ==> UniqueKeys(p3)
  {
    WmsValues(params, p1, p2, p3);
    WmsKeys(params, p1, p2, p3);
    if UniqueKeys(params) {
      if !Has(params, "FORMAT") {
        PutUnique(params, "FORMAT", "image/png");
      }
      PutUnique(p1, "TRANSPARENT", "TRUE");
      PutUnique(p2, "transparent", "true");
    }
  }

  lemma WmsValues(params: Dict<string>, p1: Dict<string>, p2: Dict<string>, p3: Dict<string>)
    requires p1 == if Has(params, "FORMAT") then params else Put(params, "FORMAT", "image/png")
    requires p2 == Put(p1, "TRANSPARENT", "TRUE")
    requires p3 == Put(p2, "transparent", "true")
    ensures Get(p3, "FORMAT") == if Has(params, "FORMAT") then Get(params, "FORMAT") else Some("image/png")
    ensures Get(p3, "TRANSPARENT") == Some("TRUE")
    ensures forall k :: k != "FORMAT" && k != "TRANSPARENT" && k != "transparent"
                        ==> Get(p3, k) == Get(params, k)
  {
    forall k | k != "TRANSPARENT" && k != "transparent"
      ensures Get(p3, k) == Get(p1, k)
    {
      PutOther(p2, "transparent", "true", k);
      PutOther(p1, "TRANSPARENT", "TRUE", k);
    }
    if !Has(params, "FORMAT") {
      forall k | k != "FORMAT"
        ensures Get(p1, k) == Get(params, k)
      {
        PutOther(params, "FORMAT", "image/png", k);
      }
    }
    PutOther(p2, "transparent", "true", "TRANSPARENT");
  }

  lemma WmsKeys(params: Dict<string>, p1: Dict<string>, p2: Dict<string>, p3: Dict<string>)
    requires p1 == if Has(params, "FORMAT") then params else Put(params, "FORMAT", "image/png")
    requires p2 == Put(p1, "TRANSPARENT", "TRUE")
    requires p3 == Put(p2, "transparent", "true")
    ensures |Keys(params)| <= |Keys(p3)| <= |Keys(params)| + 3
    ensures Keys(p3)[..|Keys(params)|] == Keys(params)
  {
    assert |Keys(params)| <= |Keys(p1)| <= |Keys(params)| + 1
           && Keys(p1)[..|Keys(params)|] == Keys(params) by {
      if !Has(params, "FORMAT") {
        PutKeys(params, "FORMAT", "image/png");
      }
    }
    PutKeys(p1, "TRANSPARENT", "TRUE");
    PutKeys(p2, "transparent", "true");
    KeysChain(Keys(params), Keys(p1), Keys(p2), Keys(p3));
  }

  lemma KeysChain(a: seq<string>, b: seq<string>, c: seq<string>, d: seq<string>)
    requires |a| <= |b| <= |a| + 1 && b[..|a|] == a
    requires |b| <= |c| <= |b| + 1 && c[..|b|] == b
    requires |c| <= |d| <= |c| + 1 && d[..|c|] == c
    ensures |a| <= |d| <= |a| + 3 && d[..|a|] == a
  {
    PrefixChain(a, b, c);
    PrefixChain(a, c, d);
  }

  /** A prefix of a prefix is a prefix. */
  lemma PrefixChain(a: seq<string>, b: seq<string>, c: seq<string>)
    requires |a| <= |b| <= |c| && b[..|a|] == a && c[..|b|] == b
    ensures c[..|a|] == a
  {
    assert c[..|a|] == c[..|b|][..|a|];
  }

  /** Proxying a query the proxy itself produced changes nothing. */
  lemma WmsParamsIdempotent(params: Dict<string>)
    ensures WmsParams(WmsParams(params)) == WmsParams(params)
  {
    var r := WmsParams(params);
    PutExisting(r, "TRANSPARENT");
    var r2 := Put(r, "TRANSPARENT", "TRUE");
    PutExisting(r2, "transparent");
  }
}

=== FILE: scraper.dfy ===
/** `MahabhumiScraper`: the lookups of districts, talukas, villages, plot
    lists and plot geometries, over the network oracle of `Transport`.

    Every operation returns what the Python method returns together with the
    request history extended by the requests it sent. A Python exception that
    escapes the method is an `Err`; the ones the method catches are not. */
module Scraper {
  import opened Wrappers
  import opened Dict
  import opened Json
  import opened Transport
  import Text
  import Numbers
  import LocationCodes
  import InfoParser
  import ReportLinks

  const BaseUrl := "https://mahabhunakasha.mahabhumi.gov.in/rest"
  const LevelUrl := BaseUrl + "/VillageMapService/ListsAfterLevelGeoref"
  const PlotInfoUrl := BaseUrl + "/MapInfo/getPlotInfo"
  const PlotListUrl := BaseUrl + "/VillageMapService/kidelistFromGisCodeMH"
  /** The service's state code for Maharashtra. */
  const State := "27"

  /** `log'` is `log` plus what one `_post` sends: the first POST, and the
      replay with redirects followed when there was one. */
  predicate PostedTo(log: seq<Request>, log': seq<Request>, url: string, form: Dict<Value>)
  {
    log' == log + [Request(url, form, false)]
    || log' == log + [Request(url, form, false), Request(url, form, true)]
  }

  /** The decoded body of an exchange that raised nothing, if there was one. */
  function Decoded(r: Result<Response>): (d: Option<Value>)
    ensures d.Some? <==> r.Ok? && r.value.body.Ok?
    ensures d.Some? ==> r.value.body == Ok(d.value)
  {
    if r.Ok? && r.value.body.Ok? then Some(r.value.body.value) else None
  }

  /* ------------------------------------------------------- dropdown levels */

  function LevelForm(level: nat, codes: string): Dict<Value>
  {
    [("state", JStr(State)), ("level", JStr(Numbers.NatToDigits(level))),
     ("codes", JStr(codes)), ("hasmap", JStr("true"))]
  }

  /** `_fetch_level`: the decoded answer, or `[]` when anything raised. */
  function FetchLevel(net: Net, log: seq<Request>, level: nat, codes: string)
    : (out: (Value, seq<Request>))
    ensures PostedTo(log, out.1, LevelUrl, LevelForm(level, codes))
    ensures Decoded(Checked(LastOutcome(net, out.1))).None? ==> out.0 == JArr([])
    ensures out.0 != JArr([]) ==> Decoded(Checked(LastOutcome(net, out.1))) == Some(out.0)
    ensures forall x :: Decoded(Checked(LastOutcome(net, out.1))) == Some(x) ==> out.0 == x
  {
    var (r, log') := Post(net, log, LevelUrl, LevelForm(level, codes));
    match Decoded(r)
    case Some(data) => (data, log')
    case None => (JArr([]), log')
  }

  /** `data[0] if data and len(data) > 0 else []`; `len` and `[0]` raise on
      the shapes that do not support them, and nothing catches that. */
  function FirstOrEmpty(data: Value): (r: Result<Value>)
    ensures !Truthy(data) ==> r == Ok(JArr([]))
    ensures data.JArr? && data.items != [] ==> r == Ok(data.items[0])
    ensures r.Err? <==> Truthy(data) && !data.JArr? && !data.JStr?
  {
    if !Truthy(data) then Ok(JArr([]))
    else
      var n :- Len(data);
      if n > 0 then First(data) else Ok(JArr([]))
  }

  /** The shared shape of `fetch_districts`, `fetch_talukas` and
      `fetch_villages`: the first element of the level's answer, `[]` when
      the request failed or the answer is empty. */
  function FetchFirst(net: Net, log: seq<Request>, level: nat, codes: string)
    : (out: (Result<Value>, seq<Request>))
    ensures PostedTo(log, out.1, LevelUrl, LevelForm(level, codes))
    ensures Decoded(Checked(LastOutcome(net, out.1))).None? ==> out.0 == Ok(JArr([]))
    ensures Decoded(Checked(LastOutcome(net, out.1))) == Some(JArr([])) ==> out.0 == Ok(JArr([]))
    ensures forall x, xs :: Decoded(Checked(LastOutcome(net, out.1))) == Some(JArr([x] + xs))
                            ==> out.0 == Ok(x)
    ensures out.0.Err? ==> Decoded(Checked(LastOutcome(net, out.1))).Some?
  {
    var (data, log') := FetchLevel(net, log, level, codes);
    (FirstOrEmpty(data), log')
  }

  /** `fetch_districts`: level 1, codes `"C,"`. */
  function FetchDistricts(net: Net, log: seq<Request>, category: string)
    : (out: (Result<Value>, seq<Request>))
    ensures PostedTo(log, out.1, LevelUrl, LevelForm(1, LocationCodes.DistrictCodes(category)))
    ensures Decoded(Checked(LastOutcome(net, out.1))).None? ==> out.0 == Ok(JArr([]))
    ensures Decoded(Checked(LastOutcome(net, out.1))) == Some(JArr([])) ==> out.0 == Ok(JArr([]))
    ensures forall x, xs :: Decoded(Checked(LastOutcome(net, out.1))) == Some(JArr([x] + xs))
                            ==> out.0 == Ok(x)
    ensures out.0.Err? ==> Decoded(Checked(LastOutcome(net, out.1))).Some?
  {
    FetchFirst(net, log, 1, LocationCodes.DistrictCodes(category))
  }

  /** `fetch_talukas`: level 2, codes `"C,D,"`. */
  function FetchTalukas(net: Net, log: seq<Request>, district: string, category: string)
    : (out: (Result<Value>, seq<Request>))
    ensures PostedTo(log, out.1, LevelUrl, LevelForm(2, LocationCodes.TalukaCodes(category, district)))
    ensures Decoded(Checked(LastOutcome(net, out.1))).None? ==> out.0 == Ok(JArr([]))
    ensures Decoded(Checked(LastOutcome(net, out.1))) == Some(JArr([])) ==> out.0 == Ok(JArr([]))
    ensures forall x, xs :: Decoded(Checked(LastOutcome(net, out.1))) == Some(JArr([x] + xs))
                            ==> out.0 == Ok(x)
    ensures out.0.Err? ==> Decoded(Checked(LastOutcome(net, out.1))).Some?
  {
    FetchFirst(net, log, 2, LocationCodes.TalukaCodes(category, district))
  }

  /** `fetch_villages`: level 3, codes `"C,D,T,"`. */
  function FetchVillages(net: Net, log: seq<Request>, district: string, taluka: string, category: string)
    : (out: (Result<Value>, seq<Request>))
    ensures PostedTo(log, out.1, LevelUrl, LevelForm(3, LocationCodes.VillageCodes(category, district, taluka)))
    ensures Decoded(Checked(LastOutcome(net, out.1))).None? ==> out.0 == Ok(JArr([]))
    ensures Decoded(Checked(LastOutcome(net, out.1))) == Some(JArr([])) ==> out.0 == Ok(JArr([]))
    ensures forall x, xs :: Decoded(Checked(LastOutcome(net, out.1))) == Some(JArr([x] + xs))
                            ==> out.0 == Ok(x)
    ensures out.0.Err? ==> Decoded(Checked(LastOutcome(net, out.1))).Some?
  {
    FetchFirst(net, log, 3, LocationCodes.VillageCodes(category, district, taluka))
  }

  /* --------------------------------------------------------- plot records */

  /** A parsed record as a JSON object of strings. */
  function RecordJson(r: InfoParser.Record): (v: Dict<Value>)
    ensures Keys(v) == Keys(r)
    ensures forall k :: Get(r, k).Some? ==> Get(v, k) == Some(JStr(Get(r, k).value))
  {
    if r == [] then []
    else
      var rest := RecordJson(r[1..]);
      assert ([(r[0].0, JStr(r[0].1))] + rest)[1..] == rest;
      [(r[0].0, JStr(r[0].1))] + rest
  }

  function RecordsJson(records: seq<InfoParser.Record>): (v: Value)
    ensures v.JArr? && |v.items| == |records|
    ensures forall i :: 0 <= i < |records| ==> v.items[i] == JObj(RecordJson(records[i]))
  {
    JArr(seq(|records|, i requires 0 <= i < |records| => JObj(RecordJson(records[i]))))
  }

  /** A field whose value is truthy but not a string: calling a string method
      on it raises AttributeError. */
  predicate NonText(fs: Dict<Value>, k: string)
  {
    Get(fs, k).Some? && Truthy(Get(fs, k).value) && !Get(fs, k).value.JStr?
  }

  /** No truthy value under `k`: absent, or present and falsy. */
  predicate Falsy(fs: Dict<Value>, k: string)
  {
    Get(fs, k).None? || !Truthy(Get(fs, k).value)
  }

  /** The JSON list of the records parsed from an `info` text. */
  function InfoRecords(t: string): Value
  {
    RecordsJson(InfoParser.ParseInfo(t))
  }

  /** Lines 123-144: with a truthy `info`, store its parsed records under
      `parsed_records`; `None` stands for the exception. */
  function WithRecords(data: Value): (r: Option<Value>)
    ensures data.JObj? ==> (r.None? <==> NonText(data.fields, "info"))
    ensures !data.JObj? && r.Some? ==> r == Some(data)
    ensures r.Some? && data.JObj? ==> r.value.JObj?
    ensures r.Some? && data.JObj? ==>
      forall k :: k != "parsed_records" ==> Get(r.value.fields, k) == Get(data.fields, k)
    ensures data.JObj? ==>
      forall t :: Get(data.fields, "info") == Some(JStr(t)) && t != "" ==>
        r.Some? && Get(r.value.fields, "parsed_records") == Some(InfoRecords(t))
    ensures data.JObj? && Falsy(data.fields, "info") ==> r == Some(data)
    ensures data.JArr? || data.JStr? ==> (r.None? <==> In("info", data) == Ok(true))
  {
    WithParsed(data, "info", "parsed_records", InfoRecords)
  }

  /** Store `parse` of the text under `src` at `dst` when `src` holds a
      truthy value; a truthy non-string raises. */
  function WithParsed(data: Value, src: string, dst: string, parse: string -> Value): (r: Option<Value>)
    ensures data.JObj? ==> (r.None? <==> NonText(data.fields, src))
    ensures !data.JObj? && r.Some? ==> r == Some(data)
    ensures r.Some? && data.JObj? ==> r.value.JObj?
    ensures r.Some? && data.JObj? ==>
      forall k :: k != dst ==> Get(r.value.fields, k) == Get(data.fields, k)
    ensures data.JObj? ==>
      forall t :: Get(data.fields, src) == Some(JStr(t)) && t != "" ==>
        r.Some? && Get(r.value.fields, dst) == Some(parse(t))
    ensures data.JObj? && Falsy(data.fields, src) ==> r == Some(data)
    ensures data.JArr? || data.JStr? ==> (r.None? <==> In(src, data) == Ok(true))
  {
    match In(src, data)
    case Err(_) => None
    case Ok(false) => Some(data)
    case Ok(true) =>
      match GetItem(data, src)
      case Err(_) => None
      case Ok(info) =>
        if !Truthy(info) then Some(data)
        else if info.JStr? then
          match SetItem(data, dst, parse(info.s))
          case Ok(d) => Some(d)
          case Err(_) => None
        else None
  }

  /** The link text has no legacy report page left in it. */
  ghost predicate LinksProxied(fs: Dict<Value>)
  {
    forall t :: Get(fs, "infoLinks") == Some(JStr(t)) ==>
      !Text.Contains(t, ReportLinks.Report) && !Text.Contains(t, ReportLinks.PublicReport)
  }

  /** The `infoLinks` text pointed at the report proxy. */
  function ProxyLinks(t: string): Value
  {
    JStr(ReportLinks.RewriteInfoLinks(t))
  }

  /** Lines 147-151: point a truthy `infoLinks` at the report proxy. */
  function WithProxyLinks(data: Value): (r: Option<Value>)
    ensures data.JObj? ==> (r.None? <==> NonText(data.fields, "infoLinks"))
    ensures !data.JObj? && r.Some? ==> r == Some(data)
    ensures r.Some? && data.JObj? ==> r.value.JObj? && LinksProxied(r.value.fields)
    ensures r.Some? && data.JObj? ==>
      forall k :: k != "infoLinks" ==> Get(r.value.fields, k) == Get(data.fields, k)
    ensures data.JObj? ==>
      forall t :: Get(data.fields, "infoLinks") == Some(JStr(t)) && t != "" ==>
        r.Some? && Get(r.value.fields, "infoLinks") == Some(JStr(ReportLinks.RewriteInfoLinks(t)))
    ensures data.JObj? && Falsy(data.fields, "infoLinks") ==> r == Some(data)
    ensures data.JArr? || data.JStr? ==> (r.None? <==> In("infoLinks", data) == Ok(true))
  {
    var r := WithParsed(data, "infoLinks", "infoLinks", ProxyLinks);
    assert r.Some? && data.JObj? ==> LinksProxied(r.value.fields) by {
      if r.Some? && data.JObj? {
        forall t | Get(r.value.fields, "infoLinks") == Some(JStr(t))
          ensures !Text.Contains(t, ReportLinks.Report) && !Text.Contains(t, ReportLinks.PublicReport)
        {
          var v := Get(data.fields, "infoLinks");
          if v.Some? && v.value.JStr? && v.value.s != "" {
            assert t == ReportLinks.RewriteInfoLinks(v.value.s);
          } else {
            assert Get(r.value.fields, "infoLinks") == v;
            Text.NotContainsByHead(t, ReportLinks.Report);
            Text.NotContainsByHead(t, ReportLinks.PublicReport);
          }
        }
      }
    }
    r
  }

  /** Lines 117-158 after the exchange: a decoded answer holding `the_geom`
      gets its records and links; one without is returned as decoded; any
      exception gives `None`. */
  function PostProcess(data: Value): (r: Option<Value>)
    ensures In("the_geom", data).Err? ==> r.None?
    ensures In("the_geom", data) == Ok(false) ==> r == Some(data)
    ensures !data.JObj? && r.Some? ==> r == Some(data)
    ensures data.JObj? && Has(data.fields, "the_geom") ==>
      (r.None? <==> NonText(data.fields, "info") || NonText(data.fields, "infoLinks"))
    ensures (data.JArr? || data.JStr?) && In("the_geom", data) == Ok(true) ==>
      (r.None? <==> In("info", data) == Ok(true) || In("infoLinks", data) == Ok(true))
    ensures r.Some? && data.JObj? ==> r.value.JObj?
    ensures r.Some? && data.JObj? ==>
      forall k :: k != "parsed_records" && k != "infoLinks" ==> Get(r.value.fields, k) == Get(data.fields, k)
    ensures r.Some? && data.JObj? && Has(data.fields, "the_geom") ==> LinksProxied(r.value.fields)
    ensures r.Some? && data.JObj? && Has(data.fields, "the_geom") ==>
      && (forall t :: Get(data.fields, "info") == Some(JStr(t)) && t != "" ==>
            Get(r.value.fields, "parsed_records") == Some(InfoRecords(t)))
      && (Falsy(data.fields, "info") ==>
            Get(r.value.fields, "parsed_records") == Get(data.fields, "parsed_records"))
      && (forall t :: Get(data.fields, "infoLinks") == Some(JStr(t)) && t != "" ==>
            Get(r.value.fields, "infoLinks") == Some(JStr(ReportLinks.RewriteInfoLinks(t))))
      && (Falsy(data.fields, "infoLinks") ==>
            Get(r.value.fields, "infoLinks") == Get(data.fields, "infoLinks"))
  {
    match In("the_geom", data)
    case Err(_) => None
    case Ok(false) => Some(data)
    case Ok(true) =>
      match WithRecords(data)
      case None => None
      case Some(d) => WithProxyLinks(d)
  }

  function PlotForm(giscode: string, plotNo: Value): Dict<Value>
  {
    [("giscode", JStr(giscode)), ("plotno", plotNo), ("state", JStr(State))]
  }

  /** `get_plot_coordinates`. */
  function GetPlotCoordinates(net: Net, log: seq<Request>, giscode: string, plotNo: Value)
    : (out: (Option<Value>, seq<Request>))
    ensures PostedTo(log, out.1, PlotInfoUrl, PlotForm(giscode, plotNo))
    ensures Decoded(Checked(LastOutcome(net, out.1))).None? ==> out.0 == None
    ensures forall data :: Decoded(Checked(LastOutcome(net, out.1))) == Some(data)
                           ==> out.0 == PostProcess(data)
  {
    var (r, log') := Post(net, log, PlotInfoUrl, PlotForm(giscode, plotNo));
    // the second `raise_for_status` (line 116) cannot raise after the first
    match Decoded(r)
    case None => (None, log')
    case Some(data) => (PostProcess(data), log')
  }

  /* ------------------------------------------------------------- plot list */

  function PlotListForm(giscode: string): Dict<Value>
  {
    [("state", JStr(State)), ("logedLevels", JStr(giscode))]
  }

  /** `fetch_plot_list`: a single POST with redirects followed; the decoded
      answer when it has a length, `[]` otherwise. */
  function FetchPlotList(net: Net, log: seq<Request>, district: string, taluka: string,
                         village: string, category: string)
    : (out: (Value, seq<Request>))
    ensures out.1 == log + [Request(PlotListUrl,
                                    PlotListForm(LocationCodes.GisCode(category, district, taluka, village)),
                                    true)]
    ensures HasLen(out.0)
    ensures Decoded(Checked(LastOutcome(net, out.1))).None? ==> out.0 == JArr([])
    ensures out.0 != JArr([]) ==> Decoded(Checked(LastOutcome(net, out.1))) == Some(out.0)
    ensures forall x :: Decoded(Checked(LastOutcome(net, out.1))) == Some(x)
                        ==> out.0 == (if HasLen(x) then x else JArr([]))
  {
    var gis := LocationCodes.GisCode(category, district, taluka, village);
    var (o, log') := Send(net, log, Request(PlotListUrl, PlotListForm(gis), true));
    match Decoded(Checked(o))
    case Some(v) => if HasLen(v) then (v, log') else (JArr([]), log')
    case None => (JArr([]), log')
  }

  /* ----------------------------------------------------- village boundaries */

  datatype Boundary = Boundary(plotNo: Value, geometry: Value)

  function PlotNos(bs: seq<Boundary>): (ps: seq<Value>)
    ensures |ps| == |bs|
    ensures forall i :: 0 <= i < |bs| ==> ps[i] == bs[i].plotNo
  {
    seq(|bs|, i requires 0 <= i < |bs| => bs[i].plotNo)
  }

  /** `a` is `b` with some elements left out, the rest in order. */
  predicate Sub<T(==)>(a: seq<T>, b: seq<T>)
    decreases |b|
  {
    a == [] || (b != [] && ((a[0] == b[0] && Sub(a[1..], b[1..])) || Sub(a, b[1..])))
  }

  /** Python `xs[:n]`: a negative `n` counts from the end. */
  function Take<T>(xs: seq<T>, n: int): (r: seq<T>)
    ensures |r| <= |xs| && r == xs[..|r|]
    ensures n >= 0 ==> |r| == if n < |xs| then n else |xs|
    ensures n < 0 ==> |r| == if |xs| + n > 0 then |xs| + n else 0
  {
    if n >= 0 then (if n < |xs| then xs[..n] else xs)
    else if |xs| + n > 0 then xs[..|xs| + n] else []
  }

  /** `plot_list[:max_plots]`, iterated: list items, or the one-character
      strings of a string; slicing any other shape raises. */
  function PlotsToFetch(plots: Value, maxPlots: int): (r: Result<seq<Value>>)
    ensures r.Ok? <==> plots.JArr? || plots.JStr?
    ensures plots.JArr? ==> r == Ok(Take(plots.items, maxPlots))
    ensures r.Ok? && maxPlots >= 0 ==> |r.value| <= maxPlots
  {
    match plots
    case JArr(xs) => Ok(Take(xs, maxPlots))
    case JStr(s) =>
      var cs := Take(s, maxPlots);
      Ok(seq(|cs|, i requires 0 <= i < |cs| => JStr([cs[i]])))
    case _ => Err(TypeError)
  }

  /** Lines 217-222: keep `{plot_no, geometry}` when the plot data is truthy,
      holds `the_geom`, and can be indexed by it; every exception is caught. */
  function Keep(plotNo: Value, pd: Option<Value>): (bs: seq<Boundary>)
    ensures |bs| <= 1
    ensures bs != [] ==> bs[0].plotNo == plotNo && pd.Some? && pd.value.JObj?
                         && Get(pd.value.fields, "the_geom") == Some(bs[0].geometry)
    ensures pd.Some? && pd.value.JObj? && Has(pd.value.fields, "the_geom") ==> bs != []
  {
    match pd
    case None => []
    case Some(d) =>
      if !Truthy(d) then []
      else
        match In("the_geom", d)
        case Ok(true) =>
          (match GetItem(d, "the_geom")
           case Ok(g) => [Boundary(plotNo, g)]
           case Err(_) => [])
        case _ => []
  }

  /** The states a step function passes through over `xs`, starting at `s`. */
  function Trail<A, S>(next: (S, A) -> S, s: S, xs: seq<A>): (t: seq<S>)
    ensures |t| == |xs| + 1 && t[0] == s
    ensures forall i :: 0 <= i < |xs| ==> t[i + 1] == next(t[i], xs[i])
    decreases |xs|
  {
    if xs == [] then [s]
    else
      var rest := Trail(next, next(s, xs[0]), xs[1..]);
      assert forall i :: 1 <= i < |xs| ==> xs[i] == xs[1..][i - 1];
      [s] + rest
  }

  /** `f` applied to each element together with the state it is met in. */
  function ZipWith<A, S, B>(f: (A, S) -> B, xs: seq<A>, ss: seq<S>): (ys: seq<B>)
    requires |ss| >= |xs|
    ensures |ys| == |xs|
    ensures forall i :: 0 <= i < |xs| ==> ys[i] == f(xs[i], ss[i])
  {
    seq(|xs|, i requires 0 <= i < |xs| => f(xs[i], ss[i]))
  }

  lemma TrailCons<A, S>(next: (S, A) -> S, s: S, xs: seq<A>)
    requires xs != []
    ensures Trail(next, s, xs) == [s] + Trail(next, next(s, xs[0]), xs[1..])
  {
  }

  lemma ZipWithCons<A, S, B>(f: (A, S) -> B, xs: seq<A>, s: S, ss: seq<S>)
    requires xs != [] && |ss| >= |xs| - 1
    ensures ZipWith(f, xs, [s] + ss) == [f(xs[0], s)] + ZipWith(f, xs[1..], ss)
  {
    var l, r := ZipWith(f, xs, [s] + ss), [f(xs[0], s)] + ZipWith(f, xs[1..], ss);
    forall i | 1 <= i < |xs|
      ensures l[i] == r[i]
    {
      assert xs[1..][i - 1] == xs[i] && ([s] + ss)[i] == ss[i - 1];
    }
  }

  /** The request history before each plot's turn of the loop, and after
      the last: each turn sends that plot's `getPlotInfo` exchange. */
  function Histories(net: Net, log: seq<Request>, giscode: string, plots: seq<Value>)
    : (hs: seq<seq<Request>>)
    ensures |hs| == |plots| + 1 && hs[0] == log
    ensures forall i :: 0 <= i < |plots| ==>
      hs[i + 1] == GetPlotCoordinates(net, hs[i], giscode, plots[i]).1
      && PostedTo(hs[i], hs[i + 1], PlotInfoUrl, PlotForm(giscode, plots[i]))
  {
    Trail(AfterPlot(net, giscode), log, plots)
  }

  function AfterPlot(net: Net, giscode: string): (seq<Request>, Value) -> seq<Request>
  {
    (l, p) => GetPlotCoordinates(net, l, giscode, p).1
  }

  /** What each plot's turn keeps, given the history it starts from. */
  function KeptEach(net: Net, giscode: string, plots: seq<Value>, hs: seq<seq<Request>>)
    : (ks: seq<seq<Boundary>>)
    requires |hs| >= |plots|
    ensures |ks| == |plots|
    ensures forall i :: 0 <= i < |plots| ==>
      ks[i] == Keep(plots[i], GetPlotCoordinates(net, hs[i], giscode, plots[i]).0)
  {
    ZipWith(KeptAt(net, giscode), plots, hs)
  }

  function KeptAt(net: Net, giscode: string): (Value, seq<Request>) -> seq<Boundary>
  {
    (p, l) => Keep(p, GetPlotCoordinates(net, l, giscode, p).0)
  }

  function Concat<T>(xss: seq<seq<T>>): seq<T>
  {
    if xss == [] then [] else xss[0] + Concat(xss[1..])
  }

  /** The loop of lines 215-225, front to back: plot after plot, the
      `{plot_no, geometry}` entries of the answers `Keep` accepts, in order,
      and the history after every plot's exchange. */
  function Collect(net: Net, log: seq<Request>, giscode: string, plots: seq<Value>)
    : (out: (seq<Boundary>, seq<Request>))
    ensures var hs := Histories(net, log, giscode, plots);
      out.0 == Concat(KeptEach(net, giscode, plots, hs)) && out.1 == hs[|plots|]
    ensures Sub(PlotNos(out.0), plots)
    ensures |log| + |plots| <= |out.1| <= |log| + 2 * |plots|
    ensures out.1[..|log|] == log
    decreases |plots|
  {
    if plots == [] then ([], log)
    else
      var step := GetPlotCoordinates(net, log, giscode, plots[0]);
      var tail := Collect(net, step.1, giscode, plots[1..]);
      CollectTurn(net, log, giscode, plots, tail);
      (Keep(plots[0], step.0) + tail.0, tail.1)
  }

  /** One turn of the loop: the first plot's exchange and kept entry in
      front of what the other plots' turns give. */
  lemma CollectTurn(net: Net, log: seq<Request>, giscode: string, plots: seq<Value>,
                    tail: (seq<Boundary>, seq<Request>))
    requires plots != []
    requires var step := GetPlotCoordinates(net, log, giscode, plots[0]);
      var hs := Histories(net, step.1, giscode, plots[1..]);
      && tail.0 == Concat(KeptEach(net, giscode, plots[1..], hs)) && tail.1 == hs[|plots| - 1]
      && Sub(PlotNos(tail.0), plots[1..])
      && |step.1| + |plots| - 1 <= |tail.1| <= |step.1| + 2 * (|plots| - 1)
      && tail.1[..|step.1|] == step.1
    ensures var step := GetPlotCoordinates(net, log, giscode, plots[0]);
      var out := (Keep(plots[0], step.0) + tail.0, tail.1);
      var hs := Histories(net, log, giscode, plots);
      && out.0 == Concat(KeptEach(net, giscode, plots, hs)) && out.1 == hs[|plots|]
      && Sub(PlotNos(out.0), plots)
      && |log| + |plots| <= |out.1| <= |log| + 2 * |plots|
      && out.1[..|log|] == log
  {
    var step := GetPlotCoordinates(net, log, giscode, plots[0]);
    CollectStep(log, step.1, tail.1, plots, Keep(plots[0], step.0), tail.0);
    KeptEachCons(net, log, giscode, plots);
  }

  /** The first plot's turn, then the others' from the history it leaves. */
  lemma KeptEachCons(net: Net, log: seq<Request>, giscode: string, plots: seq<Value>)
    requires plots != []
    ensures var step := GetPlotCoordinates(net, log, giscode, plots[0]);
      var hs, rest := Histories(net, log, giscode, plots), Histories(net, step.1, giscode, plots[1..]);
      && hs[|plots|] == rest[|plots| - 1]
      && Concat(KeptEach(net, giscode, plots, hs))
         == Keep(plots[0], step.0) + Concat(KeptEach(net, giscode, plots[1..], rest))
  {
    var step := GetPlotCoordinates(net, log, giscode, plots[0]);
    var hs, rest := Histories(net, log, giscode, plots), Histories(net, step.1, giscode, plots[1..]);
    assert hs == [log] + rest by {
      TrailCons(AfterPlot(net, giscode), log, plots);
      assert AfterPlot(net, giscode)(log, plots[0]) == step.1;
    }
    var ks := KeptEach(net, giscode, plots, hs);
    assert ks == [Keep(plots[0], step.0)] + KeptEach(net, giscode, plots[1..], rest) by {
      ZipWithCons(KeptAt(net, giscode), plots, log, rest);
    }
    assert ks[1..] == KeptEach(net, giscode, plots[1..], rest);
  }

  /** One turn of the loop: one plot's requests, then the rest's. */
  lemma CollectStep(log: seq<Request>, log1: seq<Request>, log2: seq<Request>,
                    plots: seq<Value>, keep: seq<Boundary>, rest: seq<Boundary>)
    requires plots != []
    requires |log| + 1 <= |log1| <= |log| + 2 && log1[..|log|] == log
    requires |keep| <= 1 && (keep != [] ==> keep[0].plotNo == plots[0])
    requires Sub(PlotNos(rest), plots[1..])
    requires |log1| + |plots| - 1 <= |log2| <= |log1| + 2 * (|plots| - 1)
    requires log2[..|log1|] == log1
    ensures Sub(PlotNos(keep + rest), plots)
    ensures |log| + |plots| <= |log2| <= |log| + 2 * |plots|
    ensures log2[..|log|] == log
  {
    SubKeep(plots[0], keep, rest, plots[1..]);
    assert [plots[0]] + plots[1..] == plots;
  }

  lemma SubKeep(x: Value, keep: seq<Boundary>, rest: seq<Boundary>, xs: seq<Value>)
    requires |keep| <= 1 && (keep != [] ==> keep[0].plotNo == x)
    requires Sub(PlotNos(rest), xs)
    ensures Sub(PlotNos(keep + rest), [x] + xs)
  {
    var a := PlotNos(keep + rest);
    if keep == [] {
      assert keep + rest == rest;
      assert ([x] + xs)[1..] == xs;
    } else {
      assert a[0] == x && a[1..] == PlotNos(rest);
      assert ([x] + xs)[1..] == xs;
    }
  }

  /** The plot list `fetch_village_boundaries` works from: the one of the
      decomposed and rebuilt GIS code. */
  function PlotListOf(net: Net, log: seq<Request>, giscode: string): (out: (Value, seq<Request>))
    ensures out.1 == log + [Request(PlotListUrl, PlotListForm(LocationCodes.Rebuild(giscode)), true)]
  {
    var p := LocationCodes.Decompose(giscode);
    FetchPlotList(net, log, p.district, p.taluka, p.village, LocationCodes.CategoryOf(p.prefix))
  }

  /** `fetch_village_boundaries`. */
  function FetchVillageBoundaries(net: Net, log: seq<Request>, giscode: string, maxPlots: int)
    : (out: (Result<seq<Boundary>>, seq<Request>))
    ensures var (plots, log1) := PlotListOf(net, log, giscode);
      && |out.1| >= |log1| && out.1[..|log1|] == log1
      && (!Truthy(plots) ==> out == (Ok([]), log1))
      && (out.0.Err? <==> Truthy(plots) && !plots.JArr? && !plots.JStr?)
      && (out.0.Ok? && plots.JArr? ==> Sub(PlotNos(out.0.value), Take(plots.items, maxPlots)))
      && (out.0.Ok? && maxPlots >= 0 ==> |out.0.value| <= maxPlots)
      && (forall items :: Truthy(plots) && PlotsToFetch(plots, maxPlots) == Ok(items) ==>
            out == (Ok(Collect(net, log1, giscode, items).0), Collect(net, log1, giscode, items).1))
  {
    var (plots, log1) := PlotListOf(net, log, giscode);
    if !Truthy(plots) then (Ok([]), log1)
    else
      match PlotsToFetch(plots, maxPlots)
      case Err(e) => (Err(e), log1)
      case Ok(items) =>
        var (bs, log2) := Collect(net, log1, giscode, items);
        SubLength(PlotNos(bs), items);
        (Ok(bs), log2)
  }

  lemma {:induction false} SubLength<T>(a: seq<T>, b: seq<T>)
    requires Sub(a, b)
    ensures |a| <= |b|
    decreases |b|
  {
    if a != [] {
      if a[0] == b[0] && Sub(a[1..], b[1..]) {
        SubLength(a[1..], b[1..]);
      } else {
        SubLength(a, b[1..]);
      }
    }
  }

  /** A network that answers every request with a plain plot holding
      `the_geom` and no `info` or `infoLinks`. */
  ghost predicate ServesGeometry(net: Net)
  {
    forall h, req :: Decoded(Checked(net(h, req))).Some?
                     && Decoded(Checked(net(h, req))).value.JObj?
                     && Has(Decoded(Checked(net(h, req))).value.fields, "the_geom")
                     && !Has(Decoded(Checked(net(h, req))).value.fields, "info")
                     && !Has(Decoded(Checked(net(h, req))).value.fields, "infoLinks")
  }

  /** Under such a network every plot's answer is kept. */
  lemma PlotKept(net: Net, log: seq<Request>, giscode: string, plotNo: Value)
    requires ServesGeometry(net)
    ensures |Keep(plotNo, GetPlotCoordinates(net, log, giscode, plotNo).0)| == 1
  {
    var (pd, log1) := GetPlotCoordinates(net, log, giscode, plotNo);
    var o := LastOutcome(net, log1);
    assert Decoded(Checked(o)).Some?;
    var data := Decoded(Checked(o)).value;
    assert data.JObj? && Has(data.fields, "the_geom");
    assert !NonText(data.fields, "info") && !NonText(data.fields, "infoLinks");
    assert pd == PostProcess(data);
    assert pd.Some? && pd.value.JObj?;
    assert Get(pd.value.fields, "the_geom") == Get(data.fields, "the_geom");
  }

  /** When every plot answers with a geometry, none is skipped. */
  lemma CollectComplete(net: Net, log: seq<Request>, giscode: string, plots: seq<Value>)
    requires ServesGeometry(net)
    ensures PlotNos(Collect(net, log, giscode, plots).0) == plots
  {
    forall l: seq<Request>, p: Value
      ensures |Keep(p, GetPlotCoordinates(net, l, giscode, p).0)| == 1
    {
      PlotKept(net, l, giscode, p);
    }
    CollectKeepsAll(net, log, giscode, plots);
  }

  /** Every plot's answer is kept, whatever was sent before. */
  ghost predicate KeepsEvery(net: Net, giscode: string)
  {
    forall l: seq<Request>, p: Value :: |Keep(p, GetPlotCoordinates(net, l, giscode, p).0)| == 1
  }

  lemma {:induction false} CollectKeepsAll(net: Net, log: seq<Request>, giscode: string, plots: seq<Value>)
    requires KeepsEvery(net, giscode)
    ensures PlotNos(Collect(net, log, giscode, plots).0) == plots
    decreases |plots|
  {
    if plots != [] {
      var step := GetPlotCoordinates(net, log, giscode, plots[0]);
      var keep := Keep(plots[0], step.0);
      assert |keep| == 1;
      CollectKeepsAll(net, step.1, giscode, plots[1..]);
      var tail := Collect(net, step.1, giscode, plots[1..]);
      CollectCons(net, log, giscode, plots);
      PlotNosCons(keep, tail.0, plots[0], plots[1..]);
      assert [plots[0]] + plots[1..] == plots;
    }
  }

  lemma CollectCons(net: Net, log: seq<Request>, giscode: string, plots: seq<Value>)
    requires plots != []
    ensures var step := GetPlotCoordinates(net, log, giscode, plots[0]);
      Collect(net, log, giscode, plots).0
        == Keep(plots[0], step.0) + Collect(net, step.1, giscode, plots[1..]).0
  {
  }

  lemma PlotNosCons(keep: seq<Boundary>, rest: seq<Boundary>, x: Value, xs: seq<Value>)
    requires |keep| == 1 && keep[0].plotNo == x && PlotNos(rest) == xs
    ensures PlotNos(keep + rest) == [x] + xs
  {
  }
}

=== FILE: text.dfy ===
/** The Python string operations the scraper relies on, over `seq<char>`:
    `str.isspace`, `in`, `find`, `split(sep)`, `split()`, `strip()` and
    `replace(old, new)`. */
module Text {
  import opened Wrappers

  /** Python's `str.isspace` on one character (ASCII and Unicode whitespace). */
  predicate IsSpace(c: char)
  {
    var n := c as int;
    || 9 <= n <= 13 || 28 <= n <= 32 || n == 0x85 || n == 0xA0 || n == 0x1680
    || 0x2000 <= n <= 0x200A || n == 0x2028 || n == 0x2029 || n == 0x202F
    || n == 0x205F || n == 0x3000
  }

  predicate AllSpace(s: string)
  {
    forall i :: 0 <= i < |s| ==> IsSpace(s[i])
  }

  predicate NoSpace(s: string)
  {
    forall i :: 0 <= i < |s| ==> !IsSpace(s[i])
  }

  /* ---------------------------------------------------------------- find */

  predicate OccursAt(s: string, pat: string, i: nat)
  {
    i + |pat| <= |s| && s[i..i + |pat|] == pat
  }

  /** `pat in s`. */
  ghost predicate Contains(s: string, pat: string)
  {
    exists i: nat :: OccursAt(s, pat, i)
  }

  lemma OccursShift(s: string, pat: string, j: nat)
    requires |s| > 0
    ensures OccursAt(s[1..], pat, j) <==> OccursAt(s, pat, j + 1)
  {
    if j + 1 + |pat| <= |s| {
      assert s[1..][j..j + |pat|] == s[j + 1..j + 1 + |pat|];
    }
  }

  /** `s.find(pat)`: the leftmost occurrence of `pat`, if any. */
  function Find(s: string, pat: string): (r: Option<nat>)
    ensures r.Some? ==> OccursAt(s, pat, r.value)
    ensures r.Some? ==> forall j: nat :: j < r.value ==> !OccursAt(s, pat, j)
    ensures r.None? <==> !Contains(s, pat)
    decreases |s|
  {
    if |s| < |pat| then None
    else if s[..|pat|] == pat then Some(0)
    else
      var r := Find(s[1..], pat);
      assert forall j: nat :: OccursAt(s[1..], pat, j) <==> OccursAt(s, pat, j + 1) by {
        forall j: nat
          ensures OccursAt(s[1..], pat, j) <==> OccursAt(s, pat, j + 1)
        {
          OccursShift(s, pat, j);
        }
      }
      assert !OccursAt(s, pat, 0);
      match r
      case None =>
        assert forall i: nat :: !OccursAt(s, pat, i) by {
          forall i: nat
            ensures !OccursAt(s, pat, i)
          {
            if i > 0 {
              assert !OccursAt(s[1..], pat, i - 1);
            }
          }
        }
        None
      case Some(i) =>
        assert forall j: nat :: j < i + 1 ==> !OccursAt(s, pat, j) by {
          forall j: nat | j < i + 1
            ensures !OccursAt(s, pat, j)
          {
            if j > 0 {
              assert !OccursAt(s[1..], pat, j - 1);
            }
          }
        }
        Some(i + 1)
  }

  /** Finding a single character: its first index, or no index at all. */
  lemma FindChar(s: string, c: char)
    ensures Find(s, [c]).None? ==> forall j :: 0 <= j < |s| ==> s[j] != c
    ensures Find(s, [c]).Some? ==> var i := Find(s, [c]).value;
      i < |s| && s[i] == c && forall j :: 0 <= j < i ==> s[j] != c
  {
    var r := Find(s, [c]);
    var bound := if r.Some? then r.value else |s|;
    forall j | 0 <= j < bound
      ensures s[j] != c
    {
      assert !OccursAt(s, [c], j);
      assert s[j..j + 1] == [s[j]];
    }
    if r.Some? {
      assert s[r.value..r.value + 1] == [c];
    }
  }

  /** A string in which the first character of `pat` never appears cannot contain `pat`. */
  lemma NotContainsByHead(s: string, pat: string)
    requires |pat| > 0 && pat[0] !in s
    ensures !Contains(s, pat)
  {
    forall i: nat
      ensures !OccursAt(s, pat, i)
    {
      if i + |pat| <= |s| {
        assert s[i..i + |pat|][0] == s[i];
      }
    }
  }

  /* --------------------------------------------------------- split, join */

  /** `sep.join(parts)`. */
  function Join(parts: seq<string>, sep: string): string
  {
    if |parts| == 0 then ""
    else if |parts| == 1 then parts[0]
    else parts[0] + sep + Join(parts[1..], sep)
  }

  lemma JoinCons(parts: seq<string>, sep: string)
    requires |parts| > 1
    ensures Join(parts, sep) == parts[0] + sep + Join(parts[1..], sep)
  {
  }

  /** The cut after `p` is at the leftmost occurrence of `sep`: in `p`
      followed by the separator, the first occurrence is the one at the end. */
  predicate LeftmostCut(p: string, sep: string)
  {
    forall j: nat :: j < |p| ==> !OccursAt(p + sep, sep, j)
  }

  /** The leftmost occurrence is the one with none before it. */
  lemma FindAt(s: string, pat: string, i: nat)
    requires OccursAt(s, pat, i)
    requires forall j: nat :: j < i ==> !OccursAt(s, pat, j)
    ensures Find(s, pat) == Some(i)
  {
  }

  /** `s.split(sep)` for a non-empty separator: cut at every leftmost,
      non-overlapping occurrence of `sep`. */
  function Split(s: string, sep: string): (parts: seq<string>)
    requires |sep| > 0
    ensures |parts| >= 1
    ensures Join(parts, sep) == s
    ensures forall i :: 0 <= i < |parts| ==> !Contains(parts[i], sep)
    ensures |parts| > 1 ==> Find(s, sep) == Some(|parts[0]|)
    decreases |s|
  {
    match Find(s, sep)
    case None => [s]
    case Some(i) =>
      var rest := Split(s[i + |sep|..], sep);
      SplitStep(s, sep, i, rest);
      [s[..i]] + rest
  }

  /** One cut of `Split`: the text before the leftmost separator, then the
      parts of the text after it. */
  lemma SplitStep(s: string, sep: string, i: nat, rest: seq<string>)
    requires |sep| > 0 && Find(s, sep) == Some(i)
    requires |rest| >= 1 && Join(rest, sep) == s[i + |sep|..]
    requires forall k :: 0 <= k < |rest| ==> !Contains(rest[k], sep)
    ensures Join([s[..i]] + rest, sep) == s
    ensures forall k :: 0 <= k < |rest| + 1 ==> !Contains(([s[..i]] + rest)[k], sep)
  {
    JoinAround(s, sep, i, rest);
    CutAtFind(s, sep, i);
    ConsClean(s[..i], rest, sep);
  }

  lemma ConsClean(head: string, rest: seq<string>, sep: string)
    requires !Contains(head, sep)
    requires forall k :: 0 <= k < |rest| ==> !Contains(rest[k], sep)
    ensures forall k :: 0 <= k < |rest| + 1 ==> !Contains(([head] + rest)[k], sep)
  {
    var parts := [head] + rest;
    forall k | 0 < k < |parts|
      ensures !Contains(parts[k], sep)
    {
      assert parts[k] == rest[k - 1];
    }
  }

  /** Gluing the text before an occurrence to the parts after it. */
  lemma JoinAround(s: string, sep: string, i: nat, rest: seq<string>)
    requires OccursAt(s, sep, i)
    requires |rest| >= 1 && Join(rest, sep) == s[i + |sep|..]
    ensures Join([s[..i]] + rest, sep) == s
  {
    JoinPrepend(s[..i], rest, sep);
    AroundOccurrence(s, sep, i);
  }

  lemma JoinPrepend(head: string, rest: seq<string>, sep: string)
    requires |rest| >= 1
    ensures Join([head] + rest, sep) == head + sep + Join(rest, sep)
  {
    assert ([head] + rest)[1..] == rest;
  }

  /** An occurrence splits the text into what comes before, the pattern and
      what comes after. */
  lemma AroundOccurrence(s: string, pat: string, i: nat)
    requires OccursAt(s, pat, i)
    ensures s == s[..i] + pat + s[i + |pat|..]
  {
    assert s[i..i + |pat|] == pat;
  }

  /** The text before the leftmost occurrence holds no separator and is cut leftmost. */
  lemma CutAtFind(s: string, sep: string, i: nat)
    requires |sep| > 0 && Find(s, sep) == Some(i)
    ensures !Contains(s[..i], sep) && LeftmostCut(s[..i], sep)
  {
    HeadClean(s, sep, i);
    HeadLeftmost(s, sep, i);
  }

  lemma HeadClean(s: string, sep: string, i: nat)
    requires |sep| > 0 && i <= |s|
    requires forall j: nat :: j < i ==> !OccursAt(s, sep, j)
    ensures !Contains(s[..i], sep)
  {
    var head := s[..i];
    forall j: nat
      ensures !OccursAt(head, sep, j)
    {
      if j + |sep| <= |head| {
        PrefixOccurs(s, head, sep, j);
      }
    }
  }

  lemma HeadLeftmost(s: string, sep: string, i: nat)
    requires OccursAt(s, sep, i)
    requires forall j: nat :: j < i ==> !OccursAt(s, sep, j)
    ensures LeftmostCut(s[..i], sep)
  {
    var t := s[..i] + sep;
    assert t == s[..i + |sep|];
    forall j: nat | j < i
      ensures !OccursAt(t, sep, j)
    {
      if j + |sep| <= |t| {
        PrefixOccurs(s, t, sep, j);
      }
    }
  }

  /** A prefix of `s` has an occurrence where `s` has one, within its length. */
  lemma PrefixOccurs(s: string, t: string, pat: string, j: nat)
    requires |t| <= |s| && t == s[..|t|] && j + |pat| <= |t|
    ensures OccursAt(t, pat, j) <==> OccursAt(s, pat, j)
  {
    assert t[j..j + |pat|] == s[j..j + |pat|];
  }

  /** Every part but the last is cut at the leftmost occurrence of `sep`. */
  predicate AllCutsLeftmost(parts: seq<string>, sep: string)
  {
    forall i :: 0 <= i < |parts| - 1 ==> LeftmostCut(parts[i], sep)
  }

  lemma CutsCons(head: string, rest: seq<string>, sep: string)
    requires LeftmostCut(head, sep) && AllCutsLeftmost(rest, sep)
    ensures AllCutsLeftmost([head] + rest, sep)
  {
    forall i | 0 < i < |[head] + rest|
      ensures ([head] + rest)[i] == rest[i - 1]
    {
    }
  }

  /** Every cut `Split` makes is at the leftmost occurrence of the separator. */
  lemma {:induction false} SplitCuts(s: string, sep: string)
    requires |sep| > 0
    ensures AllCutsLeftmost(Split(s, sep), sep)
    decreases |s|
  {
    match Find(s, sep)
    case None =>
    case Some(i) =>
      var tail := s[i + |sep|..];
      assert |tail| < |s|;
      SplitCuts(tail, sep);
      var rest := Split(tail, sep);
      assert Split(s, sep) == [s[..i]] + rest;
      assert LeftmostCut(s[..i], sep) by {
        CutAtFind(s, sep, i);
      }
      CutsCons(s[..i], rest, sep);
  }

  /** Splitting undoes joining when every cut is the leftmost one and the
      last part holds no separator. */
  lemma {:induction false} SplitJoin(parts: seq<string>, sep: string)
    requires |sep| > 0 && |parts| >= 1
    requires AllCutsLeftmost(parts, sep)
    requires !Contains(parts[|parts| - 1], sep)
    ensures Split(Join(parts, sep), sep) == parts
  {
    var s := Join(parts, sep);
    if |parts| > 1 {
      var p := parts[0];
      var tail := Join(parts[1..], sep);
      JoinCons(parts, sep);
      assert LeftmostCut(p, sep);
      var t := p + sep;
      assert s[..|p| + |sep|] == t;
      forall j: nat | j < |p|
        ensures !OccursAt(s, sep, j)
      {
        assert !OccursAt(t, sep, j);
        if j + |sep| <= |s| {
          assert t[j..j + |sep|] == s[j..j + |sep|];
        }
      }
      assert s[|p|..|p| + |sep|] == sep;
      FindAt(s, sep, |p|);
      assert s[|p| + |sep|..] == tail;
      SplitJoin(parts[1..], sep);
    }
  }

  /** A part without the separator's first character is cut leftmost and
      holds no separator. */
  lemma CutByHead(p: string, sep: string)
    requires |sep| > 0 && sep[0] !in p
    ensures LeftmostCut(p, sep) && !Contains(p, sep)
  {
    NotContainsByHead(p, sep);
    var t := p + sep;
    forall j: nat | j < |p|
      ensures !OccursAt(t, sep, j)
    {
      if j + |sep| <= |t| {
        assert t[j..j + |sep|][0] == t[j] == p[j];
      }
    }
  }

  /** Splitting undoes joining when no part holds the separator's first character. */
  lemma SplitJoinByHead(parts: seq<string>, sep: string)
    requires |sep| > 0 && |parts| >= 1
    requires forall i :: 0 <= i < |parts| ==> sep[0] !in parts[i]
    ensures Split(Join(parts, sep), sep) == parts
  {
    forall i | 0 <= i < |parts|
      ensures LeftmostCut(parts[i], sep) && !Contains(parts[i], sep)
    {
      CutByHead(parts[i], sep);
    }
    SplitJoin(parts, sep);
  }

  /* --------------------------------------------------------------- strip */

  /** `s.lstrip()`. */
  function TrimStart(s: string): (r: string)
    ensures |r| <= |s| && r == s[|s| - |r|..]
    ensures AllSpace(s[..|s| - |r|])
    ensures r == [] || !IsSpace(r[0])
  {
    if s != [] && IsSpace(s[0]) then
      var r := TrimStart(s[1..]);
      TrimStartStep(s, r);
      r
    else s
  }

  lemma TrimStartStep(s: string, r: string)
    requires s != [] && IsSpace(s[0])
    requires |r| <= |s| - 1 && r == s[1..][|s| - 1 - |r|..]
    requires AllSpace(s[1..][..|s| - 1 - |r|])
    ensures r == s[|s| - |r|..] && AllSpace(s[..|s| - |r|])
  {
    var k := |s| - |r|;
    assert s[..k] == [s[0]] + s[1..][..k - 1];
    AllSpaceCons(s[0], s[1..][..k - 1]);
  }

  lemma AllSpaceCons(c: char, s: string)
    requires IsSpace(c) && AllSpace(s)
    ensures AllSpace([c] + s)
  {
    assert forall i :: 0 < i < |[c] + s| ==> ([c] + s)[i] == s[i - 1];
  }

  lemma AllSpaceSnoc(s: string, c: char)
    requires AllSpace(s) && IsSpace(c)
    ensures AllSpace(s + [c])
  {
    assert forall i :: 0 <= i < |s| ==> (s + [c])[i] == s[i];
  }

  lemma AllSpacePrefix(s: string, n: nat)
    requires AllSpace(s) && n <= |s|
    ensures AllSpace(s[..n])
  {
    assert forall i :: 0 <= i < n ==> s[..n][i] == s[i];
  }

  /** `s.rstrip()`. */
  function TrimEnd(s: string): (r: string)
    ensures |r| <= |s| && r == s[..|r|]
    ensures AllSpace(s[|r|..])
    ensures r == [] || !IsSpace(r[|r| - 1])
  {
    if s != [] && IsSpace(s[|s| - 1]) then
      var r := TrimEnd(s[..|s| - 1]);
      assert s[|r|..] == s[..|s| - 1][|r|..] + [s[|s| - 1]];
      AllSpaceSnoc(s[..|s| - 1][|r|..], s[|s| - 1]);
      r
    else s
  }

  lemma TrimEndLast(s: string)
    requires s != [] && IsSpace(s[|s| - 1])
    ensures TrimEnd(s) == TrimEnd(s[..|s| - 1])
  {
  }

  /** `s.strip()`. */
  function Strip(s: string): (r: string)
    ensures r == [] || (!IsSpace(r[0]) && !IsSpace(r[|r| - 1]))
    ensures r == [] <==> AllSpace(s)
  {
    var t := TrimStart(s);
    var r := TrimEnd(t);
    assert r == [] ==> AllSpace(s) by {
      if r == [] {
        assert s == s[..|s| - |t|] + t;
      }
    }
    assert r != [] ==> !IsSpace(r[0]) by {
      if r != [] {
        assert r[0] == t[0];
      }
    }
    assert AllSpace(s) ==> r == [] by {
      if t != [] {
        assert t[0] == s[|s| - |t|];
      }
    }
    r
  }

  lemma {:induction false} TrimStartSpaces(a: string, t: string)
    requires AllSpace(a)
    ensures TrimStart(a + t) == TrimStart(t)
  {
    if a != [] {
      var s := a + t;
      assert s[0] == a[0] && IsSpace(a[0]);
      assert s[1..] == a[1..] + t;
      assert TrimStart(s) == TrimStart(s[1..]);
      assert AllSpace(a[1..]) by {
        forall i | 0 <= i < |a[1..]|
          ensures IsSpace(a[1..][i])
        {
          assert a[1..][i] == a[i + 1];
        }
      }
      TrimStartSpaces(a[1..], t);
    } else {
      assert a + t == t;
    }
  }

  lemma {:induction false} TrimEndSpaces(t: string, b: string)
    requires AllSpace(b)
    ensures TrimEnd(t + b) == TrimEnd(t)
  {
    if b != [] {
      var s := t + b;
      var b' := b[..|b| - 1];
      assert IsSpace(s[|s| - 1]) by {
        assert s[|s| - 1] == b[|b| - 1];
      }
      TrimEndLast(s);
      assert s[..|s| - 1] == t + b';
      AllSpacePrefix(b, |b| - 1);
      TrimEndSpaces(t, b');
    } else {
      assert t + b == t;
    }
  }

  /** `strip` removes exactly the surrounding whitespace: this determines it on every input. */
  lemma StripPadded(a: string, t: string, b: string)
    requires AllSpace(a) && AllSpace(b)
    requires t == [] || (!IsSpace(t[0]) && !IsSpace(t[|t| - 1]))
    ensures Strip(a + t + b) == t
  {
    assert a + t + b == a + (t + b);
    TrimStartSpaces(a, t + b);
    if t == [] {
      assert TrimStart(b) == [];
    } else {
      assert TrimStart(t + b) == t + b;
    }
    TrimEndSpaces(t, b);
  }

  /** Text with no whitespace at either end is its own stripped form. */
  lemma StripUnpadded(t: string)
    requires t == [] || (!IsSpace(t[0]) && !IsSpace(t[|t| - 1]))
    ensures Strip(t) == t
  {
    assert TrimStart(t) == t;
    assert TrimEnd(t) == t;
  }

  /* ------------------------------------------------- split on whitespace */

  /** Length of the leading run of non-whitespace characters. */
  function WordLength(s: string): (n: nat)
    ensures n <= |s| && NoSpace(s[..n])
    ensures n == |s| || IsSpace(s[n])
  {
    if s == [] || IsSpace(s[0]) then 0
    else
      var n := WordLength(s[1..]);
      assert s[..n + 1] == [s[0]] + s[1..][..n];
      n + 1
  }

  /** `s.split()`: the maximal runs of non-whitespace characters, in order. */
  function Words(s: string): (ws: seq<string>)
    ensures forall i :: 0 <= i < |ws| ==> ws[i] != [] && NoSpace(ws[i])
    decreases |s|
  {
    var t := TrimStart(s);
    if t == [] then []
    else
      var n := WordLength(t);
      assert n > 0;
      var w := t[..n];
      var rest := Words(t[n..]);
      WordsPrepend(w, rest);
      [w] + rest
  }

  lemma WordsPrepend(w: string, rest: seq<string>)
    requires w != [] && NoSpace(w)
    requires forall i :: 0 <= i < |rest| ==> rest[i] != [] && NoSpace(rest[i])
    ensures forall i :: 0 <= i < |[w] + rest| ==> ([w] + rest)[i] != [] && NoSpace(([w] + rest)[i])
  {
    forall i | 0 <= i < |[w] + rest|
      ensures ([w] + rest)[i] != [] && NoSpace(([w] + rest)[i])
    {
      if i > 0 {
        assert ([w] + rest)[i] == rest[i - 1];
      }
    }
  }

  lemma WordsAfterSpaces(a: string, t: string)
    requires AllSpace(a)
    ensures Words(a + t) == Words(t)
  {
    TrimStartSpaces(a, t);
  }

  lemma {:induction false} WordLengthOf(w: string, rest: string)
    requires NoSpace(w)
    requires rest == [] || IsSpace(rest[0])
    ensures WordLength(w + rest) == |w|
  {
    if w != [] {
      assert (w + rest)[0] == w[0];
      assert (w + rest)[1..] == w[1..] + rest;
      assert NoSpace(w[1..]) by {
        forall i | 0 <= i < |w[1..]|
          ensures !IsSpace(w[1..][i])
        {
          assert w[1..][i] == w[i + 1];
        }
      }
      WordLengthOf(w[1..], rest);
    }
  }

  lemma WordsCons(w: string, rest: string)
    requires w != [] && NoSpace(w)
    requires rest == [] || IsSpace(rest[0])
    ensures Words(w + rest) == [w] + Words(rest)
  {
    var s := w + rest;
    assert TrimStart(s) == s by {
      assert s[0] == w[0];
    }
    WordLengthOf(w, rest);
    assert s[..|w|] == w && s[|w|..] == rest;
  }

  lemma WordsOne(w: string)
    requires w != [] && NoSpace(w)
    ensures Words(w) == [w]
  {
    assert w + [] == w;
    WordsCons(w, []);
    assert Words([]) == [];
  }

  lemma WordsSpaceCons(w: string, tail: string)
    requires w != [] && NoSpace(w)
    ensures Words(w + " " + tail) == [w] + Words(tail)
  {
    Assoc(w, " ", tail);
    WordsBeforeSpace(w, " " + tail);
    WordsAfterSpace(tail);
  }

  lemma Assoc(a: string, b: string, c: string)
    ensures a + b + c == a + (b + c)
  {
  }

  lemma WordsBeforeSpace(w: string, rest: string)
    requires w != [] && NoSpace(w) && rest != [] && rest[0] == ' '
    ensures Words(w + rest) == [w] + Words(rest)
  {
    assert IsSpace(' ');
    WordsCons(w, rest);
  }

  lemma WordsAfterSpace(tail: string)
    ensures Words(" " + tail) == Words(tail)
  {
    assert AllSpace(" ");
    WordsAfterSpaces(" ", tail);
  }

  lemma WordsJoinOne(ws: seq<string>)
    requires |ws| == 1 && ws[0] != [] && NoSpace(ws[0])
    ensures Words(Join(ws, " ")) == ws
  {
    WordsOne(ws[0]);
  }

  lemma WordsJoinStep(ws: seq<string>)
    requires |ws| > 1 && ws[0] != [] && NoSpace(ws[0])
    requires Words(Join(ws[1..], " ")) == ws[1..]
    ensures Words(Join(ws, " ")) == ws
  {
    WordsSpaceCons(ws[0], Join(ws[1..], " "));
    JoinCons(ws, " ");
    assert ws == [ws[0]] + ws[1..];
  }

  /** Splitting on whitespace undoes joining with single spaces. */
  lemma {:induction false} WordsJoin(ws: seq<string>)
    requires forall i :: 0 <= i < |ws| ==> ws[i] != [] && NoSpace(ws[i])
    ensures Words(Join(ws, " ")) == ws
  {
    if |ws| == 1 {
      WordsJoinOne(ws);
    } else if |ws| > 1 {
      WordsJoin(ws[1..]);
      WordsJoinStep(ws);
    }
  }

  /* ------------------------------------------------------------- replace */

  /** `s.replace(src, dst)`: every leftmost, non-overlapping occurrence of
      `src`, scanning left to right, becomes `dst`.

      A string `y` (`src` itself included) that did not occur before does not
      occur afterwards, provided `dst` can neither hide nor start an
      occurrence of it: `y` does not hold the first character of `dst`, and
      `dst` does not hold the first character of `y`. */
  function ReplaceAll(s: string, src: string, dst: string): (r: string)
    requires |src| > 0
    ensures !Contains(s, src) ==> r == s
    ensures forall y :: Shielded(dst, y) && (y == src || !Contains(s, y)) ==> !Contains(r, y)
    decreases |s|
  {
    match Find(s, src)
    case None => s
    case Some(i) =>
      var rest := ReplaceAll(s[i + |src|..], src, dst);
      ReplaceStep(s, src, dst, i, rest);
      s[..i] + dst + rest
  }

  /** `s.replace(src, dst) == dst.join(s.split(src))`: the occurrences that
      are replaced are exactly the cuts of `Split`, and each becomes `dst`. */
  lemma {:induction false} ReplaceIsJoinSplit(s: string, src: string, dst: string)
    requires |src| > 0
    ensures ReplaceAll(s, src, dst) == Join(Split(s, src), dst)
    decreases |s|
  {
    match Find(s, src)
    case None =>
    case Some(i) =>
      var t := s[i + |src|..];
      ReplaceIsJoinSplit(t, src, dst);
      var parts := Split(s, src);
      assert parts == [s[..i]] + Split(t, src);
      JoinCons(parts, dst);
      assert parts[1..] == Split(t, src);
  }

  /** One replacement, in front of the replaced rest, brings back no
      shielded string. */
  lemma ReplaceStep(s: string, src: string, dst: string, i: nat, rest: string)
    requires |src| > 0 && i + |src| <= |s|
    requires forall j: nat :: j < i ==> !OccursAt(s, src, j)
    requires forall y :: Shielded(dst, y) && (y == src || !Contains(s[i + |src|..], y))
                         ==> !Contains(rest, y)
    ensures forall y :: Shielded(dst, y) && (y == src || !Contains(s, y))
                        ==> !Contains(s[..i] + dst + rest, y)
  {
    forall y | Shielded(dst, y) && (y == src || !Contains(s, y))
      ensures !Contains(s[..i] + dst + rest, y)
    {
      PrefixAvoids(s, y, i);
      if y != src {
        SuffixAvoids(s, y, i + |src|);
      }
      ConcatAvoids(s[..i], dst, rest, y);
    }
  }

  /** A leading occurrence of `src` is replaced, and a rest free of `src`
      is kept as it is. */
  lemma ReplaceLeadingOccurrence(src: string, dst: string, rest: string)
    requires |src| > 0 && !Contains(rest, src)
    ensures ReplaceAll(src + rest, src, dst) == dst + rest
  {
    var s := src + rest;
    assert s[0..|src|] == src;
    assert OccursAt(s, src, 0);
    assert Find(s, src) == Some(0);
    assert s[|src|..] == rest;
    assert s[..0] + dst + rest == dst + rest;
  }

  /** `dst` can neither hide nor start an occurrence of `y`. */
  predicate Shielded(dst: string, y: string)
  {
    |dst| > 0 && |y| > 0 && dst[0] !in y && y[0] !in dst
  }

  /** A string free of `y` has no `y` in any suffix. */
  lemma SuffixAvoids(s: string, y: string, k: nat)
    requires k <= |s| && !Contains(s, y)
    ensures !Contains(s[k..], y)
  {
    forall q: nat
      ensures !OccursAt(s[k..], y, q)
    {
      if q + |y| <= |s| - k {
        assert s[k..][q..q + |y|] == s[k + q..k + q + |y|];
        assert !OccursAt(s, y, k + q);
      }
    }
  }

  /** No occurrence of `y` lies wholly before position `i` of `s`. */
  lemma PrefixAvoids(s: string, y: string, i: nat)
    requires i <= |s| && |y| > 0
    requires forall j: nat :: j < i ==> !OccursAt(s, y, j)
    ensures !Contains(s[..i], y)
  {
    forall p: nat
      ensures !OccursAt(s[..i], y, p)
    {
      if p + |y| <= i {
        assert s[..i][p..p + |y|] == s[p..p + |y|];
        assert !OccursAt(s, y, p);
      }
    }
  }

  /** Gluing a shielding `dst` between two strings free of `y` creates no `y`. */
  lemma ConcatAvoids(u: string, dst: string, rest: string, y: string)
    requires Shielded(dst, y)
    requires !Contains(u, y) && !Contains(rest, y)
    ensures !Contains(u + dst + rest, y)
  {
    var r := u + dst + rest;
    forall p: nat
      ensures !OccursAt(r, y, p)
    {
      if p + |y| <= |r| {
        var w := r[p..p + |y|];
        if p + |y| <= |u| {
          assert w == u[p..p + |y|];
          assert !OccursAt(u, y, p);
        } else if p < |u| {
          assert w[|u| - p] == dst[0];
          assert y[|u| - p] in y;
        } else if p < |u| + |dst| {
          assert w[0] == dst[p - |u|];
        } else {
          var q: nat := p - |u| - |dst|;
          assert w == rest[q..q + |y|];
          assert !OccursAt(rest, y, q);
        }
      }
    }
  }
}

=== FILE: transport.dfy ===
/** The HTTP exchange with the Mahabhunakasha service, with the network as
    an oracle.

    The scraper keeps one `requests.Session`, whose cookies make every answer
    depend on what was sent before. The network is therefore a function of
    the whole request history and the new request; every operation takes the
    history so far and returns it extended by the requests it sent. */
module Transport {
  import opened Wrappers
  import opened Dict
  import opened Json

  /** A form-encoded POST; `followRedirects` is the `allow_redirects` flag. */
  datatype Request = Request(url: string, form: Dict<Value>, followRedirects: bool)

  /** A response: its status code and what `response.json()` gives. */
  datatype Response = Response(status: int, body: Result<Value>)

  datatype Outcome = Answered(resp: Response) | Failed(error: Exception)

  type Net = (seq<Request>, Request) -> Outcome

  /** `raise_for_status`: only 4xx and 5xx raise. */
  function RaiseForStatus(resp: Response): (r: Result<Response>)
    ensures r.Err? <==> 400 <= resp.status < 600
    ensures r.Ok? ==> r.value == resp
    ensures r.Err? ==> r.error == HttpError(resp.status)
  {
    if 400 <= resp.status < 600 then Err(HttpError(resp.status)) else Ok(resp)
  }

  /** What a request ended in once `raise_for_status` has run on its answer. */
  function Checked(o: Outcome): (r: Result<Response>)
    ensures r.Ok? <==> o.Answered? && !(400 <= o.resp.status < 600)
    ensures r.Ok? ==> r.value == o.resp
  {
    match o
    case Failed(e) => Err(e)
    case Answered(resp) => RaiseForStatus(resp)
  }

  /** The outcome the network gave the last request of a non-empty history. */
  function LastOutcome(net: Net, log: seq<Request>): Outcome
    requires |log| > 0
  {
    net(log[..|log| - 1], log[|log| - 1])
  }

  /** Send one request: the network answers it given the history, and the
      request joins the history. */
  function Send(net: Net, log: seq<Request>, req: Request): (out: (Outcome, seq<Request>))
    ensures out.1 == log + [req]
    ensures out.0 == LastOutcome(net, out.1)
  {
    var log' := log + [req];
    assert log'[..|log'| - 1] == log;
    (net(log, req), log')
  }

  /** The 302 answer by which the service sets its session cookie. */
  predicate IsChallenge(o: Outcome)
  {
    o.Answered? && o.resp.status == 302
  }

  /** `_post`: a POST without redirects; on a 302 cookie challenge, the same
      POST once more with redirects followed; then the status check. */
  function Post(net: Net, log: seq<Request>, url: string, form: Dict<Value>)
    : (out: (Result<Response>, seq<Request>))
    ensures var first := Request(url, form, false);
            out.1 == log + [first] || out.1 == log + [first, Request(url, form, true)]
    ensures |out.1| == |log| + 2 <==> IsChallenge(net(log, Request(url, form, false)))
    ensures out.0 == Checked(LastOutcome(net, out.1))
  {
    var (o1, log1) := Send(net, log, Request(url, form, false));
    if IsChallenge(o1) then
      var (o2, log2) := Send(net, log1, Request(url, form, true));
      (Checked(o2), log2)
    else
      (Checked(o1), log1)
  }

  /** A redirect other than 302 is not followed and does not raise: the
      caller gets the 3xx response itself after a single request. */
  lemma OtherRedirectPassesThrough(net: Net, log: seq<Request>, url: string, form: Dict<Value>, status: int)
    requires 300 <= status < 400 && status != 302
    requires net(log, Request(url, form, false)).Answered?
    requires net(log, Request(url, form, false)).resp.status == status
    ensures Post(net, log, url, form).0 == Ok(net(log, Request(url, form, false)).resp)
    ensures |Post(net, log, url, form).1| == |log| + 1
  {
  }

  /** After a 302 the answer to the replay decides the result, whatever it is,
      even another 302. */
  lemma ChallengeReplayedOnce(net: Net, log: seq<Request>, url: string, form: Dict<Value>)
    requires net(log, Request(url, form, false)).Answered?
    requires net(log, Request(url, form, false)).resp.status == 302
    ensures Post(net, log, url, form).1 == log + [Request(url, form, false), Request(url, form, true)]
    ensures Post(net, log, url, form).0
         == Checked(net(log + [Request(url, form, false)], Request(url, form, true)))
  {
    assert (log + [Request(url, form, false)]) + [Request(url, form, true)]
        == log + [Request(url, form, false), Request(url, form, true)];
  }
}

=== FILE: wkt.dfy ===
/** `parse_wkt_rings`: the coordinate rings of a WKT `POLYGON` or
    `MULTIPOLYGON`, read with a regular expression rather than a WKT parser.

    The expression `\(([\d\.\s,]+)\)` finds, left to right, every
    parenthesised run of digits, dots, whitespace and commas; each run is cut
    at commas into points and each point at whitespace into coordinates.
    Coordinates are exact reals here: the IEEE rounding of `float` is not
    modelled. */
module Wkt {
  import opened Wrappers
  import opened Text
  import opened Numbers

  type Point = (real, real)

  /** A character of the class `[\d\.\s,]`. */
  predicate GroupChar(c: char)
  {
    IsDigit(c) || c == '.' || IsSpace(c) || c == ','
  }

  predicate AllGroupChars(s: string)
  {
    forall i :: 0 <= i < |s| ==> GroupChar(s[i])
  }

  /** Length of the leading run of class characters (the greedy `+`). */
  function Run(s: string): (n: nat)
    ensures n <= |s| && AllGroupChars(s[..n])
    ensures n < |s| ==> !GroupChar(s[n])
  {
    if s == [] || !GroupChar(s[0]) then 0
    else
      var n := Run(s[1..]);
      assert s[..n + 1] == [s[0]] + s[1..][..n];
      n + 1
  }

  /** `re.findall`: at a `(` followed by a non-empty run and a `)` the group
      is taken and the scan resumes after the `)`; anywhere else the scan
      moves on by one character. Backtracking cannot help: a shorter run is
      followed by a class character, never by `)`. */
  function FindGroups(s: string): (groups: seq<string>)
    ensures forall i :: 0 <= i < |groups| ==> groups[i] != [] && AllGroupChars(groups[i])
    decreases |s|
  {
    if s == [] then []
    else if s[0] == '(' && 0 < Run(s[1..]) < |s| - 1 && s[1 + Run(s[1..])] == ')' then
      var n := Run(s[1..]);
      assert s[1..1 + n] == s[1..][..n];
      [s[1..1 + n]] + FindGroups(s[2 + n..])
    else FindGroups(s[1..])
  }

  lemma {:induction false} RunOf(g: string, t: string)
    requires AllGroupChars(g)
    requires t == [] || !GroupChar(t[0])
    ensures Run(g + t) == |g|
  {
    if g != [] {
      assert (g + t)[1..] == g[1..] + t;
      RunOf(g[1..], t);
    }
  }

  /** Text without `(` contributes no group. */
  lemma {:induction false} GroupsSkip(a: string, rest: string)
    requires '(' !in a
    ensures FindGroups(a + rest) == FindGroups(rest)
  {
    if a != [] {
      assert (a + rest)[0] == a[0];
      assert (a + rest)[1..] == a[1..] + rest;
      GroupsSkip(a[1..], rest);
    } else {
      assert a + rest == rest;
    }
  }

  /** A parenthesised run of class characters is a group. */
  lemma GroupsCons(g: string, rest: string)
    requires g != [] && AllGroupChars(g)
    ensures FindGroups("(" + g + ")" + rest) == [g] + FindGroups(rest)
  {
    var s := "(" + g + ")" + rest;
    assert s[1..] == g + (")" + rest);
    RunOf(g, ")" + rest);
    assert s[1..1 + |g|] == g;
    assert s[2 + |g|..] == rest;
  }

  /** A `(` whose run stops at anything but `)` (a minus sign, a letter, a
      nested parenthesis) yields no group there: the scan resumes inside. */
  lemma GroupsBroken(a: string, c: char, rest: string)
    requires AllGroupChars(a) && !GroupChar(c) && c != ')'
    ensures FindGroups("(" + a + [c] + rest) == FindGroups(a + [c] + rest)
  {
    var s := "(" + a + [c] + rest;
    assert s[1..] == a + ([c] + rest);
    RunOf(a, [c] + rest);
    assert s[1 + |a|] == c;
    assert s[1..] == a + [c] + rest;
  }

  /* ---------------------------------------------------------- coordinates */

  function DotCount(s: string): (n: nat)
    ensures n <= |s|
  {
    if s == [] then 0 else (if s[0] == '.' then 1 else 0) + DotCount(s[1..])
  }

  /** The strings of digits and dots `float` accepts: at least one digit and
      at most one dot. */
  ghost predicate FloatToken(tok: string)
  {
    (forall i :: 0 <= i < |tok| ==> IsDigit(tok[i]) || tok[i] == '.')
    && DotCount(tok) <= 1
    && exists i :: 0 <= i < |tok| && IsDigit(tok[i])
  }

  /** Python `float(tok)` on a token of digits and dots, `None` for the
      tokens it rejects. */
  function ParseFloat(tok: string): (r: Option<real>)
    ensures (forall i :: 0 <= i < |tok| ==> IsDigit(tok[i]) || tok[i] == '.')
            ==> (r.Some? <==> FloatToken(tok))
  {
    match Find(tok, ".")
    case None =>
      DotsOf(tok);
      if tok != "" && AllDigits(tok) then Some(DigitsValue(tok) as real) else None
    case Some(i) =>
      var whole, frac := tok[..i], tok[i + 1..];
      DotsAround(tok, i);
      if AllDigits(whole) && AllDigits(frac) && (whole != "" || frac != "")
      then Some(DecimalValue(whole, frac))
      else None
  }

  /** Without a `.`, a token of digits and dots is all digits. */
  lemma DotsOf(tok: string)
    ensures !Contains(tok, ".") ==> DotCount(tok) == 0
    ensures !Contains(tok, ".") && (forall i :: 0 <= i < |tok| ==> IsDigit(tok[i]) || tok[i] == '.')
            ==> AllDigits(tok)
  {
    if !Contains(tok, ".") {
      forall i | 0 <= i < |tok|
        ensures tok[i] != '.'
      {
        assert !OccursAt(tok, ".", i);
        assert tok[i..i + 1] == [tok[i]];
      }
      NoDots(tok);
    }
  }

  lemma {:induction false} NoDots(tok: string)
    requires forall i :: 0 <= i < |tok| ==> tok[i] != '.'
    ensures DotCount(tok) == 0
  {
    if tok != [] {
      NoDots(tok[1..]);
    }
  }

  lemma {:induction false} DotCountAppend(a: string, b: string)
    ensures DotCount(a + b) == DotCount(a) + DotCount(b)
  {
    if a != [] {
      assert (a + b)[1..] == a[1..] + b;
      DotCountAppend(a[1..], b);
    } else {
      assert a + b == b;
    }
  }

  lemma {:induction false} ZeroDots(s: string)
    requires DotCount(s) == 0
    ensures forall k :: 0 <= k < |s| ==> s[k] != '.'
  {
    if s != [] {
      ZeroDots(s[1..]);
      assert forall k :: 1 <= k < |s| ==> s[k] == s[1..][k - 1];
    }
  }

  /** Before the first `.` there is none. */
  lemma DotsBefore(tok: string, i: nat)
    requires i <= |tok|
    requires forall j: nat :: j < i ==> !OccursAt(tok, ".", j)
    ensures forall j :: 0 <= j < i ==> tok[j] != '.'
  {
    forall j | 0 <= j < i
      ensures tok[j] != '.'
    {
      assert !OccursAt(tok, ".", j);
      if j + 1 <= |tok| {
        assert tok[j..j + 1] == [tok[j]];
      }
    }
  }

  lemma DotCountSplit(tok: string, i: nat)
    requires i < |tok| && tok[i] == '.'
    requires forall j :: 0 <= j < i ==> tok[j] != '.'
    ensures DotCount(tok) == 1 + DotCount(tok[i + 1..])
  {
    var whole, tail := tok[..i], tok[i..];
    assert DotCount(whole) == 0 by {
      assert forall j :: 0 <= j < |whole| ==> whole[j] == tok[j];
      NoDots(whole);
    }
    assert DotCount(tok) == DotCount(whole) + DotCount(tail) by {
      assert tok == whole + tail;
      DotCountAppend(whole, tail);
    }
    assert tail[0] == '.' && tail[1..] == tok[i + 1..];
  }

  /** Around the first `.`, the token has one dot plus those of the fraction;
      with only digits and dots elsewhere, digits before it. */
  lemma DotsAround(tok: string, i: nat)
    requires OccursAt(tok, ".", i)
    requires forall j: nat :: j < i ==> !OccursAt(tok, ".", j)
    ensures DotCount(tok) == 1 + DotCount(tok[i + 1..])
    ensures (forall k :: 0 <= k < |tok| ==> IsDigit(tok[k]) || tok[k] == '.') ==> AllDigits(tok[..i])
    ensures AllDigits(tok[i + 1..]) ==> DotCount(tok[i + 1..]) == 0
    ensures DotCount(tok[i + 1..]) == 0 ==> forall k :: i + 1 <= k < |tok| ==> tok[k] != '.'
  {
    assert tok[i..i + 1][0] == tok[i];
    DotsBefore(tok, i);
    DotCountSplit(tok, i);
    var frac := tok[i + 1..];
    if AllDigits(frac) {
      NoDots(frac);
    }
    if DotCount(frac) == 0 {
      ZeroDots(frac);
    }
  }

  /** Printing a whole number and reading it back gives its value. */
  lemma ParseFloatDigits(n: nat)
    ensures ParseFloat(NatToDigits(n)) == Some(n as real)
  {
    var s := NatToDigits(n);
    NotContainsByHead(s, ".");
  }

  /** A token `w.f` of digits with one point reads as `w` plus `f` tenths,
      hundredths, ...; either side may be empty, not both. */
  lemma ParseFloatDecimal(w: string, f: string)
    requires AllDigits(w) && AllDigits(f) && (w != "" || f != "")
    ensures ParseFloat(w + "." + f) == Some(DecimalValue(w, f))
  {
    var tok := w + "." + f;
    assert tok[|w|..|w| + 1] == ".";
    forall j: nat | j < |w|
      ensures !OccursAt(tok, ".", j)
    {
      assert tok[j..j + 1][0] == tok[j] == w[j];
    }
    FindAt(tok, ".", |w|);
    assert tok[..|w|] == w && tok[|w| + 1..] == f;
  }

  /** `2.5`, `.5` and `1.` read as Python reads them. */
  lemma DecimalTokens()
    ensures ParseFloat("2.5") == Some(2.5)
    ensures ParseFloat(".5") == Some(0.5)
    ensures ParseFloat("1.") == Some(1.0)
  {
    TwoAndAHalf();
    OneHalf();
    OnePoint();
  }

  lemma TwoAndAHalf()
    ensures ParseFloat("2.5") == Some(2.5)
  {
    assert "2.5" == "2" + "." + "5";
    ParseFloatDecimal("2", "5");
    assert DecimalValue("2", "5") == 2.0 + 5.0 / 10.0 by {
      assert DigitsValue("2") == 2 && DigitsValue("5") == 5 && Pow10(1) == 10;
    }
  }

  lemma OneHalf()
    ensures ParseFloat(".5") == Some(0.5)
  {
    assert ".5" == "" + "." + "5";
    ParseFloatDecimal("", "5");
    assert DecimalValue("", "5") == 0.0 + 5.0 / 10.0 by {
      assert DigitsValue("5") == 5 && Pow10(1) == 10;
    }
  }

  lemma OnePoint()
    ensures ParseFloat("1.") == Some(1.0)
  {
    assert "1." == "1" + "." + "";
    ParseFloatDecimal("1", "");
    assert DecimalValue("1", "") == 1.0 + 0.0 / 1.0 by {
      assert DigitsValue("1") == 1 && Pow10(0) == 1;
    }
  }

  /** A coordinate with `places` decimal places: the value `units / 10^places`. */
  datatype Decimal = Decimal(units: nat, places: nat)

  function Exact(x: Decimal): real
  {
    x.units as real / Pow10(x.places) as real
  }

  /** A coordinate as a writer prints it with a fixed number of places: the
      whole part, then a point and exactly `places` digits when there are any. */
  function DecimalText(x: Decimal): (s: string)
    ensures |s| >= 1 && IsDigit(s[0]) && IsDigit(s[|s| - 1])
    ensures forall i :: 0 <= i < |s| ==> IsDigit(s[i]) || s[i] == '.'
  {
    if x.places == 0 then NatToDigits(x.units)
    else
      var w, f := WholeDigits(x.units, x.places), FracDigits(x.units, x.places);
      PointChars(w, f);
      w + "." + f
  }

  lemma PointChars(w: string, f: string)
    requires |w| >= 1 && AllDigits(w) && |f| >= 1 && AllDigits(f)
    ensures var s := w + "." + f;
      IsDigit(s[0]) && IsDigit(s[|s| - 1])
      && forall i :: 0 <= i < |s| ==> IsDigit(s[i]) || s[i] == '.'
  {
    var s := w + "." + f;
    forall i | 0 <= i < |s|
      ensures IsDigit(s[i]) || s[i] == '.'
    {
      if i < |w| {
        assert s[i] == w[i];
      } else if i > |w| {
        assert s[i] == f[i - |w| - 1];
      }
    }
  }

  /** Printing a coordinate with its places and reading it back gives its value. */
  lemma ParseDecimalText(x: Decimal)
    ensures ParseFloat(DecimalText(x)) == Some(Exact(x))
  {
    if x.places == 0 {
      ParseFloatDigits(x.units);
      assert Exact(x) == x.units as real / 1.0;
    } else {
      var w, f := WholeDigits(x.units, x.places), FracDigits(x.units, x.places);
      assert DecimalText(x) == w + "." + f;
      ParseFloatDecimal(w, f);
      PlacesValue(x.units, x.places);
    }
  }

  /* ---------------------------------------------------------------- rings */

  /** The point of the first two tokens, when both parse; later tokens
      (a Z value) are ignored. */
  function ParseCoords(ws: seq<string>): (p: Option<Point>)
    ensures |ws| < 2 ==> p.None?
    ensures |ws| >= 2 ==> (p.Some? <==> ParseFloat(ws[0]).Some? && ParseFloat(ws[1]).Some?)
  {
    if |ws| >= 2 then
      match (ParseFloat(ws[0]), ParseFloat(ws[1]))
      case (Some(x), Some(y)) => Some((x, y))
      case _ => None
    else None
  }

  /** One comma-separated item, cut at whitespace. */
  function ParsePair(item: string): (p: Option<Point>)
    ensures |Words(item)| < 2 ==> p.None?
  {
    ParseCoords(Words(item))
  }

  /** The points of the items that parse, in order. */
  function ParsePairs(items: seq<string>): (pts: seq<Point>)
    ensures |pts| <= |items|
  {
    FilterMap(ParsePair, items)
  }

  /** The results of `f` that are present, in order. */
  function FilterMap<A, B>(f: A -> Option<B>, xs: seq<A>): (ys: seq<B>)
    ensures |ys| <= |xs|
  {
    if xs == [] then []
    else
      var rest := FilterMap(f, xs[1..]);
      match f(xs[0])
      case Some(y) => [y] + rest
      case None => rest
  }

  /** When `f` gives a result on every element, all of them are kept. */
  lemma {:induction false} FilterMapAll<A, B>(f: A -> Option<B>, xs: seq<A>, ys: seq<B>)
    requires |xs| == |ys|
    requires forall i :: 0 <= i < |xs| ==> f(xs[i]) == Some(ys[i])
    ensures FilterMap(f, xs) == ys
  {
    if xs != [] {
      FilterMapAll(f, xs[1..], ys[1..]);
      assert ys == [ys[0]] + ys[1..];
    }
  }

  /** One group: stripped, cut at commas, each item parsed. */
  function ParseRing(group: string): seq<Point>
  {
    ParsePairs(Split(Strip(group), ","))
  }

  /** The non-empty rings, in order. */
  function NonEmpty(rs: seq<seq<Point>>): (rings: seq<seq<Point>>)
    ensures |rings| <= |rs|
    ensures forall i :: 0 <= i < |rings| ==> rings[i] != []
    ensures forall r :: r in rs && r != [] ==> r in rings
  {
    if rs == [] then []
    else
      var rest := NonEmpty(rs[1..]);
      if rs[0] != [] then [rs[0]] + rest else rest
  }

  /** `parse_wkt_rings`: each group's ring, dropping the empty ones. */
  function ParseWktRings(wkt: string): (rings: seq<seq<Point>>)
    ensures |rings| <= |FindGroups(wkt)|
    ensures forall i :: 0 <= i < |rings| ==> rings[i] != []
  {
    NonEmpty(Map(ParseRing, FindGroups(wkt)))
  }

  /** Rings come out in the order of their groups: a leading group adds its
      ring in front when it has a valid pair and nothing otherwise. */
  lemma RingsCons(g: string, rest: string)
    requires g != [] && AllGroupChars(g)
    ensures ParseWktRings("(" + g + ")" + rest)
         == (if ParseRing(g) == [] then [] else [ParseRing(g)]) + ParseWktRings(rest)
  {
    GroupsCons(g, rest);
    var gs := FindGroups(rest);
    MapCons(ParseRing, [g] + gs);
    assert ([g] + gs)[1..] == gs;
    NonEmptyCons(ParseRing(g), Map(ParseRing, gs));
  }

  /** `f` applied to each element, in order. */
  function Map<A, B>(f: A -> B, xs: seq<A>): (ys: seq<B>)
    ensures |ys| == |xs|
    ensures forall i :: 0 <= i < |xs| ==> ys[i] == f(xs[i])
  {
    seq(|xs|, i requires 0 <= i < |xs| => f(xs[i]))
  }

  lemma MapCons<A, B>(f: A -> B, xs: seq<A>)
    requires xs != []
    ensures Map(f, xs) == [f(xs[0])] + Map(f, xs[1..])
  {
    var r, t := Map(f, xs), Map(f, xs[1..]);
    assert r == [r[0]] + t;
  }

  lemma NonEmptyCons(r: seq<Point>, rs: seq<seq<Point>>)
    ensures NonEmpty([r] + rs) == (if r == [] then [] else [r]) + NonEmpty(rs)
  {
    assert ([r] + rs)[1..] == rs;
  }

  /** Text without `(` (a `POLYGON` keyword, a `-` coordinate) adds no ring. */
  lemma RingsSkip(a: string, rest: string)
    requires '(' !in a
    ensures ParseWktRings(a + rest) == ParseWktRings(rest)
  {
    GroupsSkip(a, rest);
  }

  /* ----------------------------------------------------------- round trip */

  /** A point written as WKT writes it: `x y`. */
  function FormatPoint(p: (Decimal, Decimal)): string
  {
    DecimalText(p.0) + " " + DecimalText(p.1)
  }

  function FormatItems(pts: seq<(Decimal, Decimal)>): (items: seq<string>)
    ensures |items| == |pts|
    ensures forall i :: 0 <= i < |pts| ==> items[i] == FormatPoint(pts[i])
  {
    seq(|pts|, i requires 0 <= i < |pts| => FormatPoint(pts[i]))
  }

  /** A ring written as WKT writes it: points joined by commas. */
  function FormatRing(pts: seq<(Decimal, Decimal)>): string
  {
    Join(FormatItems(pts), ",")
  }

  function AsReals(pts: seq<(Decimal, Decimal)>): (r: seq<Point>)
    ensures |r| == |pts|
    ensures forall i :: 0 <= i < |pts| ==> r[i] == (Exact(pts[i].0), Exact(pts[i].1))
  {
    seq(|pts|, i requires 0 <= i < |pts| => (Exact(pts[i].0), Exact(pts[i].1)))
  }

  lemma DecimalChars(x: Decimal)
    ensures var s := DecimalText(x);
      s != [] && NoSpace(s) && AllGroupChars(s) && ',' !in s
      && !IsSpace(s[0]) && !IsSpace(s[|s| - 1])
  {
  }

  lemma ParsePairFormatted(p: (Decimal, Decimal))
    ensures ParsePair(FormatPoint(p)) == Some((Exact(p.0), Exact(p.1)))
  {
    var d0, d1 := DecimalText(p.0), DecimalText(p.1);
    DecimalChars(p.0);
    DecimalChars(p.1);
    JoinCons([d0, d1], " ");
    assert [d0, d1][1..] == [d1];
    WordsJoin([d0, d1]);
    ParseDecimalText(p.0);
    ParseDecimalText(p.1);
  }

  lemma ParsePairsFormatted(pts: seq<(Decimal, Decimal)>)
    ensures ParsePairs(FormatItems(pts)) == AsReals(pts)
  {
    var items, reals := FormatItems(pts), AsReals(pts);
    forall i | 0 <= i < |items|
      ensures ParsePair(items[i]) == Some(reals[i])
    {
      ParsePairFormatted(pts[i]);
    }
    FilterMapAll(ParsePair, items, reals);
  }

  lemma FormattedPointChars(p: (Decimal, Decimal))
    ensures AllGroupChars(FormatPoint(p)) && ',' !in FormatPoint(p)
    ensures !IsSpace(FormatPoint(p)[0]) && !IsSpace(FormatPoint(p)[|FormatPoint(p)| - 1])
  {
    DecimalChars(p.0);
    DecimalChars(p.1);
  }

  lemma GroupCharsConcat(a: string, b: string)
    requires AllGroupChars(a) && AllGroupChars(b)
    ensures AllGroupChars(a + b)
  {
    forall k | 0 <= k < |a + b|
      ensures GroupChar((a + b)[k])
    {
      if k < |a| {
        assert (a + b)[k] == a[k];
      } else {
        assert (a + b)[k] == b[k - |a|];
      }
    }
  }

  /** Joining with commas strings of class characters gives class characters,
      starting with the first string's first character and ending with the
      last string's last. */
  lemma {:induction false} JoinCommaChars(items: seq<string>)
    requires |items| >= 1
    requires forall i :: 0 <= i < |items| ==> items[i] != [] && AllGroupChars(items[i])
    ensures |Join(items, ",")| >= 1 && AllGroupChars(Join(items, ","))
    ensures Join(items, ",")[0] == items[0][0]
    ensures Join(items, ",")[|Join(items, ",")| - 1] == items[|items| - 1][|items[|items| - 1]| - 1]
  {
    if |items| > 1 {
      JoinCommaChars(items[1..]);
      JoinCons(items, ",");
      var t := Join(items[1..], ",");
      assert AllGroupChars(",");
      GroupCharsConcat(items[0], ",");
      GroupCharsConcat(items[0] + ",", t);
      var j := items[0] + "," + t;
      assert j[0] == items[0][0];
      assert j[|j| - 1] == t[|t| - 1];
    }
  }

  lemma FormatRingChars(pts: seq<(Decimal, Decimal)>)
    requires pts != []
    ensures var g := FormatRing(pts);
      g != [] && AllGroupChars(g) && !IsSpace(g[0]) && !IsSpace(g[|g| - 1])
  {
    var items := FormatItems(pts);
    forall i | 0 <= i < |items|
      ensures items[i] != [] && AllGroupChars(items[i])
    {
      FormattedPointChars(pts[i]);
    }
    JoinCommaChars(items);
    FormattedPointChars(pts[0]);
    FormattedPointChars(pts[|pts| - 1]);
  }

  lemma ParseRingFormatted(pts: seq<(Decimal, Decimal)>)
    requires pts != []
    ensures ParseRing(FormatRing(pts)) == AsReals(pts)
  {
    var g, items := FormatRing(pts), FormatItems(pts);
    RingStripped(pts);
    RingSplit(pts);
    ParsePairsFormatted(pts);
    RingOf(g, items, AsReals(pts));
  }

  lemma RingOf(g: string, items: seq<string>, pts: seq<Point>)
    requires Strip(g) == g && Split(g, ",") == items && ParsePairs(items) == pts
    ensures ParseRing(g) == pts
  {
  }

  lemma RingStripped(pts: seq<(Decimal, Decimal)>)
    requires pts != []
    ensures Strip(FormatRing(pts)) == FormatRing(pts)
  {
    FormatRingChars(pts);
    StripUnpadded(FormatRing(pts));
  }

  lemma RingSplit(pts: seq<(Decimal, Decimal)>)
    requires pts != []
    ensures Split(FormatRing(pts), ",") == FormatItems(pts)
  {
    var items := FormatItems(pts);
    forall i | 0 <= i < |items|
      ensures ","[0] !in items[i]
    {
      FormattedPointChars(pts[i]);
    }
    SplitJoinByHead(items, ",");
  }

  /** A polygon whose ring is written from decimal points parses back to
      exactly the values of that ring. */
  lemma WktRoundTrip(pts: seq<(Decimal, Decimal)>)
    requires pts != []
    ensures ParseWktRings("POLYGON((" + FormatRing(pts) + "))") == [AsReals(pts)]
  {
    var g := FormatRing(pts);
    PolygonGroups(pts, g);
    ParseRingFormatted(pts);
    OneGroup("POLYGON((" + g + "))", g, AsReals(pts));
  }

  /** Text with a single group that parses to a non-empty ring yields just
      that ring. */
  lemma OneGroup(wkt: string, g: string, ring: seq<Point>)
    requires FindGroups(wkt) == [g] && ParseRing(g) == ring && ring != []
    ensures ParseWktRings(wkt) == [ring]
  {
    assert Map(ParseRing, [g]) == [ring];
    NonEmptyCons(ring, []);
  }

  /** The only group of a one-ring polygon is its ring's text. */
  lemma PolygonGroups(pts: seq<(Decimal, Decimal)>, g: string)
    requires pts != [] && g == FormatRing(pts)
    ensures FindGroups("POLYGON((" + g + "))") == [g]
  {
    FormatRingChars(pts);
    assert g != [] && AllGroupChars(g);
    var tag := "POLYGON";
    PolygonTag();
    assert tag + "((" == "POLYGON((";
    TaggedGroup(tag, g);
  }

  /** The polygon tag holds no `(`. */
  lemma PolygonTag()
    ensures '(' !in "POLYGON"
  {
  }

  /** After a tag without `(`, a doubly parenthesised run is the only group. */
  lemma TaggedGroup(tag: string, g: string)
    requires '(' !in tag && g != [] && AllGroupChars(g)
    ensures FindGroups(tag + "((" + g + "))") == [g]
  {
    var inner := "(" + g + ")" + ")";
    assert tag + "((" + g + "))" == tag + ("(" + inner);
    GroupsSkip(tag, "(" + inner);
    GroupsOpenParen(inner);
    GroupsCons(g, ")");
    assert FindGroups(")") == [];
  }

  /** A `(` directly before another `(` opens no group. */
  lemma GroupsOpenParen(t: string)
    requires t != [] && t[0] == '('
    ensures FindGroups("(" + t) == FindGroups(t)
  {
    var s := "(" + t;
    assert s[1..] == t && Run(t) == 0;
  }

  const Zero := Decimal(0, 0)
  const One := Decimal(1, 0)

  /** The unit square, written from the point list `pts`. */
  lemma SquareExample(wkt: string, pts: seq<(Decimal, Decimal)>)
    requires pts == [(Zero, Zero), (One, Zero), (One, One), (Zero, One), (Zero, Zero)]
    requires wkt == "POLYGON((0 0,1 0,1 1,0 1,0 0))"
    ensures ParseWktRings(wkt) == [[(0.0, 0.0), (1.0, 0.0), (1.0, 1.0), (0.0, 1.0), (0.0, 0.0)]]
  {
    SquareText(pts);
    SquareReals(pts);
    WktRoundTrip(pts);
  }

  lemma SquareReals(pts: seq<(Decimal, Decimal)>)
    requires pts == [(Zero, Zero), (One, Zero), (One, One), (Zero, One), (Zero, Zero)]
    ensures AsReals(pts) == [(0.0, 0.0), (1.0, 0.0), (1.0, 1.0), (0.0, 1.0), (0.0, 0.0)]
  {
  }

  lemma SquareText(pts: seq<(Decimal, Decimal)>)
    requires pts == [(Zero, Zero), (One, Zero), (One, One), (Zero, One), (Zero, Zero)]
    ensures "POLYGON((" + FormatRing(pts) + "))" == "POLYGON((0 0,1 0,1 1,0 1,0 0))"
  {
    var items := FormatItems(pts);
    SquareItems(pts);
    SquareJoin(items);
  }

  lemma SquareItems(pts: seq<(Decimal, Decimal)>)
    requires pts == [(Zero, Zero), (One, Zero), (One, One), (Zero, One), (Zero, Zero)]
    ensures FormatItems(pts) == ["0 0", "1 0", "1 1", "0 1", "0 0"]
  {
    var items := FormatItems(pts);
    SquareItem(pts, 0, "0 0");
    SquareItem(pts, 1, "1 0");
    SquareItem(pts, 2, "1 1");
    SquareItem(pts, 3, "0 1");
    SquareItem(pts, 4, "0 0");
    assert items == [items[0], items[1], items[2], items[3], items[4]];
  }

  lemma SquareItem(pts: seq<(Decimal, Decimal)>, k: nat, text: string)
    requires pts == [(Zero, Zero), (One, Zero), (One, One), (Zero, One), (Zero, Zero)]
    requires k < 5 && text == ["0 0", "1 0", "1 1", "0 1", "0 0"][k]
    ensures FormatItems(pts)[k] == text
  {
    UnitPoint(pts[k].0, pts[k].1);
  }

  /** A point with coordinates 0 or 1 is written as two digits and a space. */
  lemma UnitPoint(a: Decimal, b: Decimal)
    requires a in {Zero, One} && b in {Zero, One}
    ensures FormatPoint((a, b)) == [if a == One then '1' else '0', ' ', if b == One then '1' else '0']
  {
    assert DecimalText(Zero) == "0" && DecimalText(One) == "1";
  }

  lemma SquareJoin(items: seq<string>)
    requires items == ["0 0", "1 0", "1 1", "0 1", "0 0"]
    ensures Join(items, ",") == "0 0,1 0,1 1,0 1,0 0"
  {
    JoinCons(items, ",");
    JoinCons(items[1..], ",");
    JoinCons(items[2..], ",");
    JoinCons(items[3..], ",");
    assert items[4..] == ["0 0"];
  }

  /** A Z value (or anything after the second token) is ignored. */
  lemma ParsePairIgnoresExtra(ws: seq<string>)
    requires |ws| >= 2
    requires forall i :: 0 <= i < |ws| ==> ws[i] != [] && NoSpace(ws[i])
    ensures ParsePair(Join(ws, " ")) == ParsePair(Join(ws[..2], " "))
  {
    var two := ws[..2];
    assert forall i :: 0 <= i < |two| ==> two[i] != [] && NoSpace(two[i]) by {
      assert two[0] == ws[0] && two[1] == ws[1];
    }
    WordsJoin(ws);
    WordsJoin(two);
    PairOfWords(Join(ws, " "), ws);
    PairOfWords(Join(two, " "), two);
    CoordsFirstTwo(ws);
  }

  lemma PairOfWords(item: string, ws: seq<string>)
    requires Words(item) == ws
    ensures ParsePair(item) == ParseCoords(ws)
  {
  }

  lemma CoordsFirstTwo(ws: seq<string>)
    requires |ws| >= 2
    ensures ParseCoords(ws) == ParseCoords(ws[..2])
  {
    assert ws[..2][0] == ws[0] && ws[..2][1] == ws[1];
  }

  /** Two dots, and the token is rejected. */
  lemma TwoDotsRejected()
    ensures ParseFloat("1.2.3") == None
  {
    assert DotCount("1.2.3") == 2;
  }

  /** No digit, and the token is rejected. */
  lemma LoneDotRejected()
    ensures ParseFloat(".") == None
  {
    assert !FloatToken(".");
  }
}

=== FILE: wrappers.dfy ===
/** Failure-carrying datatypes shared by the whole model.

    `Result` stands for a Python call that either returns a value or raises;
    `Exception` names the exceptions the modelled code can raise or catch. */
module Wrappers {

  datatype Option<+T> = None | Some(value: T)

  /** The exceptions that matter to the scraper and the routes. */
  datatype Exception =
    | TypeError          // an operation applied to a JSON value of the wrong shape
    | KeyError           // a missing dictionary key
    | IndexError         // an index past the end of a list or string
    | AttributeError     // a string method called on a non-string
    | HttpError(status: int)  // raised by `raise_for_status`
    | ConnectionError    // connection refused/reset or timeout
    | JsonDecodeError    // a body that is not JSON

  datatype Result<+T> = Ok(value: T) | Err(error: Exception) {
    predicate IsFailure() { Err? }

    function PropagateFailure<U>(): Result<U>
      requires Err?
    {
      Err(error)
    }

    function Extract(): T
      requires Ok?
    {
      value
    }
  }
}
